=== FILE: README.md ===
# CourseLibrary API core in Dafny

A functional model of the CourseLibrary ASP.NET Core Web API. It covers authors
and their courses, users, the validation rules, the AutoMapper profiles, the
repositories over the EF Core store, the service that pairs every mutation with
a save, and the controllers' request flows with their HATEOAS links.

How the model is built:

- **Store.** The database is a finite map from id to row for authors and for
  courses, plus a list of users, because the credential lookup takes the first
  match. `Database.Valid` states the declared constraints:
  - every row sits under its own key;
  - the empty id is never a key;
  - every course's required foreign key names a stored author.
- **Ids.** `Guid.NewGuid` is a supply `nat -> NewGuid` with a cursor.
  Freshness is a hypothesis of the lemmas. It is not a precondition of the
  operations.
- **Service context.** The service runs on a context made of:
  - the committed store;
  - the working store that the repositories change;
  - the supply cursor;
  - the trace of repository calls.

  `SaveAsync` commits the working store and appends a save to the trace.
  Controllers read the committed store.
- **Errors.** An exception is a `Failure` value: a guard's
  ArgumentNullException, or a key or foreign-key violation of the store. In a
  controller it becomes a `Fault` response, which the exception middleware
  turns into a 500. A CreatedAtRoute result that names a route no action
  declares is a `Fault` too, raised after the action's changes are saved.
- **Strings.** A Dafny `char` is a Unicode scalar value. Every length the
  program checks is `string.Length`, the number of UTF-16 code units, so the
  model counts `Text.Utf16Length`: a character above U+FFFF counts twice.
- **Links.** `Href` is null when the route named does not resolve: the
  builder is only consulted for the current action or a declared route name.
- **Parameters.** The clock (`today`), the URI builder, the injected validator
  for AuthorForCreationModel, the JSON patch document and the two-argument
  course lookup are parameters of the operations.

Modules follow the program:

- `Text`, `Guids` and `Calendar`: string, id and date primitives.
- `AgeHelper` and `DateTimeOffsetExtensions`: the age gate and the age.
- `Entities` and `Models`: the entities and the transfer models.
- `Validators`: the FluentValidation rule tables.
- `Profiles`: the AutoMapper maps.
- `Database` and `Ordering`: the store and its sorted listings.
- `AuthorRepository`, `CourseRepository` and `UserRepository`.
- `Service`: the CourseLibraryService.
- `Hateoas`: links and link sets.
- `ActionResults`: responses.
- One module per controller.

## Model

| member | source | states |
|---|---|---|
| AgeHelper.OnlyYearMatters | src/CourseLibrary/CourseLibrary.API/Helpers/AgeHelper.cs:8-10 | two birth dates in the same year get the same verdict: month and day are never consulted |
| AgeHelper.Boundaries | src/CourseLibrary/CourseLibrary.API/Helpers/AgeHelper.cs:11 | a year difference of exactly 18 or 80 is rejected, 19 and 79 are accepted |
| AgeHelper.FutureBirthRejected | src/CourseLibrary/CourseLibrary.API/Helpers/AgeHelper.cs:10-16 | a birth year at or after the current year is always rejected |
| AgeHelper.GateBracketsCurrentAge | src/CourseLibrary/CourseLibrary.API/Helpers/AgeHelper.cs:6-17 | an accepted date means a completed age in 18..79, and every completed age in 19..78 is accepted |
| AgeHelper.GateIsNotAgeExample | src/CourseLibrary/CourseLibrary.API/Helpers/AgeHelper.cs:10-11 | an 18-year-old whose birthday is still ahead passes the gate, and one who turned 18 yesterday is rejected |
| DateTimeOffsetExtensions.GetCurrentAge | src/CourseLibrary/CourseLibrary.API/Extensions/DateTimeOffsetExtensions.cs:29-40 | the age is the year difference or one less |
| DateTimeOffsetExtensions.CurrentAgeIsCompletedYears | src/CourseLibrary/CourseLibrary.API/Extensions/DateTimeOffsetExtensions.cs:33-37 | the age-th anniversary has been reached (when it is a valid date) and the next one has not |
| DateTimeOffsetExtensions.OnAnniversary | src/CourseLibrary/CourseLibrary.API/Extensions/DateTimeOffsetExtensions.cs:34 | on the anniversary itself there is no decrement, because the comparison is strict |
| DateTimeOffsetExtensions.BeforeAnniversary | src/CourseLibrary/CourseLibrary.API/Extensions/DateTimeOffsetExtensions.cs:34-37 | strictly before this year's anniversary the age is the year difference minus one |
| DateTimeOffsetExtensions.AgeMonotone | src/CourseLibrary/CourseLibrary.API/Extensions/DateTimeOffsetExtensions.cs:29-40 | a later today never gives a smaller age |
| DateTimeOffsetExtensions.DayBeforeAnniversaryExample | src/CourseLibrary/CourseLibrary.API/Extensions/DateTimeOffsetExtensions.cs:33-37 | the day before the 26th birthday gives 25, the birthday gives 26 |
| DateTimeOffsetExtensions.LeapDayBirthExample | src/CourseLibrary/CourseLibrary.API/Extensions/DateTimeOffsetExtensions.cs:34 | a 29 February birth reaches its first anniversary on 28 February of a common year |
| Calendar.AddYears | src/CourseLibrary/CourseLibrary.API/Extensions/DateTimeOffsetExtensions.cs:34 | defined exactly when the target year is in 1..9999; keeps month and day, except that 29 February becomes the 28th |
| Calendar.LeapDayClamps | src/CourseLibrary/CourseLibrary.API/Extensions/DateTimeOffsetExtensions.cs:34 | 29 February moved to a common year lands on 28 February |
| Entities.NewAuthor | src/CourseLibrary/CourseLibrary.API/Entities/Author.cs:11-18 | a new author has the empty id, empty name and category strings and no courses |
| Entities.NewCourse | src/CourseLibrary/CourseLibrary.API/Entities/Course.cs:9-16 | a new course has the empty id and author id, an empty title and a null description |
| Entities.NewUser | src/CourseLibrary/CourseLibrary.API/Entities/User.cs:8-12 | a new user has the empty id and every string field empty |
| Entities.NewEntitiesFitColumns | src/CourseLibrary/CourseLibrary.API/Entities/Author.cs:25-30 | freshly constructed entities satisfy the declared required and maximum-length column constraints |
| Entities.CourseColumnBounds | src/CourseLibrary/CourseLibrary.API/Entities/Course.cs:25-26 | a 51-unit title or a 301-unit description breaks the course columns; a null description fits |
| Validators.CheckString | src/CourseLibrary/CourseLibrary.API/Validators/AuthorUpdateValidator.cs:9-12 | a rule chain reports, under the property's name, every rule of the chain that the value fails and no rule it passes, with no more failures than rules |
| Validators.CheckStringEmptyIff | src/CourseLibrary/CourseLibrary.API/Validators/AuthorUpdateValidator.cs:9-12 | a chain reports nothing iff every one of its rules passes |
| Validators.CheckInt | src/CourseLibrary/CourseLibrary.API/Validators/AuthorValidator.cs:9 | an integer chain reports nothing exactly when every comparison passes |
| Validators.RequiredWithLengthChain | src/CourseLibrary/CourseLibrary.API/Validators/AuthorUpdateValidator.cs:9 | NotNull, NotEmpty, Length(min, max) passes iff the string is present, not blank or whitespace-only, and its UTF-16 length is within the inclusive bounds |
| Validators.RequiredChain | src/CourseLibrary/CourseLibrary.API/Validators/AuthorUpdateValidator.cs:12 | NotNull, NotEmpty passes iff the string is present and not blank or whitespace-only |
| Validators.AgeFailures | src/CourseLibrary/CourseLibrary.API/Validators/AuthorUpdateValidator.cs:11 | the date-of-birth rule fails iff the age gate rejects the date |
| Validators.FirstNameFailures | src/CourseLibrary/CourseLibrary.API/Validators/AuthorUpdateValidator.cs:9 | no FirstName failure iff the first name is required text of 3..50 UTF-16 code units |
| Validators.LastNameFailures | src/CourseLibrary/CourseLibrary.API/Validators/AuthorUpdateValidator.cs:10 | no LastName failure iff the last name is required text of 3..50 UTF-16 code units |
| Validators.DateOfBirthFailures | src/CourseLibrary/CourseLibrary.API/Validators/AuthorUpdateValidator.cs:11 | no DateOfBirth failure iff the age gate accepts the date |
| Validators.MainCategoryFailures | src/CourseLibrary/CourseLibrary.API/Validators/AuthorUpdateValidator.cs:12 | no MainCategory failure iff the category is required text, with no length cap |
| Validators.AuthorUpdateValidIff | src/CourseLibrary/CourseLibrary.API/Validators/AuthorUpdateValidator.cs:9-12 | the update model is valid iff all four rules hold |
| Validators.AuthorModelValidIff | src/CourseLibrary/CourseLibrary.API/Validators/AuthorValidator.cs:8-10 | the author view is valid iff the name is required text of 3..50 UTF-16 code units, the age is in 18..80 inclusive and the category is required |
| Validators.CourseValidIff | src/CourseLibrary/CourseLibrary.API/Validators/CourseValidator.cs:9-10 | a course payload is valid iff the title is required text of 3..100 UTF-16 code units and the description, if present, has at most 300 |
| Validators.ValidatedTitleMayNotFitColumn | src/CourseLibrary/CourseLibrary.API/Validators/CourseValidator.cs:9 | a 60-character title passes the validator although the column holds 50 code units |
| Validators.AstralTitleMeetsMinimum | src/CourseLibrary/CourseLibrary.API/Validators/CourseValidator.cs:9 | a title of two characters, the second above U+FFFF, has length 3 and passes Length(3, 100) |
| Validators.AuthenticationValidIff | src/CourseLibrary/CourseLibrary.API/Validators/AuthenticationValidator.cs:7-8 | credentials are valid iff the email is required text of 8..50 UTF-16 code units with exactly one '@' between two characters, and the password is required text of 8..50 code units |
| Validators.PasswordLengthBounds | src/CourseLibrary/CourseLibrary.API/Validators/AuthenticationValidator.cs:8 | a password of 7 or 51 UTF-16 code units is rejected |
| Validators.EmailAddressIff | src/CourseLibrary/CourseLibrary.API/Validators/AuthenticationValidator.cs:7 | FluentValidation's default EmailAddress check accepts a text iff it holds exactly one '@', with a character on each side |
| Validators.EmailAddressExamples | src/CourseLibrary/CourseLibrary.API/Validators/AuthenticationValidator.cs:7 | "a@b" is an address; "@b", "a@", "a@@b" and "ab" are not |
| Profiles.AuthorModelView | src/CourseLibrary/CourseLibrary.API/Profiles/AuthorProfile.cs:10-14 | the view copies id and category, joins first and last name with one space, and takes the age from the date of birth |
| Profiles.FromAuthorCreationModel | src/CourseLibrary/CourseLibrary.API/Profiles/AuthorProfile.cs:17 | a creation payload becomes an author with the empty id, the same names, date, category and courses |
| Profiles.FromCourseCreationModel | src/CourseLibrary/CourseLibrary.API/Profiles/CourseProfile.cs:9 | a course payload becomes a course with the same title and description and empty ids |
| Profiles.ToCourseModel | src/CourseLibrary/CourseLibrary.API/Profiles/CourseProfile.cs:8 | the course view copies id, title and description |
| Profiles.ToCourseCreationModel | src/CourseLibrary/CourseLibrary.API/Profiles/CourseProfile.cs:10 | the projection copies title and description |
| Profiles.MergeCourseCreationModel | src/CourseLibrary/CourseLibrary.API/Profiles/CourseProfile.cs:9 | mapping a payload onto a course keeps its id and author id |
| Profiles.CourseRoundTrip | src/CourseLibrary/CourseLibrary.API/Profiles/CourseProfile.cs:9-10 | projecting a course and mapping it back onto itself changes nothing |
| Profiles.CourseMergeFaithful | src/CourseLibrary/CourseLibrary.API/Profiles/CourseProfile.cs:9-10 | after mapping a payload onto a course, projecting gives that payload back |
| Profiles.CourseCreationRoundTrip | src/CourseLibrary/CourseLibrary.API/Profiles/CourseProfile.cs:9-10 | a payload turned into a course and projected back is unchanged |
| Profiles.MergeUpdateModel | src/CourseLibrary/CourseLibrary.API/Controllers/AuthorController.cs:176 | merging the update model keeps the author's id and courses |
| Profiles.UpdateModelRoundTrip | src/CourseLibrary/CourseLibrary.API/Controllers/AuthorController.cs:164-176 | projecting an author to the update model and merging it back changes nothing |
| Profiles.UpdateModelMergeFaithful | src/CourseLibrary/CourseLibrary.API/Controllers/AuthorController.cs:164-176 | after a merge, projecting gives the merged update model back |
| Profiles.MergeUpdateModelIgnoresOldFields | src/CourseLibrary/CourseLibrary.API/Controllers/AuthorController.cs:176 | the merge result depends only on the model and the target's id and courses |
| Guids.Format | src/CourseLibrary/CourseLibrary.API/Controllers/AuthorCollectionsController.cs:86 | an id's text has 36 characters and no comma |
| Guids.Parse | src/CourseLibrary/CourseLibrary.API/Controllers/AuthorCollectionsController.cs:86 | the model's inverse of the "D" text that Join writes into the location key: only 36-character texts parse to an id |
| Guids.ParseFormat | src/CourseLibrary/CourseLibrary.API/Controllers/AuthorCollectionsController.cs:86 | parsing an id's text gives the id back |
| Guids.FormatInjective | src/CourseLibrary/CourseLibrary.API/Controllers/AuthorCollectionsController.cs:86 | distinct ids have distinct texts |
| Text.Split | src/CourseLibrary/CourseLibrary.API/Controllers/AuthorCollectionsController.cs:86 | the model's inverse of the comma Join: splitting always yields at least one piece |
| Text.SplitJoin | src/CourseLibrary/CourseLibrary.API/Controllers/AuthorCollectionsController.cs:86 | splitting a comma-join of comma-free pieces gives the pieces back |
| Text.Utf16Length | src/CourseLibrary/CourseLibrary.API/Validators/CourseValidator.cs:9-10 | string.Length lies between the number of characters and twice it, and equals it iff no character is above U+FFFF |
| Text.Utf16LengthAppend | src/CourseLibrary/CourseLibrary.API/Validators/CourseValidator.cs:9-10 | the length of a concatenation is the sum of the lengths |
| Text.AstralCharacterCountsTwice | src/CourseLibrary/CourseLibrary.API/Validators/CourseValidator.cs:9 | two characters, one above U+FFFF, have length 3 |
| Text.IndexOf | src/CourseLibrary/CourseLibrary.API/Validators/AuthenticationValidator.cs:7 | the position of the first occurrence of a character, or -1 iff it does not occur |
| Text.LastIndexOf | src/CourseLibrary/CourseLibrary.API/Validators/AuthenticationValidator.cs:7 | the position of the last occurrence of a character, or -1 iff it does not occur |
| Ordering.OrderIds | src/CourseLibrary/CourseLibrary.API/Repositories/CourseRepository.cs:57-59 | the keys come out each exactly once, ordered by sort key with ties broken by id |
| Ordering.ListBy | src/CourseLibrary/CourseLibrary.API/Repositories/AuthorRepository.cs:78-81 | a listing holds each selected row once and nothing else, and is sorted by its key |
| Database.Materialize | src/CourseLibrary/CourseLibrary.API/Repositories/AuthorRepository.cs:61 | the author row with exactly the courses whose key names it attached |
| Database.MaterializedCourses | src/CourseLibrary/CourseLibrary.API/Repositories/AuthorRepository.cs:61 | in a valid store the attached courses are exactly the stored courses of that author |
| AuthorRepository.WithNewIds | src/CourseLibrary/CourseLibrary.API/Repositories/AuthorRepository.cs:21-28 | the author gets the next fresh id, and each course in order the following ids and the author's new id as its key |
| AuthorRepository.InsertGraph | src/CourseLibrary/CourseLibrary.API/Repositories/AuthorRepository.cs:30 | adding the graph stores the author row and every course row and changes no other row |
| AuthorRepository.AddAuthor | src/CourseLibrary/CourseLibrary.API/Repositories/AuthorRepository.cs:15-31 | null fails, and the only other failure is a taken key; a success gives the author the next fresh id and each course the following ids with the author's id as its key, keeping every other field |
| AuthorRepository.NewIdsAreFree | src/CourseLibrary/CourseLibrary.API/Repositories/AuthorRepository.cs:21-28 | ids drawn from a fresh supply are pairwise distinct and not yet in the store |
| AuthorRepository.InsertGraphValid | src/CourseLibrary/CourseLibrary.API/Repositories/AuthorRepository.cs:30 | adding a graph with free keys and wired courses keeps the store valid |
| AuthorRepository.InsertGraphKeepsSupplyFresh | src/CourseLibrary/CourseLibrary.API/Repositories/AuthorRepository.cs:21-30 | the supply past the ids used stays fresh for the new store |
| AuthorRepository.InsertedCoursesRead | src/CourseLibrary/CourseLibrary.API/Repositories/AuthorRepository.cs:30 | every added course is among the author's courses on reading back |
| AuthorRepository.ReadCoursesInserted | src/CourseLibrary/CourseLibrary.API/Repositories/AuthorRepository.cs:30 | only added courses are among the new author's courses on reading back |
| AuthorRepository.InsertGraphMaterializes | src/CourseLibrary/CourseLibrary.API/Repositories/AuthorRepository.cs:30 | reading the new author back gives its row and exactly its courses |
| AuthorRepository.AddAuthorFresh | src/CourseLibrary/CourseLibrary.API/Repositories/AuthorRepository.cs:15-31 | on a valid store with a fresh supply the add succeeds, keeps the store valid and all old rows, and the author reads back with its courses |
| AuthorRepository.AuthorExists | src/CourseLibrary/CourseLibrary.API/Repositories/AuthorRepository.cs:33-41 | the empty id fails; otherwise true iff an author row has the id |
| AuthorRepository.GetAuthor | src/CourseLibrary/CourseLibrary.API/Repositories/AuthorRepository.cs:53-63 | the empty id fails; otherwise the stored author with that id, or none |
| AuthorRepository.ExistsIffFound | src/CourseLibrary/CourseLibrary.API/Repositories/AuthorRepository.cs:33-63 | the existence check says true exactly when the lookup finds an author |
| AuthorRepository.GetAuthorFindsItsCourses | src/CourseLibrary/CourseLibrary.API/Repositories/AuthorRepository.cs:61 | the fetched author carries exactly the stored courses that name it |
| AuthorRepository.GetAuthors | src/CourseLibrary/CourseLibrary.API/Repositories/AuthorRepository.cs:66-69 | every stored author once, and nothing else |
| AuthorRepository.GetAuthorsByIds | src/CourseLibrary/CourseLibrary.API/Repositories/AuthorRepository.cs:71-82 | null fails; otherwise each stored author whose id is listed, once however often listed, sorted by last name |
| AuthorRepository.DeleteAuthor | src/CourseLibrary/CourseLibrary.API/Repositories/AuthorRepository.cs:43-51 | null fails, then a missing row; otherwise the author row and the courses naming it are removed and nothing else |
| AuthorRepository.DeleteAuthorCascades | src/CourseLibrary/CourseLibrary.API/Entities/Course.cs:29 | after a delete the store is valid, the author is gone with all its courses, and other rows are untouched |
| AuthorRepository.UpdateAuthor | src/CourseLibrary/CourseLibrary.API/Repositories/AuthorRepository.cs:84-87 | null or a missing row fails; otherwise only that author row is replaced |
| AuthorRepository.UpdateAuthorThenGet | src/CourseLibrary/CourseLibrary.API/Repositories/AuthorRepository.cs:84-87 | after an update the author reads back with the new fields and its unchanged courses |
| CourseRepository.AddCourse | src/CourseLibrary/CourseLibrary.API/Repositories/CourseRepository.cs:15-30 | the empty author id fails first, then null; otherwise the course is stored under the path author id, with a fresh id when it had none |
| CourseRepository.AddCourseIgnoresGivenAuthorId | src/CourseLibrary/CourseLibrary.API/Repositories/CourseRepository.cs:27-28 | the author id inside the payload never affects the result |
| CourseRepository.AddCourseFresh | src/CourseLibrary/CourseLibrary.API/Repositories/CourseRepository.cs:15-30 | on a valid store with a fresh supply the add succeeds, keeps the store valid and stores the course under a new id |
| CourseRepository.GetCourse | src/CourseLibrary/CourseLibrary.API/Repositories/CourseRepository.cs:37-48 | the empty id fails; otherwise the course with that id, or none |
| CourseRepository.GetCourseHasId | src/CourseLibrary/CourseLibrary.API/Repositories/CourseRepository.cs:45-46 | in a valid store a found course carries the id asked for |
| CourseRepository.GetCoursesForAuthor | src/CourseLibrary/CourseLibrary.API/Repositories/CourseRepository.cs:50-60 | the empty id fails; otherwise exactly the courses naming the author, sorted by title |
| CourseRepository.NoCoursesEmptyList | src/CourseLibrary/CourseLibrary.API/Repositories/CourseRepository.cs:57-59 | an author with no courses gets the empty list |
| CourseRepository.GetCourses | src/CourseLibrary/CourseLibrary.API/Repositories/CourseRepository.cs:61-65 | every stored course once, sorted by title |
| CourseRepository.DeleteCourse | src/CourseLibrary/CourseLibrary.API/Repositories/CourseRepository.cs:32-35 | null or a missing row fails; otherwise only that course row is removed |
| CourseRepository.DeleteCourseThenGet | src/CourseLibrary/CourseLibrary.API/Repositories/CourseRepository.cs:32-35 | after a delete the course is not found and the store stays valid |
| CourseRepository.UpdateCourse | src/CourseLibrary/CourseLibrary.API/Repositories/CourseRepository.cs:67-70 | null, a missing row or an unknown author fails; otherwise only that course row is replaced |
| CourseRepository.UpdateCourseThenGet | src/CourseLibrary/CourseLibrary.API/Repositories/CourseRepository.cs:67-70 | after an update the course reads back with the new fields |
| UserRepository.FirstWhere | src/CourseLibrary/CourseLibrary.API/Repositories/UserRepository.cs:25 | the first matching user in table order, or none exactly when no user matches |
| UserRepository.GetUserByCredentials | src/CourseLibrary/CourseLibrary.API/Repositories/UserRepository.cs:13-27 | a null or empty email fails first, then the password; otherwise the first user with both equal, or none |
| UserRepository.GetUserById | src/CourseLibrary/CourseLibrary.API/Repositories/UserRepository.cs:28-35 | the empty id fails; otherwise a user with that id, found iff one is stored |
| UserRepository.EarlierUserWins | src/CourseLibrary/CourseLibrary.API/Repositories/UserRepository.cs:25 | of two users with the same credentials the earlier one is returned |
| Service.Save | src/CourseLibrary/CourseLibrary.API/Services/CourseLibraryService.cs:22 | a save commits the working store and records one save call |
| Service.Mutate | src/CourseLibrary/CourseLibrary.API/Services/CourseLibraryService.cs:30-58 | a mutation records its call; a failure stops there with nothing committed; a success is followed by exactly one save on the same repository |
| Service.AddAuthor | src/CourseLibrary/CourseLibrary.API/Services/CourseLibraryService.cs:30-35 | the add call, then one author save; the committed store is the repository's result |
| Service.AddCourse | src/CourseLibrary/CourseLibrary.API/Services/CourseLibraryService.cs:37-41 | the add call with the caller's author id unchanged, then one course save |
| Service.DeleteAuthor | src/CourseLibrary/CourseLibrary.API/Services/CourseLibraryService.cs:48-52 | the delete call, then one author save on success; nothing committed on failure |
| Service.DeleteCourse | src/CourseLibrary/CourseLibrary.API/Services/CourseLibraryService.cs:54-58 | the delete call, then one course save on success; nothing committed on failure |
| Service.UpdateAuthor | src/CourseLibrary/CourseLibrary.API/Services/CourseLibraryService.cs:85-89 | the update call, then one author save on success; nothing committed on failure |
| Service.UpdateCourse | src/CourseLibrary/CourseLibrary.API/Services/CourseLibraryService.cs:91-95 | the update call, then one course save on success, with the repository update that writes the row |
| Service.UpdateCourseAsWritten | src/CourseLibrary/CourseLibrary.API/Services/CourseLibraryService.cs:91-95 | the update call and one save always succeed |
| Service.UpdateCourseAsWrittenLosesEdit | src/CourseLibrary/CourseLibrary.API/Services/CourseLibraryService.cs:91-95 | an edited course saved through the update as written reads back unedited, and through the corrected update reads back edited |
| Service.AddCalls | src/CourseLibrary/CourseLibrary.API/Services/CourseLibraryService.cs:18-21 | one add call per author |
| Service.AddEach | src/CourseLibrary/CourseLibrary.API/Services/CourseLibraryService.cs:18-21 | the adds commit nothing and a successful run returns one author per input |
| Service.AddCallsNoSave | src/CourseLibrary/CourseLibrary.API/Services/CourseLibraryService.cs:18-22 | a run of add calls holds no save |
| Service.AddEachSuccessTrace | src/CourseLibrary/CourseLibrary.API/Services/CourseLibraryService.cs:18-21 | a successful run records one add per author in input order |
| Service.AddEachFailureTrace | src/CourseLibrary/CourseLibrary.API/Services/CourseLibraryService.cs:18-21 | a failing run records the adds in input order up to and including the one that failed |
| Service.AddEachKeepsFields | src/CourseLibrary/CourseLibrary.API/Services/CourseLibraryService.cs:18-21 | each added author keeps the names, date and category of its input |
| Service.AddAuthors | src/CourseLibrary/CourseLibrary.API/Services/CourseLibraryService.cs:16-23 | success records every add in input order then exactly one save; failure saves nothing and commits nothing |
| Service.AddEachFailureNoSave | src/CourseLibrary/CourseLibrary.API/Services/CourseLibraryService.cs:18-22 | a failing batch has recorded no save since it began |
| Service.EmptyBatchSavesOnce | src/CourseLibrary/CourseLibrary.API/Services/CourseLibraryService.cs:16-23 | an empty batch makes no add and one save |
| Service.AddEachFresh | src/CourseLibrary/CourseLibrary.API/Services/CourseLibraryService.cs:18-21 | on a valid store with a fresh supply every add succeeds, the store stays valid and the supply fresh |
| Service.AddEachKeepsRows | src/CourseLibrary/CourseLibrary.API/Services/CourseLibraryService.cs:18-21 | a batch leaves stored authors untouched and stores each new author under an id not taken before |
| Service.AddEachDistinct | src/CourseLibrary/CourseLibrary.API/Services/CourseLibraryService.cs:18-21 | the authors of one batch get pairwise distinct ids |
| Service.AddAuthorsFresh | src/CourseLibrary/CourseLibrary.API/Services/CourseLibraryService.cs:16-23 | on a valid store with a fresh supply a batch commits a valid store holding every new author under distinct ids |
| Hateoas.DefaultLink | src/CourseLibrary/CourseLibrary.API/Hateoas/Link.cs:5-12 | the default link has empty (not null) href, rel and method |
| Hateoas.LinkStoresArguments | src/CourseLibrary/CourseLibrary.API/Hateoas/Link.cs:14-19 | the three-argument link stores its arguments unchanged, a null href included |
| Hateoas.Href | src/CourseLibrary/CourseLibrary.API/Controllers/RootController.cs:17-25 | a link's href is null exactly when its target is a route name no action declares, and otherwise the builder's URI for the target and values |
| Hateoas.AuthorLinks | src/CourseLibrary/CourseLibrary.API/Controllers/AuthorController.cs:211-241 | self/GET, create_author/POST, update_author/PATCH, delete_author/DELETE, each built on the action handling the current request with its route values, never null; only create carries no author id |
| Hateoas.AuthorLinksShareHref | src/CourseLibrary/CourseLibrary.API/Controllers/AuthorController.cs:211-241 | within one request, self, update and delete have the same href, and the rels are distinct |
| Hateoas.AuthorLinksDependOnRequest | src/CourseLibrary/CourseLibrary.API/Controllers/AuthorController.cs:216 | the same author's self link built in a POST and in a GET can differ, because the current action is part of the builder's input |
| Hateoas.CourseLinks | src/CourseLibrary/CourseLibrary.API/Controllers/CourseController.cs:123-141 | self/GET on GetCourse then update_course/PATCH on UpdateCourse, both keyed by the course id |
| Hateoas.AuthorCourseLinks | src/CourseLibrary/CourseLibrary.API/Controllers/AuthorCoursesController.cs:209-239 | four links on GetCoursesForAuthor, CreateCourseForAuthor, UpdateAuthorCourse and DeleteAuthorCourse, all keyed by the author id |
| Hateoas.AuthorCourseLinksRels | src/CourseLibrary/CourseLibrary.API/Controllers/AuthorCoursesController.cs:209-239 | the rels are self, create_author_course, update_author_course, delete_author_course and the methods GET, POST, PATCH, DELETE |
| Hateoas.CoursesWithLinks | src/CourseLibrary/CourseLibrary.API/Controllers/AuthorCoursesController.cs:241-256 | same length and order as the input, each course wrapped with the links of its own id |
| Hateoas.CoursesWithLinksUnwrap | src/CourseLibrary/CourseLibrary.API/Controllers/AuthorCoursesController.cs:241-256 | unwrapping the wrapped courses gives the input back |
| Hateoas.RootLinks | src/CourseLibrary/CourseLibrary.API/Controllers/RootController.cs:15-28 | self/GET and create_author/POST on GetRoot and AddAuthor; create_authors/POST names AddAuthorCollection, which no action declares, so its href is null |
| Hateoas.LinkSetsRelsDistinct | src/CourseLibrary/CourseLibrary.API/Controllers/AuthorCoursesController.cs:209-275 | no fixed link set repeats a rel |
| AuthorController.ApplyPatch | src/CourseLibrary/CourseLibrary.API/Controllers/AuthorController.cs:166 | a null patch document leaves the projection unchanged |
| AuthorController.Get | src/CourseLibrary/CourseLibrary.API/Controllers/AuthorController.cs:49-67 | the empty id faults, a missing author is NotFound, otherwise the author's view with the links of its id built in the Get action of that request |
| AuthorController.GetStored | src/CourseLibrary/CourseLibrary.API/Controllers/AuthorController.cs:51-66 | in a valid store a stored author is found under its own id, with the Get action's links |
| AuthorController.Post | src/CourseLibrary/CourseLibrary.API/Controllers/AuthorController.cs:80-105 | BadRequest with the validator's failures iff it reports any, and then no add; otherwise one add and Created at GetAuthor with the new id and its links |
| AuthorController.PostCreates | src/CourseLibrary/CourseLibrary.API/Controllers/AuthorController.cs:91-104 | on a valid store with a fresh supply a valid payload is stored under a new id; the returned links are built in the Post action, and reading the author back gives the same view with the Get action's links |
| AuthorController.Patch | src/CourseLibrary/CourseLibrary.API/Controllers/AuthorController.cs:153-182 | NotFound before any patch; BadRequest with the update validator's failures on the patched projection and nothing updated; otherwise one update of the merged author and one save |
| AuthorController.PatchWrites | src/CourseLibrary/CourseLibrary.API/Controllers/AuthorController.cs:166-181 | a patch that validates is written: the author's editable fields are the patched ones and no other row changes |
| AuthorController.BlankFirstNameRejected | src/CourseLibrary/CourseLibrary.API/Controllers/AuthorController.cs:164-174 | a patch that blanks the first name is BadRequest with a FirstName failure and changes nothing |
| AuthorController.Delete | src/CourseLibrary/CourseLibrary.API/Controllers/AuthorController.cs:197-209 | the empty id faults, a missing author is NotFound, otherwise one delete of the fetched author and one save |
| AuthorController.DeleteCascades | src/CourseLibrary/CourseLibrary.API/Controllers/AuthorController.cs:199-208 | after a delete the author is not found and none of its courses remain |
| CourseController.Get | src/CourseLibrary/CourseLibrary.API/Controllers/CourseController.cs:42-59 | the empty id faults, a missing course is NotFound, otherwise the course view with links keyed by the route id |
| CourseController.PlanPatch | src/CourseLibrary/CourseLibrary.API/Controllers/CourseController.cs:96-115 | NotFound before any patch; a null document faults; BadRequest iff the patched projection fails the course rules; otherwise write the patched projection |
| CourseController.Patch | src/CourseLibrary/CourseLibrary.API/Controllers/CourseController.cs:94-122 | a stopped plan answers with nothing changed; a write records one update of the merged course, followed by one save when it answers NoContent |
| CourseController.PatchWrites | src/CourseLibrary/CourseLibrary.API/Controllers/CourseController.cs:117-121 | with the corrected update a patch that validates is stored and read back by Get |
| CourseController.PatchAsWritten | src/CourseLibrary/CourseLibrary.API/Controllers/CourseController.cs:94-122 | as written, a patch that validates answers NoContent |
| CourseController.PatchAsWrittenLosesEdit | src/CourseLibrary/CourseLibrary.API/Controllers/CourseController.cs:117-121 | as written, the NoContent patch leaves the committed course as it was |
| AuthorCoursesController.Get | src/CourseLibrary/CourseLibrary.API/Controllers/AuthorCoursesController.cs:42-62 | the empty id faults, a missing author is NotFound; otherwise the author's courses in title order, each with its links, inside the author-course links |
| AuthorCoursesController.GetNoCourses | src/CourseLibrary/CourseLibrary.API/Controllers/AuthorCoursesController.cs:49-61 | an author with no courses gets Ok with an empty list |
| AuthorCoursesController.Post | src/CourseLibrary/CourseLibrary.API/Controllers/AuthorCoursesController.cs:78-116 | validation comes before the existence check; a created course is added under the path author id, Created at GetCoursesForAuthor with both link sets |
| AuthorCoursesController.PostCreates | src/CourseLibrary/CourseLibrary.API/Controllers/AuthorCoursesController.cs:96-115 | on a valid store with a fresh supply the course is stored under a new id and listed for the author |
| AuthorCoursesController.Put | src/CourseLibrary/CourseLibrary.API/Controllers/AuthorCoursesController.cs:136-173 | validate, then existence; a course the lookup misses is added with the route course id and saved, and the answer is a 500 because GetCourseForAuthor is declared nowhere; a found one is overwritten with the corrected update (NoContent) |
| AuthorCoursesController.PutCreates | src/CourseLibrary/CourseLibrary.API/Controllers/AuthorCoursesController.cs:156-165 | an unused course id is saved with the payload's fields under the path author, although the client gets a 500 |
| AuthorCoursesController.PutEmptyIdDrawsFreshId | src/CourseLibrary/CourseLibrary.API/Controllers/AuthorCoursesController.cs:158-165 | a route course id of Guid.Empty makes the store save the course under the next fresh id, behind the same 500 |
| AuthorCoursesController.PutOverwrites | src/CourseLibrary/CourseLibrary.API/Controllers/AuthorCoursesController.cs:168-172 | with the corrected update, a found course keeps its id and author and takes the payload's title and description |
| AuthorCoursesController.PutAsWritten | src/CourseLibrary/CourseLibrary.API/Controllers/AuthorCoursesController.cs:136-173 | the action with the program's empty UpdateCourse: the update branch records the update and one save, commits the pending store unchanged and answers NoContent; every other branch is Put's |
| AuthorCoursesController.PutAsWrittenKeepsRow | src/CourseLibrary/CourseLibrary.API/Controllers/AuthorCoursesController.cs:168-172 | as written, a found course gets NoContent with the committed store unchanged, and a payload that differs from the stored course is lost where the corrected Put writes it |
| AuthorCoursesController.Delete | src/CourseLibrary/CourseLibrary.API/Controllers/AuthorCoursesController.cs:189-207 | a missing author, then a missing course, is NotFound; otherwise one delete of that course and one save |
| AuthorCoursesController.DeleteRemoves | src/CourseLibrary/CourseLibrary.API/Controllers/AuthorCoursesController.cs:196-206 | that course is gone and every other course is unchanged |
| AuthorCollectionsController.Get | src/CourseLibrary/CourseLibrary.API/Controllers/AuthorCollectionsController.cs:37-50 | NotFound iff the number of ids differs from the number of authors found; otherwise the views of the found authors |
| AuthorCollectionsController.FoundAllIff | src/CourseLibrary/CourseLibrary.API/Controllers/AuthorCollectionsController.cs:42 | as many authors are found as ids are asked for iff no id repeats and every id is stored |
| AuthorCollectionsController.GetNotFoundIff | src/CourseLibrary/CourseLibrary.API/Controllers/AuthorCollectionsController.cs:39-45 | NotFound iff an id repeats or an id is not stored |
| AuthorCollectionsController.GetReturnsEach | src/CourseLibrary/CourseLibrary.API/Controllers/AuthorCollectionsController.cs:39-49 | a found collection has one entry per id and holds the view of each author asked for |
| AuthorCollectionsController.FirstInvalid | src/CourseLibrary/CourseLibrary.API/Controllers/AuthorCollectionsController.cs:70-80 | the first payload the validator rejects, or none iff all pass |
| AuthorCollectionsController.Post | src/CourseLibrary/CourseLibrary.API/Controllers/AuthorCollectionsController.cs:63-91 | null faults; empty is BadRequest; the first invalid payload is BadRequest with nothing added; otherwise one batch add and Created at GetAuthorCollection keyed by the joined ids |
| AuthorCollectionsController.LocationKeyRoundTrip | src/CourseLibrary/CourseLibrary.API/Controllers/AuthorCollectionsController.cs:86-90 | splitting the location key on commas and parsing gives the new ids back in order |
| AuthorCollectionsController.PostCreatesAll | src/CourseLibrary/CourseLibrary.API/Controllers/AuthorCollectionsController.cs:82-90 | on a valid store with a fresh supply every payload is stored under a distinct new id, in input order, and the key splits and parses back to those ids |
| RootController.GetRoot | src/CourseLibrary/CourseLibrary.API/Controllers/RootController.cs:12-31 | Ok with the three root links found by rel; self points at GetRoot and create_authors has a null href |
| ActionResults.CreatedAt | src/CourseLibrary/CourseLibrary.API/Controllers/AuthorCoursesController.cs:163-165 | a CreatedAtRoute result is answered as such iff its route name is declared; otherwise it throws while being written, a 500 |

## Left out

- Dependency injection, middleware, Swagger, JWT setup, rate limiting, cache headers and logging are framework configuration.
- AuthenticationController and UserService are left out. The first is JWT signing and the wall clock; the second forwards one call to UserRepository.
- The constructors' null guards are left out: the model has no null collaborators.
- Time of day and UTC offsets are not modelled. `GetCurrentAge` is modelled in its calendar-date form, with `today` passed in. `BeValidAge` takes the current year as a parameter.
- The internals of JSON Patch (section 4 of RFC 6902) are not modelled. A patch document is an abstract function on the projection, or none for a null document. Patch errors written to ModelState do not stop either patch flow in the code, so the model has no patch-error branch.
- URI text is not modelled. The builder is an opaque function of its target and the route values. The target is a named route, or the action handling the current request together with that request's route values (the ambient values GetUriByAction falls back on). A route resolves iff it is the current action or a declared route name. Route templates, and route values missing for a template, are not checked; the current action's own route values are taken to fill its template.
- Route binding of `({authorIds})` is not modelled: `AuthorCollectionsController.Get` receives the ids already bound. The framework's Guid conversion also takes the 32-digit, braced and parenthesised forms, and the source registers no binder that splits a comma list. As written, a location key holding two or more ids therefore does not bind on GET, which answers 400 before the action runs. `Guids.Parse` and `Text.Split` are the model's inverses of the key's Format and Join, not the binder.
- AuthorCoursesController.PutOverwrites: states the overwrite with the corrected update. As written, the found-course branch commits nothing (`AuthorCoursesController.PutAsWritten`, `AuthorCoursesController.PutAsWrittenKeepsRow`).
- The validator for AuthorForCreationModel is not part of this model. It is a parameter that returns the failures it reports.
- AuthorController.Patch: the mapping between Author and AuthorForUpdateModel is an assumption. Neither AuthorProfile.cs nor CourseProfile.cs declares a map between the two types. As the source stands, `_mapper.Map<AuthorForUpdateModel>` (AuthorController.cs:164) and `_mapper.Map(model, author)` (:176) would throw AutoMapperMappingException, and the patch would answer 500. The model takes both maps as a plain copy of the four editable fields (`Profiles.ToUpdateModel`, `Profiles.MergeUpdateModel`).
- The two-argument course lookup is not part of this model. `GetCourseAsync(authorId, courseId)` (AuthorCoursesController.cs:154 and :197) is declared neither in ICourseLibraryService.cs nor in ICourseRepository.cs, and CourseLibraryService.cs:27 forwards it to a repository overload that does not exist, so there is no body to model. It is a parameter `(store, authorId, courseId) -> Option<Course>`. Its soundness (a found course has that id and is stored) is a hypothesis of `AuthorCoursesController.DeleteRemoves` only.
- EF Core defers key and foreign-key checks to SaveChanges. The model raises them at the repository call. The same holds for a row that is not stored: EF reports it as DbUpdateConcurrencyException at SaveChanges, and `AuthorRepository.DeleteAuthor`, `AuthorRepository.UpdateAuthor`, `CourseRepository.DeleteCourse` and `CourseRepository.UpdateCourse` fail with `MissingRow` at the call. A failed mutation is therefore never saved, and the trace shows no save after it.
- Maximum column lengths are not enforced by the store. They are stated as predicates in UTF-16 code units, and `Validators.ValidatedTitleMayNotFitColumn` shows the gap between the 100-unit validator and the 50-unit title column.
- async/await is modelled as sequential calls.
- A null element inside a posted author collection is not modelled. Elements are always present.
- The database provider is not configured in the source (`AddDbContext` with empty options), so its collation, its case rules and the order of equal keys are unknown. The model assumes a case-sensitive comparison of Unicode scalar values (`Text.Less`), and it breaks ties by id. This is not .NET's ordinal order either: that order compares UTF-16 code units, so a character above U+FFFF sorts below U+E000..U+FFFF there and above them here. String equality in a query is taken as exact equality.
- Ordering.OrderIds: the order of equal keys (by id) is a choice of the model. The program does not promise it.
- Ordering.ListBy: the sort order is the assumed comparison above, not a promise of the program.
- AuthorRepository.GetAuthorsByIds: the last-name order is the assumed comparison, and ties between equal last names come out in id order. The provider's tie order is unspecified.
- CourseRepository.GetCoursesForAuthor: the title order is the assumed comparison, and equal titles come out in id order. The provider promises neither.
- CourseRepository.GetCourses: the title order is the assumed comparison, and equal titles come out in id order. The provider promises neither.
- UserRepository.FirstWhere: the users table is a list, and "first" means first in that list. `FirstOrDefaultAsync` without `OrderBy` returns whichever matching row the provider yields first, which it does not specify.
- UserRepository.GetUserByCredentials: email and password are compared by exact equality, and when several users match, the one returned follows the list order above. The program promises only some matching user.
- UserRepository.EarlierUserWins: the winner it proves follows from the list-order assumption above. The program does not promise which of two matching users is returned.
- AuthorFullModel, AuthorForCreationWithDateOfDeathModel and their maps are left out: no modelled endpoint uses them.

Where the written description of the system and the code disagree, the model follows the code:

- `AgeHelper.BeValidAge` compares year numbers only. It does not apply the anniversary correction.
- `AuthorRepository.GetAuthorsByIds` applies two `OrderBy` calls. The second replaces the first, so the result is ordered by last name only, not by last name then first name.
- The course patch re-validates with CourseValidator, the creation rules. A description that is empty after the patch passes.
- A structurally bad patch operation does not abort the flow. `ApplyTo` records it in ModelState, and validation runs anyway.

## Findings

| source | as written | input that shows it | evidently intended | confidence | as-written member | corrected member |
|---|---|---|---|---|---|---|
| src/CourseLibrary/CourseLibrary.API/Repositories/CourseRepository.cs:67-70 | `UpdateCourse` has an empty body. The context turns off automatic change detection (`AutoDetectChangesEnabled = false`), so a course edited after being fetched is never marked modified, and the following `SaveAsync` writes nothing. A course PATCH, or a PUT that finds its course, answers NoContent but keeps the old row. | Course 2 of author 1 with title "Old title" is updated to the title "New title", then read back. | The update attaches the course and marks it modified, as `AuthorRepository.UpdateAuthor` does with `Update`, so the save writes the edited row. | medium, not executed | Service.UpdateCourseAsWrittenLosesEdit | CourseRepository.UpdateCourse |

The as-written path is `CourseRepository.UpdateCourseAsWritten`, `Service.UpdateCourseAsWritten`, `CourseController.PatchAsWritten` and `AuthorCoursesController.PutAsWritten`. `CourseController.PatchAsWrittenLosesEdit` shows that the NoContent patch commits nothing, and `AuthorCoursesController.PutAsWrittenKeepsRow` shows the same for a PUT that finds its course, against the corrected `AuthorCoursesController.PutOverwrites`. The corrected `CourseRepository.UpdateCourse` replaces the row. `CourseRepository.UpdateCourseThenGet` proves that the row reads back edited, and `CourseController.PatchWrites` proves it for the controller. The controllers use the corrected update.

=== FILE: action_results.dfy ===
/** The action results the controllers return, and a response paired with
    the service context after the request. An exception that escapes an
    action (the store's, or an ArgumentNullException from a guard) is a
    Fault; the exception middleware turns it into a 500. */
module ActionResults {
  import opened Wrappers
  import opened Validators
  import opened Hateoas
  import Service

  datatype Response<T> =
    | Ok(body: T)
    | CreatedAtRoute(route: string, values: seq<RouteValue>, body: T)
    | NoContent
    | NotFound
    | BadRequest(failures: seq<ValidationFailure>)
    | Fault(error: Error)

  datatype Handled<T> = Handled(response: Response<T>, ctx: Service.Ctx)

  /** CreatedAtRoute(name, values, body): the Location header is built
      from the route when the result is written, after the action has
      returned and its changes are saved. A name no action declares has
      no URI, and writing the result throws InvalidOperationException
      ("No route matches the supplied values"), which becomes a 500. */
  function CreatedAt<T>(route: string, values: seq<RouteValue>, body: T): (r: Response<T>)
    ensures r.CreatedAtRoute? <==> route in DeclaredRoutes
    ensures r.CreatedAtRoute? ==> r.route == route && r.values == values && r.body == body
    ensures !r.CreatedAtRoute? ==> r == Fault(NoRouteMatch)
  {
    if route in DeclaredRoutes then CreatedAtRoute(route, values, body) else Fault(NoRouteMatch)
  }
}

=== FILE: age_helper.dfy ===
/** AgeHelper.BeValidAge: the authoring-age gate applied to a date of
    birth. The current year, read from the clock in the program, is a
    parameter. */
module AgeHelper {
  import opened Calendar
  import opened DateTimeOffsetExtensions

  const MinExclusiveDifference := 18
  const MaxExclusiveDifference := 80

  /** Accepts iff the plain difference of calendar years lies strictly
      between 18 and 80; month and day are never consulted. */
  predicate BeValidAge(dateOfBirth: Date, currentYear: Year) {
    var diff := currentYear - dateOfBirth.year;
    diff > MinExclusiveDifference && diff < MaxExclusiveDifference
  }

  /** Only the year of birth matters. */
  lemma OnlyYearMatters(d1: Date, d2: Date, currentYear: Year)
    requires d1.year == d2.year
    ensures BeValidAge(d1, currentYear) == BeValidAge(d2, currentYear)
  {
  }

  /** Both bounds are exclusive: 18 and 80 fail, 19 and 79 pass. */
  lemma Boundaries(d: Date, currentYear: Year)
    ensures currentYear - d.year == 18 ==> !BeValidAge(d, currentYear)
    ensures currentYear - d.year == 80 ==> !BeValidAge(d, currentYear)
    ensures currentYear - d.year == 19 ==> BeValidAge(d, currentYear)
    ensures currentYear - d.year == 79 ==> BeValidAge(d, currentYear)
  {
  }

  /** A birth year in the current year or later is always rejected. */
  lemma FutureBirthRejected(d: Date, currentYear: Year)
    requires d.year >= currentYear
    ensures !BeValidAge(d, currentYear)
  {
  }

  /** What the gate guarantees about the anniversary-corrected age: it
      lies in 18..79, and every age in 19..78 passes. The gate is not an
      age test: an 18-year-old whose birthday is still ahead passes it. */
  lemma GateBracketsCurrentAge(d: Date, today: Date)
    ensures BeValidAge(d, today.year) ==> 18 <= GetCurrentAge(d, today) <= 79
    ensures 19 <= GetCurrentAge(d, today) <= 78 ==> BeValidAge(d, today.year)
  {
  }

  /** The gate accepts someone whose corrected age is 18 (difference 19,
      birthday not yet reached) and rejects someone who turned 18 a day
      ago (difference 18). */
  lemma GateIsNotAgeExample()
    ensures BeValidAge(Date(2007, 12, 31), 2026) && GetCurrentAge(Date(2007, 12, 31), Date(2026, 10, 11)) == 18
    ensures !BeValidAge(Date(2008, 10, 10), 2026) && GetCurrentAge(Date(2008, 10, 10), Date(2026, 10, 11)) == 18
  {
    assert Before(Date(2026, 10, 11), Date(2026, 12, 31));
  }
}

=== FILE: author_collections_controller.dfy ===
/** AuthorCollectionsController: read several authors at once by id, and
    create several in one request. The location of a created batch
    carries the new ids joined by commas. */
module AuthorCollectionsController {
  import opened Wrappers
  import opened Guids
  import opened Text
  import opened Calendar
  import opened Entities
  import opened Models
  import opened Profiles
  import opened Validators
  import opened Database
  import opened Hateoas
  import opened ActionResults
  import Service
  import AuthorRepository

  type CreationValidator = AuthorForCreationModel -> seq<ValidationFailure>

  function ToAuthorModels(authors: seq<Author>, today: Date): (ms: seq<AuthorModel>)
    ensures |ms| == |authors|
    ensures forall i :: 0 <= i < |authors| ==> ms[i] == ToAuthorModel(authors[i], today)
  {
    seq(|authors|, i requires 0 <= i < |authors| => ToAuthorModel(authors[i], today))
  }

  // ---------------------------------------------------------------------
  // Get

  predicate Distinct(ids: seq<Guid>) {
    forall i, j :: 0 <= i < j < |ids| ==> ids[i] != ids[j]
  }

  function Elements(ids: seq<Guid>): (s: set<Guid>)
    ensures forall id :: id in s <==> id in ids
  {
    set id | id in ids
  }

  /** A list has at most as many different ids as entries, and exactly
      as many when no id repeats. */
  lemma {:induction false} ElementsCount(ids: seq<Guid>)
    ensures |Elements(ids)| <= |ids|
    ensures |Elements(ids)| == |ids| <==> Distinct(ids)
    decreases |ids|
  {
    if |ids| > 0 {
      var rest := ids[1..];
      ElementsCount(rest);
      assert Elements(ids) == {ids[0]} + Elements(rest);
      if ids[0] in rest {
        assert Elements(ids) == Elements(rest);
        var j :| 0 <= j < |rest| && rest[j] == ids[0];
        assert ids[0] == ids[j + 1];
      } else {
        assert Distinct(ids) <==> Distinct(rest) by {
          if Distinct(rest) {
            forall i, j | 0 <= i < j < |ids|
              ensures ids[i] != ids[j]
            {
              if i > 0 {
                assert ids[i] == rest[i - 1] && ids[j] == rest[j - 1];
              } else {
                assert ids[j] == rest[j - 1];
              }
            }
          }
          if Distinct(ids) {
            forall i, j | 0 <= i < j < |rest|
              ensures rest[i] != rest[j]
            {
              assert rest[i] == ids[i + 1] && rest[j] == ids[j + 1];
            }
          }
        }
      }
    }
  }

  /** A subset as large as its superset is the whole superset. */
  lemma SubsetSameSize(a: set<Guid>, b: set<Guid>)
    requires a <= b && |a| == |b|
    ensures a == b
  {
    if x :| x in b && x !in a {
      assert a <= b - {x};
      assert |b - {x}| == |b| - 1;
      SubsetSize(a, b - {x});
    }
  }

  lemma {:induction false} SubsetSize(a: set<Guid>, b: set<Guid>)
    requires a <= b
    ensures |a| <= |b|
    decreases b
  {
    if a != {} {
      var x :| x in a;
      SubsetSize(a - {x}, b - {x});
    }
  }

  /** GET authorcollections/({ids}): the authors with those ids; when the
      number found differs from the number asked for, NotFound. */
  function Get(ctx: Service.Ctx, today: Date, authorIds: seq<Guid>): (r: Response<seq<AuthorModel>>)
    ensures r.Ok? || r.NotFound?
    ensures r.NotFound? <==> |AuthorRepository.FoundIds(ctx.committed, authorIds)| != |authorIds|
    ensures r.Ok? ==> r.body == ToAuthorModels(AuthorRepository.GetAuthorsByIds(ctx.committed, Some(authorIds)).value, today)
  {
    match Service.GetAuthorsByIds(ctx, Some(authorIds))
    case Failure(e) => assert false; Fault(e)
    case Success(found) =>
      if |authorIds| != |found| then NotFound else Ok(ToAuthorModels(found, today))
  }

  predicate AllStored(s: Store, authorIds: seq<Guid>) {
    forall i :: 0 <= i < |authorIds| ==> authorIds[i] in s.authors
  }

  /** As many authors are found as ids are asked for exactly when no id
      repeats and every id is stored. */
  lemma FoundAllIff(s: Store, authorIds: seq<Guid>)
    ensures |AuthorRepository.FoundIds(s, authorIds)| == |authorIds| <==> Distinct(authorIds) && AllStored(s, authorIds)
  {
    var found := AuthorRepository.FoundIds(s, authorIds);
    var asked := Elements(authorIds);
    ElementsCount(authorIds);
    assert found <= asked;
    SubsetSize(found, asked);
    if |found| == |authorIds| {
      SubsetSameSize(found, asked);
      forall i | 0 <= i < |authorIds|
        ensures authorIds[i] in s.authors
      {
        assert authorIds[i] in asked;
      }
    }
    if Distinct(authorIds) && AllStored(s, authorIds) {
      assert found == asked;
    }
  }

  /** The count check fails exactly when an id repeats or an id is not
      stored. */
  lemma GetNotFoundIff(ctx: Service.Ctx, today: Date, authorIds: seq<Guid>)
    ensures Get(ctx, today, authorIds).NotFound? <==>
      !Distinct(authorIds) || exists i :: 0 <= i < |authorIds| && authorIds[i] !in ctx.committed.authors
  {
    FoundAllIff(ctx.committed, authorIds);
  }

  /** A found collection has one entry per id asked for, and holds the
      view of each of those authors. */
  lemma GetReturnsEach(ctx: Service.Ctx, today: Date, authorIds: seq<Guid>)
    requires Get(ctx, today, authorIds).Ok?
    ensures |Get(ctx, today, authorIds).body| == |authorIds|
    ensures forall i :: 0 <= i < |authorIds| ==>
      && authorIds[i] in ctx.committed.authors
      && ToAuthorModel(ctx.committed.authors[authorIds[i]], today) in Get(ctx, today, authorIds).body
  {
    var s := ctx.committed;
    FoundAllIff(s, authorIds);
    var rows := AuthorRepository.GetAuthorsByIds(s, Some(authorIds)).value;
    assert Get(ctx, today, authorIds).body == ToAuthorModels(rows, today);
    forall i | 0 <= i < |authorIds|
      ensures ToAuthorModel(s.authors[authorIds[i]], today) in ToAuthorModels(rows, today)
    {
      ModelsContain(rows, today, s.authors[authorIds[i]]);
    }
  }

  lemma ModelsContain(rows: seq<Author>, today: Date, a: Author)
    requires a in rows
    ensures ToAuthorModel(a, today) in ToAuthorModels(rows, today)
  {
    var k :| 0 <= k < |rows| && rows[k] == a;
    assert ToAuthorModels(rows, today)[k] == ToAuthorModel(a, today);
  }

  // ---------------------------------------------------------------------
  // Post

  /** The first payload the validator rejects, if any. */
  function FirstInvalid(models: seq<AuthorForCreationModel>, validate: CreationValidator): (k: Option<nat>)
    ensures k.None? <==> forall i :: 0 <= i < |models| ==> validate(models[i]) == []
    ensures k.Some? ==>
      && k.value < |models| && validate(models[k.value]) != []
      && forall j :: 0 <= j < k.value ==> validate(models[j]) == []
  {
    if |models| == 0 then None
    else if validate(models[0]) != [] then Some(0)
    else
      var k := FirstInvalid(models[1..], validate);
      assert forall i :: 1 <= i < |models| ==> models[i] == models[1..][i - 1];
      if k.None? then None else Some(k.value + 1)
  }

  function ToEntities(models: seq<AuthorForCreationModel>): (authors: seq<Author>)
    ensures |authors| == |models|
    ensures forall i :: 0 <= i < |models| ==> authors[i] == FromAuthorCreationModel(models[i])
  {
    seq(|models|, i requires 0 <= i < |models| => FromAuthorCreationModel(models[i]))
  }

  /** The text of each id, in order. */
  function IdTexts(models: seq<AuthorModel>): (texts: seq<string>)
    ensures |texts| == |models|
    ensures forall i :: 0 <= i < |models| ==> texts[i] == Format(models[i].id)
  {
    seq(|models|, i requires 0 <= i < |models| => Format(models[i].id))
  }

  /** string.Join(",", ids): the route value of the created collection. */
  function LocationKey(models: seq<AuthorModel>): string {
    Join(IdTexts(models), ',')
  }

  /** POST authorcollections. A null body passes the emptiness guard
      (`!null ?? false` is false) and the loop then dereferences it. An
      empty body is BadRequest. Otherwise the payloads are validated in
      order and the first rejected one is BadRequest; if all pass, the
      batch is added once and answered Created at GetAuthorCollection with
      the new ids joined by commas. */
  function Post(ctx: Service.Ctx, today: Date, validate: CreationValidator,
                authors: Option<seq<AuthorForCreationModel>>, supply: FreshIds): (h: Handled<seq<AuthorModel>>)
    ensures authors.None? ==> h == Handled(Fault(NullReference), ctx)
    ensures authors == Some([]) ==> h == Handled(BadRequest([]), ctx)
    ensures h.response.BadRequest? <==>
      authors.Some? && (|authors.value| == 0 || exists i :: 0 <= i < |authors.value| && validate(authors.value[i]) != [])
    ensures h.response.BadRequest? ==> h.ctx == ctx
    ensures h.response.BadRequest? && authors.Some? && |authors.value| > 0 ==>
      exists k :: 0 <= k < |authors.value| && h.response.failures == validate(authors.value[k]) != []
                  && forall j :: 0 <= j < k ==> validate(authors.value[j]) == []
    ensures h.response.CreatedAtRoute? ==>
      && authors.Some?
      && h.ctx.trace == ctx.trace + Service.AddCalls(ToEntities(authors.value)) + [Service.SaveCall(Service.AuthorRepo)]
      && |h.response.body| == |authors.value|
      && h.response.route == "GetAuthorCollection"
      && h.response.values == [TextValue("authorIds", LocationKey(h.response.body))]
    ensures h.response.BadRequest? || h.response.CreatedAtRoute? || h.response.Fault?
  {
    if authors.None? then Handled(Fault(NullReference), ctx)
    else if |authors.value| == 0 then Handled(BadRequest([]), ctx)
    else
      match FirstInvalid(authors.value, validate)
      case Some(k) => Handled(BadRequest(validate(authors.value[k])), ctx)
      case None =>
        var o := Service.AddAuthors(ctx, ToEntities(authors.value), supply);
        if o.result.Failure? then Handled(Fault(o.result.error), o.ctx)
        else
          var created := ToAuthorModels(o.result.value, today);
          Handled(CreatedAt("GetAuthorCollection", [TextValue("authorIds", LocationKey(created))], created), o.ctx)
  }

  /** Splitting the location key on commas and parsing each piece gives
      the ids back, in order: an id's text holds no comma. */
  lemma LocationKeyRoundTrip(models: seq<AuthorModel>)
    requires |models| > 0
    ensures Split(LocationKey(models), ',') == IdTexts(models)
    ensures forall i :: 0 <= i < |models| ==> Parse(Split(LocationKey(models), ',')[i]) == Some(models[i].id)
  {
    SplitJoin(IdTexts(models), ',');
    forall i | 0 <= i < |models|
      ensures Parse(IdTexts(models)[i]) == Some(models[i].id)
    {
      ParseFormat(models[i].id);
    }
  }

  /** With a valid settled store and a fresh id supply a non-empty batch
      of valid payloads is created: every new author is committed under a
      distinct new id, the response keeps the input order and each
      payload's category, and the location key reads back as those ids. */
  lemma PostCreatesAll(ctx: Service.Ctx, today: Date, validate: CreationValidator,
                       models: seq<AuthorForCreationModel>, supply: FreshIds)
    requires Valid(ctx.committed) && Service.Settled(ctx) && FreshFrom(ctx.pending, supply, ctx.drawn)
    requires |models| > 0 && forall i :: 0 <= i < |models| ==> validate(models[i]) == []
    ensures var h := Post(ctx, today, validate, Some(models), supply);
      && h.response.CreatedAtRoute?
      && Valid(h.ctx.committed)
      && (forall i :: 0 <= i < |models| ==> h.response.body[i].id in h.ctx.committed.authors)
      && (forall i, j :: 0 <= i < j < |models| ==> h.response.body[i].id != h.response.body[j].id)
      && (forall i :: 0 <= i < |models| ==> h.response.body[i].mainCategory == models[i].mainCategory)
      && |Split(LocationKey(h.response.body), ',')| == |models|
      && (forall i :: 0 <= i < |models| ==> Parse(Split(LocationKey(h.response.body), ',')[i]) == Some(h.response.body[i].id))
  {
    var entities := ToEntities(models);
    Service.AddAuthorsFresh(ctx, entities, supply);
    Service.AddEachKeepsFields(ctx, entities, supply);
    var h := Post(ctx, today, validate, Some(models), supply);
    LocationKeyRoundTrip(h.response.body);
  }
}

=== FILE: author_controller.dfy ===
/** AuthorController: get, create, patch and delete one author. Every
    action reads through the service on the committed store and mutates
    through it, so a request that stops early leaves the context as it
    found it. */
module AuthorController {
  import opened Wrappers
  import opened Guids
  import opened Calendar
  import opened Entities
  import opened Models
  import opened Profiles
  import opened Validators
  import opened Database
  import opened Hateoas
  import opened ActionResults
  import Service
  import AuthorRepository

  /** The injected IValidator<AuthorForCreationModel>; its rules are not
      part of this model, only the failures it reports. */
  type CreationValidator = AuthorForCreationModel -> seq<ValidationFailure>

  /** A JSON patch document for the update model: None for a null
      document, otherwise what its ApplyTo does to the projection. */
  type AuthorPatch = Option<AuthorForUpdateModel -> AuthorForUpdateModel>

  /** `patchDocument?.ApplyTo(model)`: a null document applies nothing. */
  function ApplyPatch(m: AuthorForUpdateModel, patch: AuthorPatch): (r: AuthorForUpdateModel)
    ensures patch.None? ==> r == m
  {
    if patch.None? then m else patch.value(m)
  }

  /** The action that handles GET author/{authorId}, with the request's
      route value. */
  function GetAction(authorId: Guid): (t: LinkTarget)
    ensures t.CurrentAction? && t.action == "Get" && t.ambient == [IdValue("authorId", authorId)]
  {
    CurrentAction("Get", [IdValue("authorId", authorId)])
  }

  /** The action that handles POST author, whose route has no values. */
  const PostAction: LinkTarget := CurrentAction("Post", [])

  /** GET author/{authorId}: the empty id makes the lookup throw; a
      missing author is NotFound; otherwise the author's view with its
      four links, built in the Get action from the stored author's id. */
  function Get(ctx: Service.Ctx, uri: UriBuilder, today: Date, authorId: Guid): (r: Response<LinkWrapper<AuthorModel>>)
    ensures authorId == Empty <==> r == Fault(ArgumentNull("authorId"))
    ensures authorId != Empty ==> (r == NotFound <==> authorId !in ctx.committed.authors)
    ensures r.Ok? || r.NotFound? || r.Fault?
    ensures r.Ok? ==>
      && authorId in ctx.committed.authors
      && r.body.value == ToAuthorModel(ctx.committed.authors[authorId], today)
      && r.body.links == AuthorLinks(uri, GetAction(authorId), ctx.committed.authors[authorId].id)
  {
    match Service.GetAuthor(ctx, authorId)
    case Failure(e) => Fault(e)
    case Success(None) => NotFound
    case Success(Some(a)) => Ok(LinkWrapper(ToAuthorModel(a, today), AuthorLinks(uri, GetAction(authorId), a.id)))
  }

  /** In a valid store a stored author is found under its own id. */
  lemma GetStored(ctx: Service.Ctx, uri: UriBuilder, today: Date, authorId: Guid)
    requires Valid(ctx.committed) && authorId in ctx.committed.authors
    ensures var r := Get(ctx, uri, today, authorId);
      && r.Ok?
      && r.body.value.id == authorId
      && r.body.links == AuthorLinks(uri, GetAction(authorId), authorId)
  {
  }

  /** POST author: an invalid payload is BadRequest before anything is
      added; a valid one is mapped to an entity and added once, and the
      new author is returned at route GetAuthor under its new id, with
      the links of that id built in the Post action. */
  function Post(ctx: Service.Ctx, uri: UriBuilder, today: Date, validate: CreationValidator,
                author: AuthorForCreationModel, supply: FreshIds): (h: Handled<LinkWrapper<AuthorModel>>)
    ensures h.response.BadRequest? <==> validate(author) != []
    ensures h.response.BadRequest? ==> h.response.failures == validate(author) && h.ctx == ctx
    ensures h.response.BadRequest? || h.response.CreatedAtRoute? || h.response.Fault?
    ensures validate(author) == [] ==>
      h.ctx.trace == ctx.trace + [Service.AddAuthorCall(Some(FromAuthorCreationModel(author)))]
                               + (if h.response.CreatedAtRoute? then [Service.SaveCall(Service.AuthorRepo)] else [])
    ensures h.response.CreatedAtRoute? ==>
      && h.response.route == "GetAuthor"
      && h.response.values == [IdValue("authorId", h.response.body.value.id)]
      && h.response.body.links == AuthorLinks(uri, PostAction, h.response.body.value.id)
  {
    var failures := validate(author);
    if failures != [] then Handled(BadRequest(failures), ctx)
    else
      var o := Service.AddAuthor(ctx, Some(FromAuthorCreationModel(author)), supply);
      if o.result.Failure? then Handled(Fault(o.result.error), o.ctx)
      else
        var created := ToAuthorModel(o.result.value, today);
        Handled(CreatedAt("GetAuthor", [IdValue("authorId", created.id)], LinkWrapper(created, AuthorLinks(uri, PostAction, created.id))), o.ctx)
  }

  /** With a valid settled store and a fresh id supply a valid payload is
      created: the new author is committed under the id the response
      names, the store stays valid, and the response shows the payload's
      names and category. Reading it back gives the same view; the links
      differ, as the GET builds them in its own action. */
  lemma PostCreates(ctx: Service.Ctx, uri: UriBuilder, today: Date, validate: CreationValidator,
                    author: AuthorForCreationModel, supply: FreshIds)
    requires Valid(ctx.committed) && Service.Settled(ctx) && FreshFrom(ctx.pending, supply, ctx.drawn)
    requires validate(author) == []
    ensures var h := Post(ctx, uri, today, validate, author, supply);
      && h.response.CreatedAtRoute?
      && Valid(h.ctx.committed)
      && h.response.body.value.id in h.ctx.committed.authors
      && h.response.body.value.id !in ctx.committed.authors
      && h.response.body.value.mainCategory == author.mainCategory
      && h.response.body.links == AuthorLinks(uri, PostAction, h.response.body.value.id)
      && Get(h.ctx, uri, today, h.response.body.value.id)
           == Ok(LinkWrapper(h.response.body.value, AuthorLinks(uri, GetAction(h.response.body.value.id), h.response.body.value.id)))
  {
    var entity := FromAuthorCreationModel(author);
    AuthorRepository.AddAuthorFresh(ctx.pending, entity, supply, ctx.drawn);
    var added := AuthorRepository.AddAuthor(ctx.pending, Some(entity), supply, ctx.drawn).value;
    var t := added.store;
    assert t.authors[added.author.id] == added.author.(courses := []);
  }

  /** The stored author projected to the update model with the patch
      applied. */
  function Patched(s: Store, authorId: Guid, patch: AuthorPatch): AuthorForUpdateModel
    requires authorId in s.authors
  {
    ApplyPatch(ToUpdateModel(s.authors[authorId]), patch)
  }

  /** PATCH author/{authorId}: fetch (the empty id throws, a missing
      author is NotFound before any patch is applied); project to the
      update model and apply the document; validate the result against
      the current year (BadRequest, nothing updated); otherwise merge the
      four fields onto the author, update once and answer NoContent. */
  function Patch(ctx: Service.Ctx, today: Date, authorId: Guid, patch: AuthorPatch): (h: Handled<()>)
    ensures authorId == Empty ==> h == Handled(Fault(ArgumentNull("authorId")), ctx)
    ensures authorId != Empty ==> (h.response == NotFound <==> authorId !in ctx.committed.authors)
    ensures h.response.NotFound? || h.response.BadRequest? ==> h.ctx == ctx
    ensures h.response.BadRequest? <==>
      && authorId != Empty && authorId in ctx.committed.authors
      && ValidateAuthorUpdate(Patched(ctx.committed, authorId, patch), today.year) != []
    ensures h.response.BadRequest? ==>
      && authorId in ctx.committed.authors
      && h.response.failures == ValidateAuthorUpdate(Patched(ctx.committed, authorId, patch), today.year)
    ensures h.response.NoContent? ==>
      && authorId in ctx.committed.authors
      && h.ctx.trace == ctx.trace + [Service.UpdateAuthorCall(Some(MergeUpdateModel(
           Patched(ctx.committed, authorId, patch), Materialize(ctx.committed, authorId))))]
           + [Service.SaveCall(Service.AuthorRepo)]
  {
    match Service.GetAuthor(ctx, authorId)
    case Failure(e) => Handled(Fault(e), ctx)
    case Success(None) => Handled(NotFound, ctx)
    case Success(Some(a)) =>
      assert a == Materialize(ctx.committed, authorId);
      assert ToUpdateModel(a) == ToUpdateModel(ctx.committed.authors[authorId]);
      var patched := ApplyPatch(ToUpdateModel(a), patch);
      var failures := ValidateAuthorUpdate(patched, today.year);
      if failures != [] then Handled(BadRequest(failures), ctx)
      else
        var o := Service.UpdateAuthor(ctx, Some(MergeUpdateModel(patched, a)));
        Handled(if o.result.Success? then NoContent else Fault(o.result.error), o.ctx)
  }

  /** In a valid settled store a patch whose result validates is written:
      the author keeps its id and courses, its four editable fields are
      the patched ones, and no other row changes. */
  lemma PatchWrites(ctx: Service.Ctx, today: Date, authorId: Guid, patch: AuthorPatch)
    requires Valid(ctx.committed) && Service.Settled(ctx)
    requires authorId in ctx.committed.authors
    requires ValidateAuthorUpdate(Patched(ctx.committed, authorId, patch), today.year) == []
    ensures var h := Patch(ctx, today, authorId, patch);
      && h.response.NoContent?
      && Valid(h.ctx.committed)
      && authorId in h.ctx.committed.authors
      && ToUpdateModel(h.ctx.committed.authors[authorId]) == Patched(ctx.committed, authorId, patch)
      && h.ctx.committed.authors[authorId].id == authorId
      && h.ctx.committed.courses == ctx.committed.courses
      && (forall id :: id in ctx.committed.authors && id != authorId ==> h.ctx.committed.authors[id] == ctx.committed.authors[id])
  {
    var a := Materialize(ctx.committed, authorId);
    AuthorRepository.UpdateAuthorThenGet(ctx.committed, MergeUpdateModel(ApplyPatch(ToUpdateModel(a), patch), a));
  }

  /** A patch that blanks the first name is rejected and changes nothing. */
  lemma BlankFirstNameRejected(ctx: Service.Ctx, today: Date, authorId: Guid)
    requires authorId != Empty && authorId in ctx.committed.authors
    ensures var blank := (m: AuthorForUpdateModel) => m.(firstName := Some(""));
      var h := Patch(ctx, today, authorId, Some(blank));
      && h.response.BadRequest?
      && h.ctx == ctx
      && exists i :: 0 <= i < |h.response.failures| && h.response.failures[i].property == "FirstName"
  {
    var blank := (m: AuthorForUpdateModel) => m.(firstName := Some(""));
    var patched := ApplyPatch(ToUpdateModel(ctx.committed.authors[authorId]), Some(blank));
    FirstNameFailures(patched, today.year);
    var fs := ValidateAuthorUpdate(patched, today.year);
    var first := FailuresOf(fs, "FirstName");
    assert first != [];
    FailuresOfNamed(fs, "FirstName");
  }

  /** DELETE author/{authorId}: fetch (the empty id throws, a missing
      author is NotFound and nothing is deleted); otherwise delete the
      author once and answer NoContent. */
  function Delete(ctx: Service.Ctx, authorId: Guid): (h: Handled<()>)
    ensures authorId == Empty ==> h == Handled(Fault(ArgumentNull("authorId")), ctx)
    ensures authorId != Empty ==> (h.response == NotFound <==> authorId !in ctx.committed.authors)
    ensures h.response.NotFound? ==> h.ctx == ctx
    ensures h.response.NoContent? || h.response.NotFound? || h.response.Fault?
    ensures h.response.NoContent? ==>
      && authorId in ctx.committed.authors
      && h.ctx.trace == ctx.trace + [Service.DeleteAuthorCall(Some(Materialize(ctx.committed, authorId))), Service.SaveCall(Service.AuthorRepo)]
  {
    match Service.GetAuthor(ctx, authorId)
    case Failure(e) => Handled(Fault(e), ctx)
    case Success(None) => Handled(NotFound, ctx)
    case Success(Some(a)) =>
      var o := Service.DeleteAuthor(ctx, Some(a));
      Handled(if o.result.Success? then NoContent else Fault(o.result.error), o.ctx)
  }

  /** In a valid settled store deleting a stored author succeeds, takes
      its courses with it, keeps the store valid, and a later GET of the
      author is NotFound. */
  lemma DeleteCascades(ctx: Service.Ctx, uri: UriBuilder, today: Date, authorId: Guid)
    requires Valid(ctx.committed) && Service.Settled(ctx) && authorId in ctx.committed.authors
    ensures var h := Delete(ctx, authorId);
      && h.response.NoContent?
      && Valid(h.ctx.committed)
      && Get(h.ctx, uri, today, authorId) == NotFound
      && (forall cid :: cid in ctx.committed.courses && ctx.committed.courses[cid].authorId == authorId ==> cid !in h.ctx.committed.courses)
  {
    AuthorRepository.DeleteAuthorCascades(ctx.committed, Materialize(ctx.committed, authorId));
  }
}

=== FILE: author_courses_controller.dfy ===
/** AuthorCoursesController: the courses of one author. Get lists them,
    Post adds one, Put is an upsert, Delete removes one. Post and Put
    validate the payload before they look the author up. The lookup of
    one course of one author is the service's two-argument
    GetCourseAsync, a parameter here. */
module AuthorCoursesController {
  import opened Wrappers
  import opened Guids
  import opened Text
  import opened Entities
  import opened Models
  import opened Profiles
  import opened Validators
  import opened Database
  import opened Hateoas
  import opened ActionResults
  import Service
  import CourseRepository

  function ToCourseModels(cs: seq<Course>): (ms: seq<CourseModel>)
    ensures |ms| == |cs|
    ensures forall i :: 0 <= i < |cs| ==> ms[i] == ToCourseModel(cs[i])
  {
    seq(|cs|, i requires 0 <= i < |cs| => ToCourseModel(cs[i]))
  }

  /** GET courses/{authorId}: the empty id makes the existence check
      throw; a missing author is NotFound; otherwise the author's courses
      in the repository's title order, each with the links of its id,
      under the author's four course links. */
  function Get(ctx: Service.Ctx, uri: UriBuilder, authorId: Guid): (r: Response<LinkCollectionWrapper<LinkWrapper<CourseModel>>>)
    ensures authorId == Empty <==> r == Fault(ArgumentNull("authorId"))
    ensures authorId != Empty ==> (r == NotFound <==> authorId !in ctx.committed.authors)
    ensures r.Ok? || r.NotFound? || r.Fault?
    ensures r.Ok? ==>
      && authorId in ctx.committed.authors
      && r.body.links == AuthorCourseLinks(uri, authorId)
      && Values(r.body.value) == ToCourseModels(CourseRepository.GetCoursesForAuthor(ctx.committed, authorId).value)
      && (forall i :: 0 <= i < |r.body.value| ==> r.body.value[i].links == CourseLinks(uri, r.body.value[i].value.id))
  {
    match Service.AuthorExists(ctx, authorId)
    case Failure(e) => Fault(e)
    case Success(false) => NotFound
    case Success(true) =>
      match Service.GetCoursesForAuthor(ctx, authorId)
      case Failure(e) => Fault(e)
      case Success(courses) =>
        var wrapped := CoursesWithLinks(uri, ToCourseModels(courses));
        CoursesWithLinksUnwrap(uri, ToCourseModels(courses));
        Ok(LinkCollectionWrapper(wrapped, AuthorCourseLinks(uri, authorId)))
  }

  /** An author without courses gets Ok with an empty list. */
  lemma GetNoCourses(ctx: Service.Ctx, uri: UriBuilder, authorId: Guid)
    requires authorId != Empty && authorId in ctx.committed.authors
    requires forall cid :: cid in ctx.committed.courses ==> ctx.committed.courses[cid].authorId != authorId
    ensures Get(ctx, uri, authorId) == Ok(LinkCollectionWrapper([], AuthorCourseLinks(uri, authorId)))
  {
    CourseRepository.NoCoursesEmptyList(ctx.committed, authorId);
  }

  /** POST courses/{authorId}: an invalid payload is BadRequest whether or
      not the author exists; then the existence check (NotFound); then
      the course is added once under the author in the route and
      returned, with its links, inside the author's course links. */
  function Post(ctx: Service.Ctx, uri: UriBuilder, authorId: Guid, course: CourseForCreationModel, supply: FreshIds)
    : (h: Handled<LinkWrapper<LinkWrapper<CourseModel>>>)
    ensures h.response.BadRequest? <==> ValidateCourse(course) != []
    ensures h.response.BadRequest? ==> h.response.failures == ValidateCourse(course)
    ensures ValidateCourse(course) == [] ==>
      && (authorId == Empty <==> h == Handled(Fault(ArgumentNull("authorId")), ctx))
      && (authorId != Empty ==> (h.response == NotFound <==> authorId !in ctx.committed.authors))
    ensures h.response.BadRequest? || h.response.NotFound? ==> h.ctx == ctx
    ensures h.response.CreatedAtRoute? ==>
      && authorId in ctx.committed.authors
      && h.ctx.trace == ctx.trace + [Service.AddCourseCall(authorId, Some(FromCourseCreationModel(course))), Service.SaveCall(Service.CourseRepo)]
      && h.response.route == "GetCoursesForAuthor"
      && h.response.values == [IdValue("authorId", authorId)]
      && h.response.body.links == AuthorCourseLinks(uri, authorId)
      && h.response.body.value.links == CourseLinks(uri, h.response.body.value.value.id)
      && h.response.body.value.value.title == course.title
      && h.response.body.value.value.description == course.description
  {
    var failures := ValidateCourse(course);
    if failures != [] then Handled(BadRequest(failures), ctx)
    else
      match Service.AuthorExists(ctx, authorId)
      case Failure(e) => Handled(Fault(e), ctx)
      case Success(false) => Handled(NotFound, ctx)
      case Success(true) =>
        var o := Service.AddCourse(ctx, authorId, Some(FromCourseCreationModel(course)), supply);
        if o.result.Failure? then Handled(Fault(o.result.error), o.ctx)
        else
          var created := ToCourseModel(o.result.value);
          var body := LinkWrapper(LinkWrapper(created, CourseLinks(uri, created.id)), AuthorCourseLinks(uri, authorId));
          Handled(CreatedAt("GetCoursesForAuthor", [IdValue("authorId", authorId)], body), o.ctx)
  }

  /** With a valid settled store and a fresh id supply a valid course for
      a stored author is created under a new id, stored with that author
      as its foreign key, and listed among the author's courses. */
  lemma PostCreates(ctx: Service.Ctx, uri: UriBuilder, authorId: Guid, course: CourseForCreationModel, supply: FreshIds)
    requires Valid(ctx.committed) && Service.Settled(ctx) && FreshFrom(ctx.pending, supply, ctx.drawn)
    requires ValidateCourse(course) == [] && authorId in ctx.committed.authors
    ensures var h := Post(ctx, uri, authorId, course, supply);
      var id := h.response.body.value.value.id;
      && h.response.CreatedAtRoute?
      && Valid(h.ctx.committed)
      && id !in ctx.committed.courses
      && id in h.ctx.committed.courses
      && h.ctx.committed.courses[id].authorId == authorId
      && h.ctx.committed.courses[id] in CourseRepository.GetCoursesForAuthor(h.ctx.committed, authorId).value
  {
    CourseRepository.AddCourseFresh(ctx.pending, authorId, FromCourseCreationModel(course), supply, ctx.drawn);
  }

  /** PUT courses/{authorId}?courseId: validate (BadRequest), check the
      author (NotFound), then look the course up. A missing course is
      added with the id from the query and the author from the route and
      saved; the answer names the route GetCourseForAuthor, which no
      action declares, so writing it throws after the save and the client
      gets a 500. A found course takes the payload's title and description
      and goes through the corrected update, and the answer is NoContent;
      PutAsWritten runs the program's update instead. */
  function Put(ctx: Service.Ctx, lookup: Service.CourseOfAuthorLookup, authorId: Guid, courseId: Guid,
               course: CourseForCreationModel, supply: FreshIds): (h: Handled<CourseModel>)
    ensures h.response.BadRequest? <==> ValidateCourse(course) != []
    ensures h.response.BadRequest? ==> h.response.failures == ValidateCourse(course)
    ensures ValidateCourse(course) == [] ==>
      && (authorId == Empty <==> h == Handled(Fault(ArgumentNull("authorId")), ctx))
      && (authorId != Empty ==> (h.response == NotFound <==> authorId !in ctx.committed.authors))
    ensures h.response.BadRequest? || h.response.NotFound? ==> h.ctx == ctx
    ensures !h.response.CreatedAtRoute?
    ensures ValidateCourse(course) == [] && authorId != Empty && authorId in ctx.committed.authors
            && Service.GetCourseOfAuthor(ctx, lookup, authorId, courseId).None? ==>
      var added := CourseRepository.AddCourse(ctx.pending, authorId, Some(FromCourseCreationModel(course).(id := courseId)), supply, ctx.drawn);
      && h.response.Fault?
      && (h.response.error == NoRouteMatch <==> added.Success?)
      && h.ctx.trace == ctx.trace + [Service.AddCourseCall(authorId, Some(FromCourseCreationModel(course).(id := courseId)))]
                        + (if added.Success? then [Service.SaveCall(Service.CourseRepo)] else [])
      && (added.Success? ==> h.ctx.committed == added.value.store)
    ensures h.response.NoContent? ==>
      && authorId in ctx.committed.authors
      && Service.GetCourseOfAuthor(ctx, lookup, authorId, courseId).Some?
      && h.ctx.trace == ctx.trace + [Service.UpdateCourseCall(Some(MergeCourseCreationModel(course,
                                       Service.GetCourseOfAuthor(ctx, lookup, authorId, courseId).value))),
                                     Service.SaveCall(Service.CourseRepo)]
  {
    var failures := ValidateCourse(course);
    if failures != [] then Handled(BadRequest(failures), ctx)
    else
      match Service.AuthorExists(ctx, authorId)
      case Failure(e) => Handled(Fault(e), ctx)
      case Success(false) => Handled(NotFound, ctx)
      case Success(true) =>
        match Service.GetCourseOfAuthor(ctx, lookup, authorId, courseId)
        case None =>
          var o := Service.AddCourse(ctx, authorId, Some(FromCourseCreationModel(course).(id := courseId)), supply);
          if o.result.Failure? then Handled(Fault(o.result.error), o.ctx)
          else
            var created := ToCourseModel(o.result.value);
            Handled(CreatedAt("GetCourseForAuthor", [IdValue("authorId", authorId), IdValue("courseId", created.id)], created), o.ctx)
        case Some(c) =>
          var o := Service.UpdateCourse(ctx, Some(MergeCourseCreationModel(course, c)));
          Handled(if o.result.Success? then NoContent else Fault(o.result.error), o.ctx)
  }

  /** The insert half of the upsert: in a valid settled store, a course
      the lookup does not find and whose id is free is saved with the id
      from the query, the author from the route and the payload's title
      and description, and the client still gets a 500. */
  lemma PutCreates(ctx: Service.Ctx, lookup: Service.CourseOfAuthorLookup, authorId: Guid, courseId: Guid,
                   course: CourseForCreationModel, supply: FreshIds)
    requires Valid(ctx.committed) && Service.Settled(ctx)
    requires ValidateCourse(course) == [] && authorId in ctx.committed.authors
    requires lookup(ctx.committed, authorId, courseId).None?
    requires courseId != Empty && courseId !in ctx.committed.courses
    ensures var h := Put(ctx, lookup, authorId, courseId, course, supply);
      && h.response == Fault(NoRouteMatch)
      && Valid(h.ctx.committed)
      && courseId in h.ctx.committed.courses
      && h.ctx.committed.courses[courseId] == Course(courseId, course.title, course.description, authorId)
  {
  }

  /** With the empty id in the query the store generates the id: the
      course is saved under the next fresh id, not under the empty one,
      behind the same 500. */
  lemma PutEmptyIdDrawsFreshId(ctx: Service.Ctx, lookup: Service.CourseOfAuthorLookup, authorId: Guid,
                               course: CourseForCreationModel, supply: FreshIds)
    requires Valid(ctx.committed) && Service.Settled(ctx) && FreshFrom(ctx.pending, supply, ctx.drawn)
    requires ValidateCourse(course) == [] && authorId in ctx.committed.authors
    requires lookup(ctx.committed, authorId, Empty).None?
    ensures var h := Put(ctx, lookup, authorId, Empty, course, supply);
      var id := supply(ctx.drawn);
      && h.response == Fault(NoRouteMatch)
      && Valid(h.ctx.committed)
      && Empty !in h.ctx.committed.courses
      && id !in ctx.committed.courses
      && id in h.ctx.committed.courses
      && h.ctx.committed.courses[id] == Course(id, course.title, course.description, authorId)
  {
    CourseRepository.AddCourseFresh(ctx.pending, authorId, FromCourseCreationModel(course), supply, ctx.drawn);
  }

  /** The update half of the upsert, with the corrected update: when the
      lookup returns the stored course, it is overwritten with the
      payload's title and description and keeps its id and author.
      PutAsWrittenKeepsRow states what the program does instead. */
  lemma PutOverwrites(ctx: Service.Ctx, lookup: Service.CourseOfAuthorLookup, authorId: Guid, courseId: Guid,
                      course: CourseForCreationModel, supply: FreshIds)
    requires Valid(ctx.committed) && Service.Settled(ctx)
    requires ValidateCourse(course) == [] && authorId in ctx.committed.authors
    requires courseId in ctx.committed.courses
    requires lookup(ctx.committed, authorId, courseId) == Some(ctx.committed.courses[courseId])
    ensures var h := Put(ctx, lookup, authorId, courseId, course, supply);
      var before := ctx.committed.courses[courseId];
      && h.response.NoContent?
      && Valid(h.ctx.committed)
      && h.ctx.committed.courses[courseId] == Course(courseId, course.title, course.description, before.authorId)
  {
    CourseRepository.UpdateCourseThenGet(ctx.committed, MergeCourseCreationModel(course, ctx.committed.courses[courseId]));
  }

  /** Whether a PUT reaches the update branch: the payload is valid, the
      author exists and the lookup finds the course. */
  predicate ReachesUpdate(ctx: Service.Ctx, lookup: Service.CourseOfAuthorLookup, authorId: Guid, courseId: Guid,
                          course: CourseForCreationModel) {
    && ValidateCourse(course) == [] && authorId != Empty && authorId in ctx.committed.authors
    && Service.GetCourseOfAuthor(ctx, lookup, authorId, courseId).Some?
  }

  /** PUT as the program runs it. The update branch calls the program's
      UpdateCourse, whose body is empty, and the save that follows finds
      no change to write; the answer is still NoContent. Every other
      branch is Put's. */
  function PutAsWritten(ctx: Service.Ctx, lookup: Service.CourseOfAuthorLookup, authorId: Guid, courseId: Guid,
                        course: CourseForCreationModel, supply: FreshIds): (h: Handled<CourseModel>)
    ensures !ReachesUpdate(ctx, lookup, authorId, courseId, course) ==> h == Put(ctx, lookup, authorId, courseId, course, supply)
    ensures ReachesUpdate(ctx, lookup, authorId, courseId, course) ==>
      && h.response == NoContent
      && h.ctx.committed == ctx.pending
      && h.ctx.trace == ctx.trace + [Service.UpdateCourseCall(Some(MergeCourseCreationModel(course,
                                       Service.GetCourseOfAuthor(ctx, lookup, authorId, courseId).value))),
                                     Service.SaveCall(Service.CourseRepo)]
  {
    if ReachesUpdate(ctx, lookup, authorId, courseId, course) then
      var c := Service.GetCourseOfAuthor(ctx, lookup, authorId, courseId).value;
      var o := Service.UpdateCourseAsWritten(ctx, Some(MergeCourseCreationModel(course, c)));
      Handled(NoContent, o.ctx)
    else Put(ctx, lookup, authorId, courseId, course, supply)
  }

  /** Counterpart of PutOverwrites for the program as written: on a
      settled store the client gets NoContent, the committed store is
      unchanged and the course keeps its old title and description, so a
      payload that differs from the stored course is lost where the
      corrected Put would have written it. */
  lemma PutAsWrittenKeepsRow(ctx: Service.Ctx, lookup: Service.CourseOfAuthorLookup, authorId: Guid, courseId: Guid,
                             course: CourseForCreationModel, supply: FreshIds)
    requires Valid(ctx.committed) && Service.Settled(ctx)
    requires ValidateCourse(course) == [] && authorId in ctx.committed.authors
    requires courseId in ctx.committed.courses
    requires lookup(ctx.committed, authorId, courseId) == Some(ctx.committed.courses[courseId])
    ensures var h := PutAsWritten(ctx, lookup, authorId, courseId, course, supply);
      var before := ctx.committed.courses[courseId];
      && h.response == Put(ctx, lookup, authorId, courseId, course, supply).response == NoContent
      && h.ctx.committed == ctx.committed
      && (before.title != course.title || before.description != course.description ==>
            h.ctx.committed != Put(ctx, lookup, authorId, courseId, course, supply).ctx.committed)
  {
    PutOverwrites(ctx, lookup, authorId, courseId, course, supply);
  }

  /** DELETE courses/{authorId}?courseId: the author is checked first,
      then the course (NotFound for either); otherwise exactly the course
      found is deleted once and the answer is NoContent. */
  function Delete(ctx: Service.Ctx, lookup: Service.CourseOfAuthorLookup, authorId: Guid, courseId: Guid): (h: Handled<()>)
    ensures authorId == Empty <==> h == Handled(Fault(ArgumentNull("authorId")), ctx)
    ensures authorId != Empty ==>
      (h.response == NotFound <==>
         authorId !in ctx.committed.authors || Service.GetCourseOfAuthor(ctx, lookup, authorId, courseId).None?)
    ensures h.response.NotFound? ==> h.ctx == ctx
    ensures h.response.NoContent? || h.response.NotFound? || h.response.Fault?
    ensures h.response.NoContent? ==>
      && authorId in ctx.committed.authors
      && Service.GetCourseOfAuthor(ctx, lookup, authorId, courseId).Some?
      && h.ctx.trace == ctx.trace + [Service.DeleteCourseCall(Service.GetCourseOfAuthor(ctx, lookup, authorId, courseId)),
                                     Service.SaveCall(Service.CourseRepo)]
  {
    match Service.AuthorExists(ctx, authorId)
    case Failure(e) => Handled(Fault(e), ctx)
    case Success(false) => Handled(NotFound, ctx)
    case Success(true) =>
      match Service.GetCourseOfAuthor(ctx, lookup, authorId, courseId)
      case None => Handled(NotFound, ctx)
      case Some(c) =>
        var o := Service.DeleteCourse(ctx, Some(c));
        Handled(if o.result.Success? then NoContent else Fault(o.result.error), o.ctx)
  }

  /** With a sound lookup that finds a stored course, the delete removes
      exactly that course and keeps the store valid. */
  lemma DeleteRemoves(ctx: Service.Ctx, lookup: Service.CourseOfAuthorLookup, authorId: Guid, courseId: Guid)
    requires Valid(ctx.committed) && Service.Settled(ctx) && Service.LookupSound(lookup)
    requires authorId in ctx.committed.authors && courseId in ctx.committed.courses
    requires lookup(ctx.committed, authorId, courseId).Some?
    ensures var h := Delete(ctx, lookup, authorId, courseId);
      && h.response.NoContent?
      && Valid(h.ctx.committed)
      && courseId !in h.ctx.committed.courses
      && (forall cid :: cid in ctx.committed.courses && cid != courseId ==> cid in h.ctx.committed.courses && h.ctx.committed.courses[cid] == ctx.committed.courses[cid])
  {
    var c := lookup(ctx.committed, authorId, courseId).value;
    assert c.id == courseId;
    CourseRepository.DeleteCourseThenGet(ctx.committed, c);
  }
}

=== FILE: author_repository.dfy ===
/** AuthorRepository: the author operations on the store. A mutation
    returns the changed store (the change tracker's pending state); a call
    that throws returns the exception and changes nothing. */
module AuthorRepository {
  import opened Wrappers
  import opened Text
  import opened Guids
  import opened Entities
  import opened Ordering
  import opened Database

  // ---------------------------------------------------------------------
  // AddAuthor

  datatype AddedAuthor = AddedAuthor(store: Store, author: Author, drawn: nat)

  /** The author as AddAuthor rewrites it: a new id first, then for each
      course in order a new id and the author's id as its foreign key. */
  function WithNewIds(a: Author, supply: FreshIds, drawn: nat): (r: Author)
    ensures r.id == supply(drawn)
    ensures |r.courses| == |a.courses|
    ensures forall i :: 0 <= i < |a.courses| ==>
      r.courses[i] == a.courses[i].(id := supply(drawn + 1 + i), authorId := r.id)
  {
    var id := supply(drawn);
    a.(id := id,
       courses := seq(|a.courses|, i requires 0 <= i < |a.courses| =>
                      a.courses[i].(id := supply(drawn + 1 + i), authorId := id)))
  }

  predicate DistinctIds(cs: seq<Course>) {
    forall i, j :: 0 <= i < j < |cs| ==> cs[i].id != cs[j].id
  }

  /** None of the author's keys is taken yet. */
  predicate KeysFree(s: Store, a: Author) {
    && a.id !in s.authors
    && (forall i :: 0 <= i < |a.courses| ==> a.courses[i].id !in s.courses)
  }

  /** Authors.Add on the graph: the author row and one row per course. */
  function InsertGraph(s: Store, a: Author): (t: Store)
    requires DistinctIds(a.courses)
    ensures t.users == s.users
    ensures t.authors == s.authors[a.id := a.(courses := [])]
    ensures t.courses.Keys == s.courses.Keys + set i | 0 <= i < |a.courses| :: a.courses[i].id
    ensures forall i :: 0 <= i < |a.courses| ==> t.courses[a.courses[i].id] == a.courses[i]
    ensures forall cid :: cid in s.courses && (forall i :: 0 <= i < |a.courses| ==> a.courses[i].id != cid) ==> t.courses[cid] == s.courses[cid]
  {
    var added := map i | 0 <= i < |a.courses| :: a.courses[i].id := a.courses[i];
    Store(s.authors[a.id := a.(courses := [])], s.courses + added, s.users)
  }

  /** AddAuthor(author): null is rejected before anything changes;
      otherwise the author and its courses get new ids, the courses point
      at the author, and the graph is added. A key the store already holds
      is reported as the store would report it. */
  function AddAuthor(s: Store, author: Option<Author>, supply: FreshIds, drawn: nat): (r: Result<AddedAuthor>)
    ensures author.None? <==> r == Failure(ArgumentNull("author"))
    ensures r.Failure? ==> r.error in {ArgumentNull("author"), DuplicateKey}
    ensures r.Success? ==>
      && r.value.author.id == supply(drawn)
      && r.value.drawn == drawn + 1 + |author.value.courses|
      && r.value.author.firstName == author.value.firstName
      && r.value.author.lastName == author.value.lastName
      && r.value.author.dateOfBirth == author.value.dateOfBirth
      && r.value.author.mainCategory == author.value.mainCategory
      && |r.value.author.courses| == |author.value.courses|
      && (forall i :: 0 <= i < |author.value.courses| ==>
            var c := r.value.author.courses[i];
            && c.id == supply(drawn + 1 + i)
            && c.authorId == r.value.author.id
            && c.title == author.value.courses[i].title
            && c.description == author.value.courses[i].description)
  {
    if author.None? then Failure(ArgumentNull("author"))
    else
      var a := WithNewIds(author.value, supply, drawn);
      if !DistinctIds(a.courses) || !KeysFree(s, a) then Failure(DuplicateKey)
      else Success(AddedAuthor(InsertGraph(s, a), a, drawn + 1 + |a.courses|))
  }

  /** Ids drawn from a fresh supply are distinct and free, and the course
      ids differ from the author's. */
  lemma NewIdsAreFree(s: Store, a: Author, supply: FreshIds, drawn: nat)
    requires FreshFrom(s, supply, drawn)
    ensures var b := WithNewIds(a, supply, drawn);
      && DistinctIds(b.courses) && KeysFree(s, b)
      && (forall i :: 0 <= i < |b.courses| ==> b.courses[i].id != b.id && b.courses[i].authorId == b.id)
  {
    var b := WithNewIds(a, supply, drawn);
    forall i, j | 0 <= i < j < |b.courses|
      ensures b.courses[i].id != b.courses[j].id
    {
      assert b.courses[i].id == supply(drawn + 1 + i) && b.courses[j].id == supply(drawn + 1 + j);
    }
    forall i | 0 <= i < |b.courses|
      ensures b.courses[i].id !in s.courses && b.courses[i].id != b.id && b.courses[i].authorId == b.id
    {
      assert b.courses[i].id == supply(drawn + 1 + i);
    }
  }

  /** Inserting a graph whose keys are free and whose courses point at its
      author keeps a valid store valid. */
  lemma InsertGraphValid(s: Store, b: Author)
    requires Valid(s) && DistinctIds(b.courses) && KeysFree(s, b) && b.id != Empty
    requires forall i :: 0 <= i < |b.courses| ==> b.courses[i].id != Empty && b.courses[i].authorId == b.id
    ensures Valid(InsertGraph(s, b))
  {
    var t := InsertGraph(s, b);
    forall cid | cid in t.courses
      ensures t.courses[cid].id == cid && t.courses[cid].authorId in t.authors
    {
      if cid !in s.courses {
        var i :| 0 <= i < |b.courses| && b.courses[i].id == cid;
        assert t.courses[cid] == b.courses[i];
      } else {
        assert t.courses[cid] == s.courses[cid];
      }
    }
  }

  /** The ids AddAuthor uses are behind the supply's new cursor. */
  lemma InsertGraphKeepsSupplyFresh(s: Store, a: Author, supply: FreshIds, drawn: nat)
    requires FreshFrom(s, supply, drawn)
    requires DistinctIds(WithNewIds(a, supply, drawn).courses)
    ensures FreshFrom(InsertGraph(s, WithNewIds(a, supply, drawn)), supply, drawn + 1 + |a.courses|)
  {
    var b := WithNewIds(a, supply, drawn);
    var t := InsertGraph(s, b);
    var later := drawn + 1 + |a.courses|;
    var added := set i | 0 <= i < |b.courses| :: b.courses[i].id;
    assert t.courses.Keys == s.courses.Keys + added;
    forall k | later <= k
      ensures supply(k) !in t.authors && supply(k) !in t.courses
    {
      PastNewIds(s, a, supply, drawn, k);
      assert supply(k) !in added;
    }
    FreshFromLater(s, supply, drawn, later);
  }

  /** An id drawn after AddAuthor's is none of the ids it used, nor a key
      the store had. */
  lemma PastNewIds(s: Store, a: Author, supply: FreshIds, drawn: nat, k: nat)
    requires FreshFrom(s, supply, drawn)
    requires drawn + 1 + |a.courses| <= k
    ensures var b := WithNewIds(a, supply, drawn);
      && supply(k) != b.id
      && supply(k) !in s.authors && supply(k) !in s.courses
      && forall i :: 0 <= i < |b.courses| ==> b.courses[i].id != supply(k)
  {
    var b := WithNewIds(a, supply, drawn);
    forall i | 0 <= i < |b.courses|
      ensures b.courses[i].id != supply(k)
    {
      assert b.courses[i].id == supply(drawn + 1 + i);
    }
  }

  /** Every inserted course is among the author's courses on reading back. */
  lemma InsertedCoursesRead(s: Store, b: Author, c: Course)
    requires Valid(s) && DistinctIds(b.courses) && KeysFree(s, b) && b.id != Empty
    requires forall i :: 0 <= i < |b.courses| ==> b.courses[i].id != Empty && b.courses[i].authorId == b.id
    requires c in b.courses
    ensures c in Materialize(InsertGraph(s, b), b.id).courses
  {
    var t := InsertGraph(s, b);
    InsertGraphValid(s, b);
    MaterializedCourses(t, b.id);
    var i :| 0 <= i < |b.courses| && b.courses[i] == c;
    assert t.courses[c.id] == c;
    assert c in t.courses.Values;
  }

  /** Only inserted courses are among the author's courses on reading back. */
  lemma ReadCoursesInserted(s: Store, b: Author, c: Course)
    requires Valid(s) && DistinctIds(b.courses) && KeysFree(s, b) && b.id != Empty
    requires forall i :: 0 <= i < |b.courses| ==> b.courses[i].id != Empty && b.courses[i].authorId == b.id
    requires c in Materialize(InsertGraph(s, b), b.id).courses
    ensures c in b.courses
  {
    var t := InsertGraph(s, b);
    InsertGraphValid(s, b);
    MaterializedCourses(t, b.id);
    var m := Materialize(t, b.id);
    var i :| 0 <= i < |m.courses| && m.courses[i] == c;
    assert c.id in t.courses && t.courses[c.id] == c && c.authorId == b.id;
    assert c.id !in s.courses;
    var j :| 0 <= j < |b.courses| && b.courses[j].id == c.id;
    assert t.courses[c.id] == b.courses[j];
  }

  /** After the insert, the author reads back with exactly the inserted
      courses. */
  lemma InsertGraphMaterializes(s: Store, b: Author)
    requires Valid(s) && DistinctIds(b.courses) && KeysFree(s, b) && b.id != Empty
    requires forall i :: 0 <= i < |b.courses| ==> b.courses[i].id != Empty && b.courses[i].authorId == b.id
    ensures var t := InsertGraph(s, b);
      && Materialize(t, b.id).(courses := []) == b.(courses := [])
      && (forall c :: c in Materialize(t, b.id).courses <==> c in b.courses)
  {
    forall c
      ensures c in Materialize(InsertGraph(s, b), b.id).courses <==> c in b.courses
    {
      if c in b.courses {
        InsertedCoursesRead(s, b, c);
      }
      if c in Materialize(InsertGraph(s, b), b.id).courses {
        ReadCoursesInserted(s, b, c);
      }
    }
  }

  /** With a fresh id supply, adding an author to a valid store succeeds,
      keeps the store valid and the rest of the supply fresh, leaves every
      existing row as it was, and makes the author with exactly its new
      courses readable. */
  lemma AddAuthorFresh(s: Store, a: Author, supply: FreshIds, drawn: nat)
    requires Valid(s) && FreshFrom(s, supply, drawn)
    ensures var r := AddAuthor(s, Some(a), supply, drawn);
      && r.Success?
      && Valid(r.value.store)
      && FreshFrom(r.value.store, supply, r.value.drawn)
      && r.value.store.users == s.users
      && (forall id :: id in s.authors ==> id in r.value.store.authors && r.value.store.authors[id] == s.authors[id])
      && (forall id :: id in s.courses ==> id in r.value.store.courses && r.value.store.courses[id] == s.courses[id])
      && r.value.author.id in r.value.store.authors
      && Materialize(r.value.store, r.value.author.id).(courses := []) == r.value.author.(courses := [])
      && (forall c :: c in Materialize(r.value.store, r.value.author.id).courses <==> c in r.value.author.courses)
  {
    var b := WithNewIds(a, supply, drawn);
    NewIdsAreFree(s, a, supply, drawn);
    assert AddAuthor(s, Some(a), supply, drawn) == Success(AddedAuthor(InsertGraph(s, b), b, drawn + 1 + |a.courses|));
    InsertGraphValid(s, b);
    InsertGraphKeepsSupplyFresh(s, a, supply, drawn);
    InsertGraphMaterializes(s, b);
  }

  // ---------------------------------------------------------------------
  // Reads

  /** AuthorExistsAsync: the empty id is rejected; otherwise whether an
      author row has that id. */
  function AuthorExists(s: Store, authorId: Guid): (r: Result<bool>)
    ensures authorId == Empty <==> r == Failure(ArgumentNull("authorId"))
    ensures r.Success? ==> (r.value <==> authorId in s.authors)
  {
    if authorId == Empty then Failure(ArgumentNull("authorId"))
    else Success(authorId in s.authors)
  }

  /** GetAuthorAsync: the empty id is rejected; otherwise the author with
      its courses, or none. */
  function GetAuthor(s: Store, authorId: Guid): (r: Result<Option<Author>>)
    ensures authorId == Empty <==> r == Failure(ArgumentNull("authorId"))
    ensures r.Success? ==> (r.value.Some? <==> authorId in s.authors)
    ensures r.Success? && r.value.Some? ==> r.value.value.(courses := []) == s.authors[authorId].(courses := [])
  {
    if authorId == Empty then Failure(ArgumentNull("authorId"))
    else if authorId in s.authors then Success(Some(Materialize(s, authorId)))
    else Success(None)
  }

  /** The existence check and the lookup agree. */
  lemma ExistsIffFound(s: Store, authorId: Guid)
    ensures AuthorExists(s, authorId) == Success(true) <==> GetAuthor(s, authorId).Success? && GetAuthor(s, authorId).value.Some?
    ensures AuthorExists(s, authorId) == Success(false) <==> GetAuthor(s, authorId) == Success(None)
  {
  }

  /** In a valid store the author found has the id asked for and exactly
      the courses that name it. */
  lemma GetAuthorFindsItsCourses(s: Store, authorId: Guid)
    requires Valid(s) && authorId != Empty && authorId in s.authors
    ensures var r := GetAuthor(s, authorId);
      && r.Success? && r.value.Some?
      && r.value.value.id == authorId
      && (forall c :: c in r.value.value.courses <==> c in s.courses.Values && c.authorId == authorId)
  {
    MaterializedCourses(s, authorId);
    var a := Materialize(s, authorId);
    forall c | c in a.courses
      ensures c in s.courses.Values && c.authorId == authorId
    {
      var i :| 0 <= i < |a.courses| && a.courses[i] == c;
    }
  }

  /** GetAuthorsAsync(): every author row, once each. No order is asked
      for; the model lists them by id. */
  function GetAuthors(s: Store): (r: seq<Author>)
    ensures |r| == |s.authors|
    ensures forall id :: id in s.authors ==> s.authors[id] in r
    ensures forall i :: 0 <= i < |r| ==> r[i] in s.authors.Values
  {
    ListBy(s.authors, s.authors.Keys, NoKey)
  }

  /** The stored ids among the requested ones. */
  function FoundIds(s: Store, authorIds: seq<Guid>): (ids: set<Guid>)
    ensures ids <= s.authors.Keys
    ensures forall id :: id in ids <==> id in authorIds && id in s.authors
  {
    set id | id in authorIds && id in s.authors
  }

  function LastName(a: Author): NString {
    a.lastName
  }

  /** GetAuthorsAsync(ids): a null list is rejected; otherwise the author
      rows whose id is listed, each once however often it is listed,
      sorted by last name. The second OrderBy replaces the first, so the
      first name does not break ties. */
  function GetAuthorsByIds(s: Store, authorIds: Option<seq<Guid>>): (r: Result<seq<Author>>)
    ensures authorIds.None? <==> r == Failure(ArgumentNull("authorIds"))
    ensures r.Success? ==>
      && |r.value| == |FoundIds(s, authorIds.value)|
      && (forall id :: id in authorIds.value && id in s.authors ==> s.authors[id] in r.value)
      && (forall i :: 0 <= i < |r.value| ==> exists id :: id in FoundIds(s, authorIds.value) && r.value[i] == s.authors[id])
      && (forall i, j :: 0 <= i < j < |r.value| ==> !NLess(LastName(r.value[j]), LastName(r.value[i])))
  {
    if authorIds.None? then Failure(ArgumentNull("authorIds"))
    else Success(ListBy(s.authors, FoundIds(s, authorIds.value), LastName))
  }

  // ---------------------------------------------------------------------
  // DeleteAuthor and UpdateAuthor

  /** The courses that do not name `authorId`. */
  function CoursesNotOf(s: Store, authorId: Guid): (m: map<Guid, Course>)
    ensures forall cid :: cid in m <==> cid in s.courses && s.courses[cid].authorId != authorId
    ensures forall cid :: cid in m ==> m[cid] == s.courses[cid]
  {
    map cid | cid in s.courses && s.courses[cid].authorId != authorId :: s.courses[cid]
  }

  /** DeleteAuthor(author): null is rejected; an author the store does not
      hold cannot be deleted; otherwise the author row goes, and the
      required foreign key cascades the delete to its courses. */
  function DeleteAuthor(s: Store, author: Option<Author>): (r: Result<Store>)
    ensures author.None? <==> r == Failure(ArgumentNull("author"))
    ensures author.Some? && author.value.id !in s.authors <==> r == Failure(MissingRow)
    ensures r.Success? ==>
      && r.value.authors == s.authors - {author.value.id}
      && r.value.courses == CoursesNotOf(s, author.value.id)
      && r.value.users == s.users
  {
    if author.None? then Failure(ArgumentNull("author"))
    else if author.value.id !in s.authors then Failure(MissingRow)
    else Success(Store(s.authors - {author.value.id}, CoursesNotOf(s, author.value.id), s.users))
  }

  /** Deleting an author keeps the store valid: no course is left
      pointing at it, and every other author and course is untouched. */
  lemma DeleteAuthorCascades(s: Store, a: Author)
    requires Valid(s) && a.id in s.authors
    ensures var r := DeleteAuthor(s, Some(a));
      && r.Success?
      && Valid(r.value)
      && a.id !in r.value.authors
      && (forall cid :: cid in s.courses && s.courses[cid].authorId == a.id ==> cid !in r.value.courses)
      && (forall id :: id in s.authors && id != a.id ==> id in r.value.authors && r.value.authors[id] == s.authors[id])
      && (forall cid :: cid in s.courses && s.courses[cid].authorId != a.id ==> cid in r.value.courses && r.value.courses[cid] == s.courses[cid])
  {
  }

  /** UpdateAuthor(author): Authors.Update throws on null; a row the store
      does not hold cannot be updated; otherwise the author row is
      overwritten with the entity's fields. */
  function UpdateAuthor(s: Store, author: Option<Author>): (r: Result<Store>)
    ensures author.None? <==> r == Failure(ArgumentNull("entity"))
    ensures author.Some? && author.value.id !in s.authors <==> r == Failure(MissingRow)
    ensures r.Success? ==>
      && r.value.authors.Keys == s.authors.Keys
      && r.value.authors[author.value.id] == author.value.(courses := [])
      && (forall id :: id in s.authors && id != author.value.id ==> r.value.authors[id] == s.authors[id])
      && r.value.courses == s.courses && r.value.users == s.users
  {
    if author.None? then Failure(ArgumentNull("entity"))
    else if author.value.id !in s.authors then Failure(MissingRow)
    else Success(s.(authors := s.authors[author.value.id := author.value.(courses := [])]))
  }

  /** Updating a stored author keeps the store valid, and reading the
      author back gives the written fields with the courses it had. */
  lemma UpdateAuthorThenGet(s: Store, a: Author)
    requires Valid(s) && a.id in s.authors
    ensures var r := UpdateAuthor(s, Some(a));
      && r.Success? && Valid(r.value)
      && GetAuthor(r.value, a.id) == Success(Some(a.(courses := Materialize(s, a.id).courses)))
  {
    var t := UpdateAuthor(s, Some(a)).value;
    assert CourseIdsOf(t, a.id) == CourseIdsOf(s, a.id);
  }
}

=== FILE: calendar.dfy ===
/** Calendar dates as System.DateOnly holds them (proleptic Gregorian,
    years 1 through 9999), their order, and DateOnly.AddYears. */
module Calendar {
  import opened Wrappers

  const MinYear := 1
  const MaxYear := 9999

  type Year = y: int | MinYear <= y <= MaxYear witness MinYear

  predicate IsLeapYear(y: int) {
    y % 4 == 0 && (y % 100 != 0 || y % 400 == 0)
  }

  function DaysInMonth(y: int, m: int): (n: int)
    requires 1 <= m <= 12
    ensures 28 <= n <= 31
  {
    if m == 2 then (if IsLeapYear(y) then 29 else 28)
    else if m == 4 || m == 6 || m == 9 || m == 11 then 30
    else 31
  }

  datatype DateParts = Date(year: int, month: int, day: int)

  predicate IsValidDate(d: DateParts) {
    && MinYear <= d.year <= MaxYear
    && 1 <= d.month <= 12
    && 1 <= d.day <= DaysInMonth(d.year, d.month)
  }

  /** A DateOnly value: only valid calendar dates exist. */
  type Date = d: DateParts | IsValidDate(d) witness Date(1, 1, 1)

  /** The strict chronological order `a < b`. */
  predicate Before(a: Date, b: Date) {
    || a.year < b.year
    || (a.year == b.year && (a.month < b.month || (a.month == b.month && a.day < b.day)))
  }

  /** DateOnly.AddYears(n): the same month and day n years later, the
      29th of February becoming the 28th in a common year; None where
      the framework throws ArgumentOutOfRangeException. */
  function AddYears(d: Date, n: int): (r: Option<Date>)
    ensures r.Some? <==> MinYear <= d.year + n <= MaxYear
    ensures r.Some? ==> r.value.year == d.year + n && r.value.month == d.month
    ensures r.Some? ==> r.value.day == d.day || (d.month == 2 && d.day == 29 && r.value.day == 28)
  {
    var y := d.year + n;
    if y < MinYear || y > MaxYear then None
    else if d.day > DaysInMonth(y, d.month) then Some(Date(y, d.month, DaysInMonth(y, d.month)))
    else Some(Date(y, d.month, d.day))
  }

  lemma BeforeIrreflexive(a: Date)
    ensures !Before(a, a)
  {
  }

  /** Before is a strict total order. */
  lemma BeforeTotal(a: Date, b: Date)
    ensures a == b || Before(a, b) || Before(b, a)
  {
  }

  lemma BeforeTransitive(a: Date, b: Date, c: Date)
    requires Before(a, b) && Before(b, c)
    ensures Before(a, c)
  {
  }

  /** A leap-day birth date's anniversary in a common year is the 28th of
      February. */
  lemma LeapDayClamps(d: Date, n: int)
    requires d.month == 2 && d.day == 29
    requires MinYear <= d.year + n <= MaxYear && !IsLeapYear(d.year + n)
    ensures AddYears(d, n) == Some(Date(d.year + n, 2, 28))
  {
  }
}

=== FILE: course_controller.dfy ===
/** CourseController: get one course and patch it. */
module CourseController {
  import opened Wrappers
  import opened Guids
  import opened Entities
  import opened Models
  import opened Profiles
  import opened Validators
  import opened Database
  import opened Hateoas
  import opened ActionResults
  import Service
  import CourseRepository

  /** A JSON patch document for the creation model: None for a null
      document, otherwise what its ApplyTo does to the projection. */
  type CoursePatch = Option<CourseForCreationModel -> CourseForCreationModel>

  /** GET course/{courseId}: the empty id makes the lookup throw; a
      missing course is NotFound; otherwise the course's view with the
      links of the id in the route. */
  function Get(ctx: Service.Ctx, uri: UriBuilder, courseId: Guid): (r: Response<LinkWrapper<CourseModel>>)
    ensures courseId == Empty <==> r == Fault(ArgumentNull("courseId"))
    ensures courseId != Empty ==> (r == NotFound <==> courseId !in ctx.committed.courses)
    ensures r.Ok? || r.NotFound? || r.Fault?
    ensures r.Ok? ==>
      && courseId in ctx.committed.courses
      && r.body.value == ToCourseModel(ctx.committed.courses[courseId])
      && r.body.links == CourseLinks(uri, courseId)
  {
    match Service.GetCourse(ctx, courseId)
    case Failure(e) => Fault(e)
    case Success(None) => NotFound
    case Success(Some(c)) => Ok(LinkWrapper(ToCourseModel(c), CourseLinks(uri, courseId)))
  }

  /** The patch flow up to the update, shared by the corrected and the
      as-written action: the fetched course and its patched projection,
      or the response that ends the request early. */
  datatype PatchPlan =
    | Stop(response: Response<()>)
    | Write(course: Course, patched: CourseForCreationModel)

  /** Fetch (the empty id throws, a missing course is NotFound before any
      patch is applied); apply the document to the projection (a null
      document throws); validate the result (BadRequest). */
  function PlanPatch(ctx: Service.Ctx, courseId: Guid, patch: CoursePatch): (p: PatchPlan)
    ensures courseId == Empty <==> p == Stop(Fault(ArgumentNull("courseId")))
    ensures courseId != Empty ==> (p == Stop(NotFound) <==> courseId !in ctx.committed.courses)
    ensures courseId != Empty && courseId in ctx.committed.courses ==>
      (p == Stop(Fault(NullReference)) <==> patch.None?)
    ensures p.Stop? ==> p.response.Fault? || p.response.NotFound? || p.response.BadRequest?
    ensures p.Stop? && p.response.BadRequest? <==>
      && courseId != Empty && courseId in ctx.committed.courses && patch.Some?
      && ValidateCourse(patch.value(ToCourseCreationModel(ctx.committed.courses[courseId]))) != []
    ensures p.Write? ==>
      && courseId in ctx.committed.courses && patch.Some?
      && p.course == ctx.committed.courses[courseId]
      && p.patched == patch.value(ToCourseCreationModel(p.course))
      && ValidateCourse(p.patched) == []
  {
    match Service.GetCourse(ctx, courseId)
    case Failure(e) => Stop(Fault(e))
    case Success(None) => Stop(NotFound)
    case Success(Some(c)) =>
      if patch.None? then Stop(Fault(NullReference))
      else
        var patched := patch.value(ToCourseCreationModel(c));
        var failures := ValidateCourse(patched);
        if failures != [] then Stop(BadRequest(failures)) else Write(c, patched)
  }

  /** PATCH course/{courseId}: the plan, then the patched title and
      description merged onto the course, one update and NoContent. */
  function Patch(ctx: Service.Ctx, courseId: Guid, patch: CoursePatch): (h: Handled<()>)
    ensures PlanPatch(ctx, courseId, patch).Stop? ==> h == Handled(PlanPatch(ctx, courseId, patch).response, ctx)
    ensures PlanPatch(ctx, courseId, patch).Write? ==>
      var p := PlanPatch(ctx, courseId, patch);
      h.ctx.trace == ctx.trace + [Service.UpdateCourseCall(Some(MergeCourseCreationModel(p.patched, p.course)))]
                               + (if h.response.NoContent? then [Service.SaveCall(Service.CourseRepo)] else [])
  {
    match PlanPatch(ctx, courseId, patch)
    case Stop(r) => Handled(r, ctx)
    case Write(c, patched) =>
      var o := Service.UpdateCourse(ctx, Some(MergeCourseCreationModel(patched, c)));
      Handled(if o.result.Success? then NoContent else Fault(o.result.error), o.ctx)
  }

  /** In a valid settled store a patch whose result validates is written:
      the course keeps its id and author, takes the patched title and
      description, and a later GET shows them. */
  lemma PatchWrites(ctx: Service.Ctx, uri: UriBuilder, courseId: Guid, patch: CoursePatch)
    requires Valid(ctx.committed) && Service.Settled(ctx)
    requires PlanPatch(ctx, courseId, patch).Write?
    ensures var h := Patch(ctx, courseId, patch);
      var p := PlanPatch(ctx, courseId, patch);
      && h.response.NoContent?
      && Valid(h.ctx.committed)
      && ToCourseCreationModel(h.ctx.committed.courses[courseId]) == p.patched
      && h.ctx.committed.courses[courseId].id == courseId
      && h.ctx.committed.courses[courseId].authorId == ctx.committed.courses[courseId].authorId
      && Get(h.ctx, uri, courseId).Ok?
      && Get(h.ctx, uri, courseId).body.value.title == p.patched.title
  {
    var p := PlanPatch(ctx, courseId, patch);
    CourseRepository.UpdateCourseThenGet(ctx.committed, MergeCourseCreationModel(p.patched, p.course));
  }

  /** PATCH as the program runs it: the same flow, with the update that
      does nothing. */
  function PatchAsWritten(ctx: Service.Ctx, courseId: Guid, patch: CoursePatch): (h: Handled<()>)
    ensures PlanPatch(ctx, courseId, patch).Stop? ==> h == Handled(PlanPatch(ctx, courseId, patch).response, ctx)
    ensures PlanPatch(ctx, courseId, patch).Write? ==> h.response == NoContent
  {
    match PlanPatch(ctx, courseId, patch)
    case Stop(r) => Handled(r, ctx)
    case Write(c, patched) =>
      var o := Service.UpdateCourseAsWritten(ctx, Some(MergeCourseCreationModel(patched, c)));
      Handled(NoContent, o.ctx)
  }

  /** The program answers NoContent to a valid patch on a settled store,
      yet the stored course is the one it fetched: the edit is lost. */
  lemma PatchAsWrittenLosesEdit(ctx: Service.Ctx, courseId: Guid, patch: CoursePatch)
    requires Service.Settled(ctx)
    requires PlanPatch(ctx, courseId, patch).Write?
    ensures var h := PatchAsWritten(ctx, courseId, patch);
      && h.response.NoContent?
      && h.ctx.committed == ctx.committed
      && h.ctx.committed.courses[courseId] == PlanPatch(ctx, courseId, patch).course
  {
  }
}

=== FILE: course_repository.dfy ===
/** CourseRepository: the course operations on the store, including the
    UpdateCourse the program ships (which does nothing) and the update it
    evidently intends. */
module CourseRepository {
  import opened Wrappers
  import opened Text
  import opened Guids
  import opened Entities
  import opened Ordering
  import opened Database

  datatype AddedCourse = AddedCourse(store: Store, course: Course, drawn: nat)

  /** AddCourse(authorId, course): the empty author id is rejected first,
      then a null course; the course's foreign key is overwritten with
      `authorId`. The repository assigns no id; Courses.Add generates one
      only when the course still has the empty id. A taken key or a missing
      author is reported as the store would report it. */
  function AddCourse(s: Store, authorId: Guid, course: Option<Course>, supply: FreshIds, drawn: nat): (r: Result<AddedCourse>)
    ensures authorId == Empty <==> r == Failure(ArgumentNull("authorId"))
    ensures authorId != Empty && course.None? <==> r == Failure(ArgumentNull("course"))
    ensures r.Failure? ==> r.error in {ArgumentNull("authorId"), ArgumentNull("course"), DuplicateKey, ForeignKeyViolation}
    ensures r.Success? ==>
      && r.value.course.authorId == authorId
      && r.value.course.title == course.value.title
      && r.value.course.description == course.value.description
      && (course.value.id != Empty ==> r.value.course.id == course.value.id && r.value.drawn == drawn)
      && (course.value.id == Empty ==> r.value.course.id == supply(drawn) && r.value.drawn == drawn + 1)
      && r.value.course.id !in s.courses
      && r.value.store == s.(courses := s.courses[r.value.course.id := r.value.course])
  {
    if authorId == Empty then Failure(ArgumentNull("authorId"))
    else if course.None? then Failure(ArgumentNull("course"))
    else
      var c := course.value.(authorId := authorId);
      var (c, drawn') := if c.id == Empty then (c.(id := supply(drawn)), drawn + 1) else (c, drawn);
      if c.id in s.courses then Failure(DuplicateKey)
      else if authorId !in s.authors then Failure(ForeignKeyViolation)
      else Success(AddedCourse(s.(courses := s.courses[c.id := c]), c, drawn'))
  }

  /** The foreign key the caller put on the course never matters. */
  lemma AddCourseIgnoresGivenAuthorId(s: Store, authorId: Guid, c: Course, other: Guid, supply: FreshIds, drawn: nat)
    ensures AddCourse(s, authorId, Some(c), supply, drawn) == AddCourse(s, authorId, Some(c.(authorId := other)), supply, drawn)
  {
  }

  /** Adding a course without an id under a stored author, with a fresh id
      supply, succeeds, keeps the store valid and the supply fresh, and the
      course is then found by id and among the author's courses. */
  lemma AddCourseFresh(s: Store, authorId: Guid, c: Course, supply: FreshIds, drawn: nat)
    requires Valid(s) && FreshFrom(s, supply, drawn)
    requires authorId in s.authors && c.id == Empty
    ensures var r := AddCourse(s, authorId, Some(c), supply, drawn);
      && r.Success?
      && Valid(r.value.store)
      && FreshFrom(r.value.store, supply, r.value.drawn)
      && GetCourse(r.value.store, r.value.course.id) == Success(Some(r.value.course))
      && GetCoursesForAuthor(r.value.store, authorId).Success?
      && r.value.course in GetCoursesForAuthor(r.value.store, authorId).value
  {
    var r := AddCourse(s, authorId, Some(c), supply, drawn);
    var t := r.value.store;
    assert r.value.course.id == supply(drawn);
    assert Valid(t);
    assert r.value.course.id in CourseIdsOf(t, authorId);
  }

  /** GetCourseAsync(courseId): the empty id is rejected; otherwise the
      course with that id, or none. */
  function GetCourse(s: Store, courseId: Guid): (r: Result<Option<Course>>)
    ensures courseId == Empty <==> r == Failure(ArgumentNull("courseId"))
    ensures r.Success? ==> (r.value.Some? <==> courseId in s.courses)
    ensures r.Success? && r.value.Some? ==> r.value.value == s.courses[courseId]
  {
    if courseId == Empty then Failure(ArgumentNull("courseId"))
    else if courseId in s.courses then Success(Some(s.courses[courseId]))
    else Success(None)
  }

  /** In a valid store the course found carries the id asked for. */
  lemma GetCourseHasId(s: Store, courseId: Guid)
    requires Valid(s)
    ensures var r := GetCourse(s, courseId);
      r.Success? && r.value.Some? ==> r.value.value.id == courseId
  {
  }

  function Title(c: Course): NString {
    c.title
  }

  /** GetCoursesAsync(authorId): the empty id is rejected; otherwise
      exactly the courses whose foreign key is `authorId`, by title. */
  function GetCoursesForAuthor(s: Store, authorId: Guid): (r: Result<seq<Course>>)
    ensures authorId == Empty <==> r == Failure(ArgumentNull("authorId"))
    ensures r.Success? ==>
      && |r.value| == |CourseIdsOf(s, authorId)|
      && (forall c :: c in s.courses.Values && c.authorId == authorId ==> c in r.value)
      && (forall i :: 0 <= i < |r.value| ==> r.value[i] in s.courses.Values && r.value[i].authorId == authorId)
      && (forall i, j :: 0 <= i < j < |r.value| ==> !NLess(Title(r.value[j]), Title(r.value[i])))
  {
    if authorId == Empty then Failure(ArgumentNull("authorId"))
    else
      var r := ListBy(s.courses, CourseIdsOf(s, authorId), Title);
      forall c | c in s.courses.Values && c.authorId == authorId
        ensures c in r
      {
        var cid :| cid in s.courses && s.courses[cid] == c;
        assert cid in CourseIdsOf(s, authorId);
      }
      forall i | 0 <= i < |r|
        ensures r[i] in s.courses.Values && r[i].authorId == authorId
      {
        var cid :| cid in CourseIdsOf(s, authorId) && r[i] == s.courses[cid];
      }
      Success(r)
  }

  /** An author without courses gets an empty list, not an error. */
  lemma NoCoursesEmptyList(s: Store, authorId: Guid)
    requires authorId != Empty
    requires forall cid :: cid in s.courses ==> s.courses[cid].authorId != authorId
    ensures GetCoursesForAuthor(s, authorId) == Success([])
  {
    assert CourseIdsOf(s, authorId) == {};
  }

  /** GetCoursesAsync(): every course once, by title. */
  function GetCourses(s: Store): (r: seq<Course>)
    ensures |r| == |s.courses|
    ensures forall cid :: cid in s.courses ==> s.courses[cid] in r
    ensures forall i :: 0 <= i < |r| ==> r[i] in s.courses.Values
    ensures forall i, j :: 0 <= i < j < |r| ==> !NLess(Title(r[j]), Title(r[i]))
  {
    ListBy(s.courses, s.courses.Keys, Title)
  }

  /** DeleteCourse(course): Courses.Remove throws on null; a row the store
      does not hold cannot be deleted; otherwise that one row goes. */
  function DeleteCourse(s: Store, course: Option<Course>): (r: Result<Store>)
    ensures course.None? <==> r == Failure(ArgumentNull("entity"))
    ensures course.Some? && course.value.id !in s.courses <==> r == Failure(MissingRow)
    ensures r.Success? ==>
      && r.value.courses == s.courses - {course.value.id}
      && r.value.authors == s.authors && r.value.users == s.users
  {
    if course.None? then Failure(ArgumentNull("entity"))
    else if course.value.id !in s.courses then Failure(MissingRow)
    else Success(s.(courses := s.courses - {course.value.id}))
  }

  /** After a delete the course is gone, the store stays valid, and every
      other course is as it was. */
  lemma DeleteCourseThenGet(s: Store, c: Course)
    requires Valid(s) && c.id in s.courses
    ensures var r := DeleteCourse(s, Some(c));
      && r.Success? && Valid(r.value)
      && GetCourse(r.value, c.id) == Success(None)
      && (forall cid :: cid in s.courses && cid != c.id ==> GetCourse(r.value, cid) == GetCourse(s, cid))
  {
  }

  /** UpdateCourse as the program writes it: a method with no body. With
      change detection switched off in the context, edits made to the
      tracked course are not seen by the following save either, so the
      store keeps the old row. */
  function UpdateCourseAsWritten(s: Store, course: Option<Course>): Store {
    s
  }

  /** The update the callers evidently expect: like Courses.Update, null
      throws, a row the store does not hold cannot be updated, a foreign
      key to a missing author is refused, and otherwise the row is
      overwritten. */
  function UpdateCourse(s: Store, course: Option<Course>): (r: Result<Store>)
    ensures course.None? <==> r == Failure(ArgumentNull("entity"))
    ensures course.Some? && course.value.id !in s.courses <==> r == Failure(MissingRow)
    ensures course.Some? && course.value.id in s.courses && course.value.authorId !in s.authors <==> r == Failure(ForeignKeyViolation)
    ensures r.Success? ==>
      && r.value.courses.Keys == s.courses.Keys
      && r.value.courses[course.value.id] == course.value
      && (forall cid :: cid in s.courses && cid != course.value.id ==> r.value.courses[cid] == s.courses[cid])
      && r.value.authors == s.authors && r.value.users == s.users
  {
    if course.None? then Failure(ArgumentNull("entity"))
    else if course.value.id !in s.courses then Failure(MissingRow)
    else if course.value.authorId !in s.authors then Failure(ForeignKeyViolation)
    else Success(s.(courses := s.courses[course.value.id := course.value]))
  }

  /** The corrected update is read back by GetCourse and keeps the store
      valid. */
  lemma UpdateCourseThenGet(s: Store, c: Course)
    requires Valid(s) && c.id in s.courses && c.authorId in s.authors
    ensures var r := UpdateCourse(s, Some(c));
      && r.Success? && Valid(r.value)
      && GetCourse(r.value, c.id) == Success(Some(c))
  {
  }
}

=== FILE: date_extensions.dfy ===
/** DateTimeOffsetExtensions.GetCurrentAge in its DateOnly form: the
    number of whole years between a birth date and today, where "today"
    is passed in instead of read from the clock. */
module DateTimeOffsetExtensions {
  import opened Wrappers
  import opened Calendar

  /** Years since `birth` as of `today`: the year difference, less one
      while this year's anniversary is still ahead. */
  function GetCurrentAge(birth: Date, today: Date): (age: int)
    ensures age == today.year - birth.year || age == today.year - birth.year - 1
  {
    var age := today.year - birth.year;
    var anniversary := AddYears(birth, age);
    if Before(today, anniversary.value) then age - 1 else age
  }

  /** The anniversary `n` years after birth has arrived by `today`. */
  predicate Reached(birth: Date, n: int, today: Date) {
    var a := AddYears(birth, n);
    a.Some? && !Before(today, a.value)
  }

  /** The age is the number of completed years: its anniversary has been
      reached and the next one has not (when that one is a valid date). */
  lemma CurrentAgeIsCompletedYears(birth: Date, today: Date)
    ensures var age := GetCurrentAge(birth, today);
            && (AddYears(birth, age).Some? ==> Reached(birth, age, today))
            && !Reached(birth, age + 1, today)
  {
    var diff := today.year - birth.year;
    var age := GetCurrentAge(birth, today);
    var next := AddYears(birth, age + 1);
    if age == diff {
      assert next.Some? ==> next.value.year == today.year + 1;
    } else {
      assert AddYears(birth, diff).Some?;
      var prev := AddYears(birth, age);
      assert prev.Some? ==> prev.value.year == today.year - 1;
    }
  }

  /** On the anniversary itself the comparison is strict, so the full
      year difference is returned. */
  lemma OnAnniversary(birth: Date, today: Date)
    requires AddYears(birth, today.year - birth.year) == Some(today)
    ensures GetCurrentAge(birth, today) == today.year - birth.year
  {
    BeforeIrreflexive(today);
  }

  /** Any day of the year before the anniversary yields one less. */
  lemma BeforeAnniversary(birth: Date, today: Date)
    requires AddYears(birth, today.year - birth.year).Some?
    requires Before(today, AddYears(birth, today.year - birth.year).value)
    ensures GetCurrentAge(birth, today) == today.year - birth.year - 1
  {
  }

  /** A later "today" never yields a smaller age. */
  lemma AgeMonotone(birth: Date, t1: Date, t2: Date)
    requires !Before(t2, t1)
    ensures GetCurrentAge(birth, t1) <= GetCurrentAge(birth, t2)
  {
    if t1.year == t2.year {
      var a := AddYears(birth, t1.year - birth.year).value;
      if Before(t2, a) {
        BeforeTotal(t1, t2);
        if Before(t1, t2) {
          if !Before(t1, a) {
            BeforeTotal(t1, a);
            if a != t1 {
              BeforeTransitive(a, t1, t2);
              BeforeTransitive(a, t2, a);
              BeforeIrreflexive(a);
            } else {
              BeforeTransitive(a, t2, a);
              BeforeIrreflexive(a);
            }
          }
        }
      }
    }
  }

  /** The day before an anniversary and the anniversary itself. */
  lemma DayBeforeAnniversaryExample()
    ensures GetCurrentAge(Date(2000, 10, 12), Date(2026, 10, 11)) == 25
    ensures GetCurrentAge(Date(2000, 10, 12), Date(2026, 10, 12)) == 26
  {
    assert Before(Date(2026, 10, 11), Date(2026, 10, 12));
  }

  /** Born on a leap day: a year later the birthday is celebrated on the
      28th of February. */
  lemma LeapDayBirthExample()
    ensures GetCurrentAge(Date(2000, 2, 29), Date(2001, 2, 27)) == 0
    ensures GetCurrentAge(Date(2000, 2, 29), Date(2001, 2, 28)) == 1
  {
    LeapDayClamps(Date(2000, 2, 29), 1);
  }
}

=== FILE: entities.dfy ===
/** The persisted entities Author, Course and User, their freshly
    constructed values, and the column constraints the entity
    configurations declare for the store. */
module Entities {
  import opened Wrappers
  import opened Text
  import opened Guids
  import opened Calendar

  datatype Course = Course(
    id: Guid,
    title: NString,
    description: NString,
    authorId: Guid)   // the required foreign key; it also stands for the Author back-reference

  datatype Author = Author(
    id: Guid,
    firstName: NString,
    lastName: NString,
    dateOfBirth: Date,
    mainCategory: NString,
    courses: seq<Course>)

  datatype User = User(
    id: Guid,
    firstName: NString,
    lastName: NString,
    email: NString,
    password: NString)

  /** default(DateTimeOffset): the first day of year 1. */
  const MinDate: Date := Date(1, 1, 1)

  /** `new Author()` */
  function NewAuthor(): (a: Author)
    ensures a.id == Empty && a.courses == []
    ensures a.firstName == Some("") && a.lastName == Some("") && a.mainCategory == Some("")
  {
    Author(Empty, Some(""), Some(""), MinDate, Some(""), [])
  }

  /** `new Course()` */
  function NewCourse(): (c: Course)
    ensures c.id == Empty && c.authorId == Empty
    ensures c.title == Some("") && c.description == None
  {
    Course(Empty, Some(""), None, Empty)
  }

  /** `new User()` */
  function NewUser(): (u: User)
    ensures u.id == Empty
    ensures u.firstName == Some("") && u.lastName == Some("") && u.email == Some("") && u.password == Some("")
  {
    User(Empty, Some(""), Some(""), Some(""), Some(""))
  }

  // ---------------------------------------------------------------------
  // Column constraints (IsRequired / HasMaxLength)

  const NameMaxLength := 50
  const TitleMaxLength := 50
  const DescriptionMaxLength := 300
  const CredentialMaxLength := 50

  /** A required column of at most `max` UTF-16 code units. */
  predicate RequiredColumn(s: NString, max: nat) {
    s.Some? && Utf16Length(s.value) <= max
  }

  /** An optional column of at most `max` UTF-16 code units. */
  predicate OptionalColumn(s: NString, max: nat) {
    s.None? || Utf16Length(s.value) <= max
  }

  predicate AuthorFitsColumns(a: Author) {
    && RequiredColumn(a.firstName, NameMaxLength)
    && RequiredColumn(a.lastName, NameMaxLength)
    && RequiredColumn(a.mainCategory, NameMaxLength)
  }

  predicate CourseFitsColumns(c: Course) {
    && RequiredColumn(c.title, TitleMaxLength)
    && OptionalColumn(c.description, DescriptionMaxLength)
  }

  predicate UserFitsColumns(u: User) {
    && RequiredColumn(u.firstName, NameMaxLength)
    && RequiredColumn(u.lastName, NameMaxLength)
    && RequiredColumn(u.email, CredentialMaxLength)
    && RequiredColumn(u.password, CredentialMaxLength)
  }

  /** Freshly constructed entities satisfy their columns: the empty
      string is a present value, and a course description may be null. */
  lemma NewEntitiesFitColumns()
    ensures AuthorFitsColumns(NewAuthor())
    ensures CourseFitsColumns(NewCourse())
    ensures UserFitsColumns(NewUser())
  {
  }

  /** The title column holds at most 50 code units, the description 300. */
  lemma CourseColumnBounds(c: Course)
    ensures c.title.Some? && Utf16Length(c.title.value) == 51 ==> !CourseFitsColumns(c)
    ensures c.title == Some("ab") && c.description.Some? && Utf16Length(c.description.value) == 301 ==> !CourseFitsColumns(c)
    ensures c.title == Some("ab") && c.description == None ==> CourseFitsColumns(c)
  {
  }
}

=== FILE: guids.dfy ===
/** System.Guid as a 128-bit number, with its default "D" text form
    (32 lower-case hexadecimal digits grouped 8-4-4-4-12 by hyphens) and
    a parser that reads that form back, the inverse of the formatting. */
module Guids {
  import opened Wrappers

  /** 16^k */
  function Pow16(k: nat): (r: nat)
    ensures r > 0
    ensures k > 0 ==> r >= 16
  {
    if k == 0 then 1 else 16 * Pow16(k - 1)
  }

  /** The 128-bit identifiers; a Guid is identified with the number its
      text spells. */
  type Guid = g: nat | g < 0x1_0000_0000_0000_0000_0000_0000_0000_0000

  /** Guid.Empty, the all-zero identifier. */
  const Empty: Guid := 0

  /** The identifiers Guid.NewGuid hands out: never the empty one. */
  type NewGuid = g: Guid | g != Empty witness 1

  lemma {:induction false} Pow16Sum(a: nat, b: nat)
    ensures Pow16(a + b) == Pow16(a) * Pow16(b)
    decreases a
  {
    if a > 0 {
      Pow16Sum(a - 1, b);
    }
  }

  lemma Pow16Eight()
    ensures Pow16(8) == 0x1_0000_0000
  {
    assert Pow16(4) == 0x1_0000;
    Pow16Sum(4, 4);
  }

  lemma Pow16Sixteen()
    ensures Pow16(16) == 0x1_0000_0000_0000_0000
  {
    Pow16Eight();
    Pow16Sum(8, 8);
  }

  /** The Guid bound, 2^128, is the number of 32-digit hexadecimal strings. */
  lemma Pow16ThirtyTwo()
    ensures Pow16(32) == 0x1_0000_0000_0000_0000_0000_0000_0000_0000
  {
    Pow16Sixteen();
    Pow16Sum(16, 16);
  }

  predicate IsHexDigit(c: char) {
    ('0' <= c <= '9') || ('a' <= c <= 'f') || ('A' <= c <= 'F')
  }

  function HexDigit(d: nat): (c: char)
    requires d < 16
    ensures IsHexDigit(c) && c != '-' && c != ','
  {
    if d < 10 then ('0' as int + d) as char else ('a' as int + d - 10) as char
  }

  function DigitValue(c: char): (d: nat)
    requires IsHexDigit(c)
    ensures d < 16
  {
    if '0' <= c <= '9' then (c as int - '0' as int)
    else if 'a' <= c <= 'f' then (c as int - 'a' as int + 10)
    else (c as int - 'A' as int + 10)
  }

  /** The low k hexadecimal digits of n, most significant first. */
  function Hex(n: nat, k: nat): (s: string)
    ensures |s| == k
    ensures forall i :: 0 <= i < k ==> IsHexDigit(s[i]) && s[i] != '-' && s[i] != ','
  {
    if k == 0 then [] else Hex(n / 16, k - 1) + [HexDigit(n % 16)]
  }

  predicate AllHex(s: string) {
    forall i :: 0 <= i < |s| ==> IsHexDigit(s[i])
  }

  /** The number a string of hexadecimal digits spells. */
  function Unhex(s: string): nat
    requires AllHex(s)
  {
    if |s| == 0 then 0 else 16 * Unhex(s[..|s| - 1]) + DigitValue(s[|s| - 1])
  }

  lemma {:induction false} UnhexBound(s: string)
    requires AllHex(s)
    ensures Unhex(s) < Pow16(|s|)
    decreases |s|
  {
    if |s| > 0 {
      UnhexBound(s[..|s| - 1]);
    }
  }

  lemma {:induction false} UnhexHex(n: nat, k: nat)
    requires n < Pow16(k)
    ensures Unhex(Hex(n, k)) == n
    decreases k
  {
    if k > 0 {
      var h := Hex(n, k);
      assert h[..k - 1] == Hex(n / 16, k - 1);
      UnhexHex(n / 16, k - 1);
    }
  }

  /** Guid.ToString(): the "D" format. */
  function Format(g: Guid): (s: string)
    ensures |s| == 36
    ensures ',' !in s
  {
    var h := Hex(g, 32);
    h[..8] + "-" + h[8..12] + "-" + h[12..16] + "-" + h[16..20] + "-" + h[20..]
  }

  predicate IsDashPosition(i: int) {
    i == 8 || i == 13 || i == 18 || i == 23
  }

  /** The reading of the "D" form, as Guid.ParseExact(s, "D") does it:
      hyphens at the four fixed positions and a hexadecimal digit (either
      case) everywhere else. It is the inverse of Format, not a model of
      route binding, which also takes the other text forms of a Guid. */
  function Parse(s: string): (r: Option<Guid>)
    ensures r.Some? ==> |s| == 36
  {
    if |s| == 36
       && (forall i :: 0 <= i < 36 && IsDashPosition(i) ==> s[i] == '-')
       && (forall i :: 0 <= i < 36 && !IsDashPosition(i) ==> IsHexDigit(s[i]))
    then
      var digits := s[..8] + s[9..13] + s[14..18] + s[19..23] + s[24..];
      assert AllHex(digits) by {
        forall i | 0 <= i < |digits|
          ensures IsHexDigit(digits[i])
        {
          if i < 8 { assert digits[i] == s[i]; }
          else if i < 12 { assert digits[i] == s[i + 1]; }
          else if i < 16 { assert digits[i] == s[i + 2]; }
          else if i < 20 { assert digits[i] == s[i + 3]; }
          else { assert digits[i] == s[i + 4]; }
        }
      }
      UnhexBound(digits);
      Pow16ThirtyTwo();
      Some(Unhex(digits))
    else None
  }

  /** Reading a Guid's text gives the Guid back, so Format is injective. */
  lemma ParseFormat(g: Guid)
    ensures Parse(Format(g)) == Some(g)
  {
    var h := Hex(g, 32);
    var s := Format(g);
    assert s[..8] == h[..8];
    assert s[9..13] == h[8..12];
    assert s[14..18] == h[12..16];
    assert s[19..23] == h[16..20];
    assert s[24..] == h[20..];
    assert h[..8] + h[8..12] + h[12..16] + h[16..20] + h[20..] == h;
    Pow16ThirtyTwo();
    UnhexHex(g, 32);
  }

  lemma FormatInjective(g1: Guid, g2: Guid)
    requires Format(g1) == Format(g2)
    ensures g1 == g2
  {
    ParseFormat(g1);
    ParseFormat(g2);
  }
}

=== FILE: hateoas.dfy ===
/** Hypermedia links: the immutable Link value, the wrappers that attach a
    link list to a resource, and the fixed link sets the controllers
    build. The URI builder (Url.Link, or LinkGenerator.GetUriByAction on
    the current request) is a parameter: a deterministic function of the
    route it is asked for and the route values it is given. Url.Link
    answers null for a route name that no action declares. */
module Hateoas {
  import opened Wrappers
  import opened Text
  import opened Guids
  import opened Models

  /** A link: where, what it means, and which HTTP method to use. The
      fields are init-only, so a value never changes once built. Href is
      declared non-nullable, but the `!` after Url.Link only silences the
      compiler: a route that does not resolve leaves it null. */
  datatype Link = Link(href: NString, rel: string, httpMethod: string)

  /** new Link(): every field is the empty string. */
  function DefaultLink(): (l: Link)
    ensures l.href == Some("") && l.rel == "" && l.httpMethod == ""
  {
    Link(Some(""), "", "")
  }

  /** new Link(href, rel, verb) stores its arguments unchanged. */
  lemma LinkStoresArguments(href: NString, rel: string, verb: string)
    ensures var l := Link(href, rel, verb);
      l.href == href && l.rel == rel && l.httpMethod == verb
    ensures Link(href, rel, verb) != DefaultLink() <==> href != Some("") || rel != "" || verb != ""
  {
  }

  /** A resource with its links. */
  datatype LinkWrapper<T> = LinkWrapper(value: T, links: seq<Link>)

  /** A collection of resources with the links of the collection. */
  datatype LinkCollectionWrapper<T> = LinkCollectionWrapper(value: seq<T>, links: seq<Link>)

  /** One route value of an anonymous `new { ... }` object. */
  datatype RouteValue =
    | IdValue(name: string, id: Guid)
    | TextValue(name: string, text: string)

  /** What the builder is asked for: a named route, or the action that is
      handling the current request (GetUriByAction(HttpContext, ...)).
      The latter names that action and carries the request's own route
      values, which fill the action's template where the explicit values
      leave a gap: the same call yields different URIs in different
      actions and requests. */
  datatype LinkTarget =
    | Route(name: string)
    | CurrentAction(action: string, ambient: seq<RouteValue>)

  type UriBuilder = (LinkTarget, seq<RouteValue>) -> string

  /** The route names the controllers declare with `Name =` on their
      HTTP-method attributes. */
  const DeclaredRoutes: set<string> := {
    "GetAuthor", "AddAuthor", "UpdateAuthor", "DeleteAuthor",
    "GetAuthorCollection",
    "GetCoursesForAuthor", "CreateCourseForAuthor", "UpdateAuthorCourse", "DeleteAuthorCourse",
    "GetCourse", "UpdateCourse",
    "GetRoot"}

  /** Whether the builder can produce a URI for the target: the current
      action always resolves, a named route only when some action
      declares it. */
  predicate Resolves(target: LinkTarget) {
    target.CurrentAction? || target.name in DeclaredRoutes
  }

  /** The href the builder yields: null exactly when the target does not
      resolve. */
  function Href(uri: UriBuilder, target: LinkTarget, values: seq<RouteValue>): (h: NString)
    ensures h.Some? <==> Resolves(target)
    ensures h.Some? ==> h.value == uri(target, values)
  {
    if Resolves(target) then Some(uri(target, values)) else None
  }

  function Rels(links: seq<Link>): (rels: seq<string>)
    ensures |rels| == |links|
    ensures forall i :: 0 <= i < |links| ==> rels[i] == links[i].rel
  {
    seq(|links|, i requires 0 <= i < |links| => links[i].rel)
  }

  function Methods(links: seq<Link>): (methods: seq<string>)
    ensures |methods| == |links|
    ensures forall i :: 0 <= i < |links| ==> methods[i] == links[i].httpMethod
  {
    seq(|links|, i requires 0 <= i < |links| => links[i].httpMethod)
  }

  /** No two links share a rel, so a client can look a link up by rel. */
  predicate RelsDistinct(links: seq<Link>) {
    forall i, j :: 0 <= i < j < |links| ==> links[i].rel != links[j].rel
  }

  /** The link with the given rel, if any. */
  function FindRel(links: seq<Link>, rel: string): (r: Option<Link>)
    ensures r.Some? ==> r.value in links && r.value.rel == rel
    ensures r.None? <==> forall i :: 0 <= i < |links| ==> links[i].rel != rel
  {
    if |links| == 0 then None
    else if links[0].rel == rel then Some(links[0])
    else
      var r := FindRel(links[1..], rel);
      assert forall i :: 1 <= i < |links| ==> links[i] == links[1..][i - 1];
      r
  }

  /** With distinct rels, looking up the rel of any link finds that link. */
  lemma {:induction false} FindRelFinds(links: seq<Link>, i: nat)
    requires RelsDistinct(links) && i < |links|
    ensures FindRel(links, links[i].rel) == Some(links[i])
    decreases i
  {
    if i > 0 {
      assert links[0].rel != links[i].rel;
      assert RelsDistinct(links[1..]) by {
        forall a, b | 0 <= a < b < |links[1..]|
          ensures links[1..][a].rel != links[1..][b].rel
        {
          assert links[1..][a] == links[a + 1] && links[1..][b] == links[b + 1];
        }
      }
      FindRelFinds(links[1..], i - 1);
    }
  }

  // ---------------------------------------------------------------------
  // AuthorController.CreateLinksForAuthor

  /** Four links built on the current action of the current request:
      self, update and delete pass the author id, create passes nothing. */
  function AuthorLinks(uri: UriBuilder, current: LinkTarget, authorId: Guid): (links: seq<Link>)
    requires current.CurrentAction?
    ensures Rels(links) == ["self", "create_author", "update_author", "delete_author"]
    ensures Methods(links) == ["GET", "POST", "PATCH", "DELETE"]
    ensures links[0].href == Some(uri(current, [IdValue("authorId", authorId)]))
    ensures links[1].href == Some(uri(current, []))
  {
    var byId := Href(uri, current, [IdValue("authorId", authorId)]);
    [Link(byId, "self", "GET"),
     Link(Href(uri, current, []), "create_author", "POST"),
     Link(byId, "update_author", "PATCH"),
     Link(byId, "delete_author", "DELETE")]
  }

  /** Self, update and delete are built from the same arguments, so they
      share one href; and the rels are distinct. */
  lemma AuthorLinksShareHref(uri: UriBuilder, current: LinkTarget, authorId: Guid)
    requires current.CurrentAction?
    ensures var links := AuthorLinks(uri, current, authorId);
      && links[0].href == links[2].href == links[3].href
      && RelsDistinct(links)
  {
  }

  // ---------------------------------------------------------------------
  // CreateLinksForCourse (CourseController and AuthorCoursesController)

  /** self/GET on route GetCourse and update_course/PATCH on route
      UpdateCourse, both keyed by the course id. */
  function CourseLinks(uri: UriBuilder, courseId: Guid): (links: seq<Link>)
    ensures Rels(links) == ["self", "update_course"]
    ensures Methods(links) == ["GET", "PATCH"]
    ensures links[0].href == Some(uri(Route("GetCourse"), [IdValue("courseId", courseId)]))
    ensures links[1].href == Some(uri(Route("UpdateCourse"), [IdValue("courseId", courseId)]))
  {
    [Link(Href(uri, Route("GetCourse"), [IdValue("courseId", courseId)]), "self", "GET"),
     Link(Href(uri, Route("UpdateCourse"), [IdValue("courseId", courseId)]), "update_course", "PATCH")]
  }

  // ---------------------------------------------------------------------
  // AuthorCoursesController.CreateLinksForAuthor

  /** Four links keyed by the author id on the controller's named routes.
      The update link says PATCH although UpdateAuthorCourse is declared
      as a PUT route. */
  function AuthorCourseLinks(uri: UriBuilder, authorId: Guid): (links: seq<Link>)
    ensures |links| == 4
    ensures links[0].href == Some(uri(Route("GetCoursesForAuthor"), [IdValue("authorId", authorId)]))
    ensures links[1].href == Some(uri(Route("CreateCourseForAuthor"), [IdValue("authorId", authorId)]))
    ensures links[2].href == Some(uri(Route("UpdateAuthorCourse"), [IdValue("authorId", authorId)]))
    ensures links[3].href == Some(uri(Route("DeleteAuthorCourse"), [IdValue("authorId", authorId)]))
  {
    var values := [IdValue("authorId", authorId)];
    [Link(Href(uri, Route("GetCoursesForAuthor"), values), "self", "GET"),
     Link(Href(uri, Route("CreateCourseForAuthor"), values), "create_author_course", "POST"),
     Link(Href(uri, Route("UpdateAuthorCourse"), values), "update_author_course", "PATCH"),
     Link(Href(uri, Route("DeleteAuthorCourse"), values), "delete_author_course", "DELETE")]
  }

  /** The rels and methods of the author-course links. */
  lemma AuthorCourseLinksRels(uri: UriBuilder, authorId: Guid)
    ensures Rels(AuthorCourseLinks(uri, authorId)) == ["self", "create_author_course", "update_author_course", "delete_author_course"]
    ensures Methods(AuthorCourseLinks(uri, authorId)) == ["GET", "POST", "PATCH", "DELETE"]
  {
  }

  /** CreateCourseWithLinks: each course, in order, wrapped with the links
      of its own id. */
  function CoursesWithLinks(uri: UriBuilder, courses: seq<CourseModel>): (r: seq<LinkWrapper<CourseModel>>)
    ensures |r| == |courses|
    ensures forall i :: 0 <= i < |courses| ==> r[i].value == courses[i]
    ensures forall i :: 0 <= i < |courses| ==> r[i].links == CourseLinks(uri, courses[i].id)
  {
    if |courses| == 0 then []
    else [LinkWrapper(courses[0], CourseLinks(uri, courses[0].id))] + CoursesWithLinks(uri, courses[1..])
  }

  /** Unwrapping the wrapped courses gives the input back. */
  lemma CoursesWithLinksUnwrap(uri: UriBuilder, courses: seq<CourseModel>)
    ensures Values(CoursesWithLinks(uri, courses)) == courses
  {
  }

  function Values<T>(ws: seq<LinkWrapper<T>>): (vs: seq<T>)
    ensures |vs| == |ws|
    ensures forall i :: 0 <= i < |ws| ==> vs[i] == ws[i].value
  {
    seq(|ws|, i requires 0 <= i < |ws| => ws[i].value)
  }

  // ---------------------------------------------------------------------
  // RootController.GetRoot

  /** Three links on named routes, with no route values. No action is
      named AddAuthorCollection (the collection POST has no route name),
      so the create_authors href is null. */
  function RootLinks(uri: UriBuilder): (links: seq<Link>)
    ensures Rels(links) == ["self", "create_author", "create_authors"]
    ensures Methods(links) == ["GET", "POST", "POST"]
    ensures links[0].href == Some(uri(Route("GetRoot"), []))
    ensures links[1].href == Some(uri(Route("AddAuthor"), []))
    ensures links[2].href == None
  {
    [Link(Href(uri, Route("GetRoot"), []), "self", "GET"),
     Link(Href(uri, Route("AddAuthor"), []), "create_author", "POST"),
     Link(Href(uri, Route("AddAuthorCollection"), []), "create_authors", "POST")]
  }

  /** The author links depend on the request they are built in: a builder
      that spells out the current action gives a POST's self link and a
      GET's self link for the same author different hrefs. */
  lemma AuthorLinksDependOnRequest(id: Guid)
    ensures var uri: UriBuilder := (t: LinkTarget, vs: seq<RouteValue>) => if t.CurrentAction? then t.action else "";
      AuthorLinks(uri, CurrentAction("Post", []), id)[0].href
        != AuthorLinks(uri, CurrentAction("Get", [IdValue("authorId", id)]), id)[0].href
  {
  }

  /** Every fixed link set names each rel once. */
  lemma LinkSetsRelsDistinct(uri: UriBuilder, current: LinkTarget, id: Guid)
    requires current.CurrentAction?
    ensures RelsDistinct(AuthorLinks(uri, current, id))
    ensures RelsDistinct(CourseLinks(uri, id))
    ensures RelsDistinct(AuthorCourseLinks(uri, id))
    ensures RelsDistinct(RootLinks(uri))
  {
  }
}

=== FILE: models.dfy ===
/** The data-transfer records exchanged with clients. They carry no
    behaviour; every string field may be null because it comes from a
    request body or a patch document. */
module Models {
  import opened Text
  import opened Guids
  import opened Calendar

  datatype AuthorModel = AuthorModel(id: Guid, name: string, age: int, mainCategory: NString)

  datatype CourseModel = CourseModel(id: Guid, title: NString, description: NString)

  datatype CourseForCreationModel = CourseForCreationModel(title: NString, description: NString)

  datatype AuthorForCreationModel = AuthorForCreationModel(
    firstName: NString,
    lastName: NString,
    dateOfBirth: Date,
    mainCategory: NString,
    courses: seq<CourseForCreationModel>)

  datatype AuthorForUpdateModel = AuthorForUpdateModel(
    firstName: NString,
    lastName: NString,
    mainCategory: NString,
    dateOfBirth: Date)

  datatype AuthenticationModel = AuthenticationModel(email: NString, password: NString)
}

=== FILE: ordering.dfy ===
/** Deterministic enumeration of a keyed table: the rows are listed by a
    sort key (LINQ OrderBy), rows with equal keys by ascending id. Where
    the program leaves the order to the database, the model fixes this
    one. */
module Ordering {
  import opened Text
  import opened Guids

  /** (key, id) pairs ordered by key, ties broken by id. */
  predicate KeyedBefore(k1: NString, id1: Guid, k2: NString, id2: Guid) {
    NLess(k1, k2) || (k1 == k2 && id1 < id2)
  }

  lemma KeyedAsymmetric(k1: NString, id1: Guid, k2: NString, id2: Guid)
    requires KeyedBefore(k1, id1, k2, id2)
    ensures !KeyedBefore(k2, id2, k1, id1)
  {
    if NLess(k1, k2) && NLess(k2, k1) {
      NLessTransitive(k1, k2, k1);
      NLessIrreflexive(k1);
    }
    if NLess(k1, k2) {
      NLessIrreflexive(k1);
    }
  }

  lemma KeyedTotal(k1: NString, id1: Guid, k2: NString, id2: Guid)
    requires id1 != id2
    ensures KeyedBefore(k1, id1, k2, id2) || KeyedBefore(k2, id2, k1, id1)
  {
    if k1 != k2 {
      NLessTotal(k1, k2);
    }
  }

  lemma KeyedTransitive(k1: NString, id1: Guid, k2: NString, id2: Guid, k3: NString, id3: Guid)
    requires KeyedBefore(k1, id1, k2, id2) && KeyedBefore(k2, id2, k3, id3)
    ensures KeyedBefore(k1, id1, k3, id3)
  {
    if NLess(k1, k2) && NLess(k2, k3) {
      NLessTransitive(k1, k2, k3);
    }
  }

  /** `k` comes first among `ids`. */
  predicate IsLeast<T>(m: map<Guid, T>, ids: set<Guid>, key: T -> NString, k: Guid)
    requires ids <= m.Keys
  {
    k in ids && forall j :: j in ids && j != k ==> KeyedBefore(key(m[k]), k, key(m[j]), j)
  }

  lemma {:induction false} LeastExists<T>(m: map<Guid, T>, ids: set<Guid>, key: T -> NString)
    requires ids <= m.Keys && ids != {}
    ensures exists k :: IsLeast(m, ids, key, k)
    decreases |ids|
  {
    var x :| x in ids;
    if ids != {x} {
      var rest := ids - {x};
      LeastExists(m, rest, key);
      var k :| IsLeast(m, rest, key, k);
      KeyedTotal(key(m[k]), k, key(m[x]), x);
      if KeyedBefore(key(m[k]), k, key(m[x]), x) {
        assert IsLeast(m, ids, key, k);
      } else {
        forall j | j in ids && j != x
          ensures KeyedBefore(key(m[x]), x, key(m[j]), j)
        {
          if j != k {
            KeyedTransitive(key(m[x]), x, key(m[k]), k, key(m[j]), j);
          }
        }
        assert IsLeast(m, ids, key, x);
      }
    } else {
      assert IsLeast(m, ids, key, x);
    }
  }

  lemma LeastUnique<T>(m: map<Guid, T>, ids: set<Guid>, key: T -> NString)
    requires ids <= m.Keys
    ensures forall k1, k2 :: IsLeast(m, ids, key, k1) && IsLeast(m, ids, key, k2) ==> k1 == k2
  {
    forall k1, k2 | IsLeast(m, ids, key, k1) && IsLeast(m, ids, key, k2)
      ensures k1 == k2
    {
      if k1 != k2 {
        KeyedAsymmetric(key(m[k1]), k1, key(m[k2]), k2);
      }
    }
  }

  /** The ids of `ids`, strictly increasing in (key, id) order: every id
      exactly once. */
  function OrderIds<T>(m: map<Guid, T>, ids: set<Guid>, key: T -> NString): (r: seq<Guid>)
    requires ids <= m.Keys
    ensures |r| == |ids|
    ensures forall i :: 0 <= i < |r| ==> r[i] in ids
    ensures forall id :: id in ids ==> id in r
    ensures forall i, j :: 0 <= i < j < |r| ==> KeyedBefore(key(m[r[i]]), r[i], key(m[r[j]]), r[j])
    decreases |ids|
  {
    if ids == {} then []
    else
      LeastExists(m, ids, key);
      LeastUnique(m, ids, key);
      var k :| IsLeast(m, ids, key, k);
      var rest := OrderIds(m, ids - {k}, key);
      assert forall j :: 0 <= j < |rest| ==> rest[j] in ids && rest[j] != k;
      [k] + rest
  }

  /** The rows of `m` at the listed keys, in that order. */
  function Rows<T>(m: map<Guid, T>, ks: seq<Guid>): (r: seq<T>)
    requires forall i :: 0 <= i < |ks| ==> ks[i] in m
    ensures |r| == |ks|
    ensures forall i :: 0 <= i < |ks| ==> r[i] == m[ks[i]]
  {
    if |ks| == 0 then [] else [m[ks[0]]] + Rows(m, ks[1..])
  }

  /** Rows listed in strictly increasing (key, id) order are sorted by key. */
  lemma RowsSorted<T>(m: map<Guid, T>, ks: seq<Guid>, key: T -> NString)
    requires forall i :: 0 <= i < |ks| ==> ks[i] in m
    requires forall i, j :: 0 <= i < j < |ks| ==> KeyedBefore(key(m[ks[i]]), ks[i], key(m[ks[j]]), ks[j])
    ensures var r := Rows(m, ks);
      forall i, j :: 0 <= i < j < |r| ==> !NLess(key(r[j]), key(r[i]))
  {
    var r := Rows(m, ks);
    forall i, j | 0 <= i < j < |r|
      ensures !NLess(key(r[j]), key(r[i]))
    {
      assert KeyedBefore(key(m[ks[i]]), ks[i], key(m[ks[j]]), ks[j]);
      if NLess(key(r[j]), key(r[i])) {
        NLessTransitive(key(r[i]), key(r[j]), key(r[i]));
        NLessIrreflexive(key(r[i]));
      }
    }
  }

  /** The rows at `ks` are exactly the rows of the ids `ks` enumerates. */
  lemma RowsCover<T>(m: map<Guid, T>, ks: seq<Guid>, ids: set<Guid>)
    requires forall i :: 0 <= i < |ks| ==> ks[i] in m && ks[i] in ids
    requires forall id :: id in ids ==> id in ks
    ensures var r := Rows(m, ks);
      && (forall id :: id in ids ==> m[id] in r)
      && (forall i :: 0 <= i < |r| ==> exists id :: id in ids && r[i] == m[id])
  {
    var r := Rows(m, ks);
    forall id | id in ids
      ensures m[id] in r
    {
      var i :| 0 <= i < |ks| && ks[i] == id;
      assert r[i] == m[id];
    }
    forall i | 0 <= i < |r|
      ensures exists id :: id in ids && r[i] == m[id]
    {
      assert ks[i] in ids && r[i] == m[ks[i]];
    }
  }

  /** The rows whose ids are in `ids`, in (key, id) order. */
  function ListBy<T>(m: map<Guid, T>, ids: set<Guid>, key: T -> NString): (r: seq<T>)
    requires ids <= m.Keys
    ensures |r| == |ids|
    ensures forall id :: id in ids ==> m[id] in r
    ensures forall i :: 0 <= i < |r| ==> exists id :: id in ids && r[i] == m[id]
    ensures forall i, j :: 0 <= i < j < |r| ==> !NLess(key(r[j]), key(r[i]))
  {
    var ks := OrderIds(m, ids, key);
    RowsSorted(m, ks, key);
    RowsCover(m, ks, ids);
    Rows(m, ks)
  }
}

=== FILE: profiles.dfy ===
/** The AutoMapper profiles as pure functions: the Author -> AuthorModel
    view, the creation-model -> entity copies, the course projections,
    and the update-model copy used by the author patch flow (a plain
    four-field copy in both directions). */
module Profiles {
  import opened Wrappers
  import opened Text
  import opened Guids
  import opened Calendar
  import opened DateTimeOffsetExtensions
  import opened Entities
  import opened Models

  // ---------------------------------------------------------------------
  // AuthorProfile

  /** Author -> AuthorModel: Id and MainCategory copied, Name is
      "{FirstName} {LastName}", Age the completed years as of `today`. */
  function ToAuthorModel(a: Author, today: Date): (m: AuthorModel)
  {
    AuthorModel(a.id, Show(a.firstName) + " " + Show(a.lastName), GetCurrentAge(a.dateOfBirth, today), a.mainCategory)
  }

  /** The view keeps the id and category, and its name is the first name,
      one space, then the last name (a null part written as empty). */
  lemma AuthorModelView(a: Author, today: Date)
    ensures var m := ToAuthorModel(a, today);
            && m.id == a.id && m.mainCategory == a.mainCategory
            && |m.name| == |Show(a.firstName)| + 1 + |Show(a.lastName)|
            && m.name[..|Show(a.firstName)|] == Show(a.firstName)
            && m.name[|Show(a.firstName)|] == ' '
            && m.name[|Show(a.firstName)| + 1..] == Show(a.lastName)
            && (m.age == today.year - a.dateOfBirth.year || m.age == today.year - a.dateOfBirth.year - 1)
  {
  }

  /** CourseForCreationModel -> Course: only Title and Description are
      copied; Id and AuthorId keep their default (empty) value. */
  function FromCourseCreationModel(m: CourseForCreationModel): (c: Course)
    ensures c.id == Empty && c.authorId == Empty
    ensures c.title == m.title && c.description == m.description
  {
    Course(Empty, m.title, m.description, Empty)
  }

  /** AuthorForCreationModel -> Author: names, date of birth, category and
      the mapped courses; the id stays empty until the repository adds it. */
  function FromAuthorCreationModel(m: AuthorForCreationModel): (a: Author)
    ensures a.id == Empty
    ensures a.firstName == m.firstName && a.lastName == m.lastName
    ensures a.dateOfBirth == m.dateOfBirth && a.mainCategory == m.mainCategory
    ensures |a.courses| == |m.courses|
    ensures forall i :: 0 <= i < |m.courses| ==> a.courses[i] == FromCourseCreationModel(m.courses[i])
  {
    Author(Empty, m.firstName, m.lastName, m.dateOfBirth, m.mainCategory,
           seq(|m.courses|, i requires 0 <= i < |m.courses| => FromCourseCreationModel(m.courses[i])))
  }

  /** Author -> AuthorForUpdateModel (assumed four-field copy). */
  function ToUpdateModel(a: Author): AuthorForUpdateModel {
    AuthorForUpdateModel(a.firstName, a.lastName, a.mainCategory, a.dateOfBirth)
  }

  /** Map(update model, existing author): overwrites the four editable
      fields, keeps Id and Courses. */
  function MergeUpdateModel(m: AuthorForUpdateModel, a: Author): (r: Author)
    ensures r.id == a.id && r.courses == a.courses
  {
    a.(firstName := m.firstName, lastName := m.lastName, mainCategory := m.mainCategory, dateOfBirth := m.dateOfBirth)
  }

  /** Projecting and merging back without edits changes nothing. */
  lemma UpdateModelRoundTrip(a: Author)
    ensures MergeUpdateModel(ToUpdateModel(a), a) == a
  {
  }

  /** Merging then projecting yields exactly the edited projection, so no
      edit is lost or altered by the merge. */
  lemma UpdateModelMergeFaithful(m: AuthorForUpdateModel, a: Author)
    ensures ToUpdateModel(MergeUpdateModel(m, a)) == m
  {
  }

  /** The merge depends only on the projection: two authors that agree
      on id and courses merge to the same result. */
  lemma MergeUpdateModelIgnoresOldFields(m: AuthorForUpdateModel, a: Author, b: Author)
    requires a.id == b.id && a.courses == b.courses
    ensures MergeUpdateModel(m, a) == MergeUpdateModel(m, b)
  {
  }

  // ---------------------------------------------------------------------
  // CourseProfile

  /** Course -> CourseModel */
  function ToCourseModel(c: Course): (m: CourseModel)
    ensures m.id == c.id && m.title == c.title && m.description == c.description
  {
    CourseModel(c.id, c.title, c.description)
  }

  /** Course -> CourseForCreationModel */
  function ToCourseCreationModel(c: Course): (m: CourseForCreationModel)
    ensures m.title == c.title && m.description == c.description
  {
    CourseForCreationModel(c.title, c.description)
  }

  /** Map(creation model, existing course): overwrites Title and
      Description, keeps Id and AuthorId. */
  function MergeCourseCreationModel(m: CourseForCreationModel, c: Course): (r: Course)
    ensures r.id == c.id && r.authorId == c.authorId
  {
    c.(title := m.title, description := m.description)
  }

  /** Projecting a course and mapping it back unedited changes nothing. */
  lemma CourseRoundTrip(c: Course)
    ensures MergeCourseCreationModel(ToCourseCreationModel(c), c) == c
  {
  }

  /** Merging then projecting yields exactly the edited projection. */
  lemma CourseMergeFaithful(m: CourseForCreationModel, c: Course)
    ensures ToCourseCreationModel(MergeCourseCreationModel(m, c)) == m
  {
  }

  /** A created course projects back to the model it was made from. */
  lemma CourseCreationRoundTrip(m: CourseForCreationModel)
    ensures ToCourseCreationModel(FromCourseCreationModel(m)) == m
  {
  }
}

=== FILE: root_controller.dfy ===
/** RootController: the API's entry document, a list of links. */
module RootController {
  import opened Wrappers
  import opened Hateoas
  import opened ActionResults

  /** GET api/v1: Ok with the self link and the two creation links. The
      create_authors link names a route no action declares, so a client
      finds it by rel but gets a null href. */
  function GetRoot(uri: UriBuilder): (r: Response<seq<Link>>)
    ensures r.Ok?
    ensures Rels(r.body) == ["self", "create_author", "create_authors"]
    ensures Methods(r.body) == ["GET", "POST", "POST"]
    ensures FindRel(r.body, "create_authors").Some?
    ensures FindRel(r.body, "self").Some? && FindRel(r.body, "self").value.href == Some(uri(Route("GetRoot"), []))
    ensures FindRel(r.body, "create_authors").value.href.None?
  {
    var links := RootLinks(uri);
    LinkSetsRelsDistinct(uri, CurrentAction("GetRoot", []), 1);
    FindRelFinds(links, 0);
    FindRelFinds(links, 2);
    Ok(links)
  }
}

=== FILE: service.dfy ===
/** CourseLibraryService: every mutation is one repository call followed by
    exactly one save on the same repository; a batch add makes all its
    repository calls in input order and then saves once. The context keeps
    the committed store, the change tracker's pending store, the cursor of
    the id supply and the trace of repository calls made so far. */
module Service {
  import opened Wrappers
  import opened Guids
  import opened Entities
  import opened Database
  import AuthorRepository
  import CourseRepository

  datatype RepoName = AuthorRepo | CourseRepo

  /** One repository call, with the argument it was given. */
  datatype Call =
    | AddAuthorCall(author: Option<Author>)
    | DeleteAuthorCall(author: Option<Author>)
    | UpdateAuthorCall(author: Option<Author>)
    | AddCourseCall(authorId: Guid, course: Option<Course>)
    | DeleteCourseCall(course: Option<Course>)
    | UpdateCourseCall(course: Option<Course>)
    | SaveCall(repo: RepoName)

  datatype Ctx = Ctx(committed: Store, pending: Store, drawn: nat, trace: seq<Call>)

  /** A context at the start of a request: nothing pending, nothing called. */
  function Begin(db: Store, drawn: nat): (ctx: Ctx)
    ensures Settled(ctx) && ctx.trace == []
  {
    Ctx(db, db, drawn, [])
  }

  /** No change is waiting for a save. */
  predicate Settled(ctx: Ctx) {
    ctx.pending == ctx.committed
  }

  datatype Outcome<T> = Outcome(result: Result<T>, ctx: Ctx)

  /** SaveAsync: the pending changes become the committed store. */
  function Save(ctx: Ctx, repo: RepoName): (c: Ctx)
    ensures Settled(c) && c.pending == ctx.pending && c.drawn == ctx.drawn
    ensures c.trace == ctx.trace + [SaveCall(repo)]
  {
    ctx.(committed := ctx.pending, trace := ctx.trace + [SaveCall(repo)])
  }

  /** No save among the calls made after the first `from`. */
  predicate NoSaveAfter(trace: seq<Call>, from: nat) {
    forall i :: from <= i < |trace| ==> !trace[i].SaveCall?
  }

  /** A single mutation: record the call; if it throws, stop there with
      nothing committed; otherwise save once on the same repository. */
  function Mutate(ctx: Ctx, call: Call, repo: RepoName, r: Result<Store>): (o: Outcome<()>)
    requires !call.SaveCall?
    ensures o.result.Success? <==> r.Success?
    ensures o.ctx.trace == ctx.trace + [call] + (if r.Success? then [SaveCall(repo)] else [])
    ensures r.Failure? ==> o == Outcome(Failure(r.error), ctx.(trace := ctx.trace + [call]))
    ensures r.Success? ==> o.ctx.committed == r.value && Settled(o.ctx) && o.ctx.drawn == ctx.drawn
  {
    var called := ctx.(trace := ctx.trace + [call]);
    if r.Failure? then Outcome(Failure(r.error), called)
    else Outcome(Success(()), Save(called.(pending := r.value), repo))
  }

  // ---------------------------------------------------------------------
  // Single mutations

  /** AddAuthor: the repository add, then one save. The result is the
      author as the add rewrote it. */
  function AddAuthor(ctx: Ctx, author: Option<Author>, supply: FreshIds): (o: Outcome<Author>)
    ensures o.result.Failure? ==> o.ctx == ctx.(trace := ctx.trace + [AddAuthorCall(author)])
    ensures o.result.Success? ==>
      && o.ctx.trace == ctx.trace + [AddAuthorCall(author), SaveCall(AuthorRepo)]
      && Settled(o.ctx)
      && AuthorRepository.AddAuthor(ctx.pending, author, supply, ctx.drawn).Success?
      && o.result.value == AuthorRepository.AddAuthor(ctx.pending, author, supply, ctx.drawn).value.author
      && o.ctx.committed == AuthorRepository.AddAuthor(ctx.pending, author, supply, ctx.drawn).value.store
  {
    var call := AddAuthorCall(author);
    match AuthorRepository.AddAuthor(ctx.pending, author, supply, ctx.drawn)
    case Failure(e) => Outcome(Failure(e), ctx.(trace := ctx.trace + [call]))
    case Success(added) =>
      Outcome(Success(added.author),
              Save(ctx.(pending := added.store, drawn := added.drawn, trace := ctx.trace + [call]), AuthorRepo))
  }

  /** AddCourse: the repository add with the caller's author id passed
      through unchanged, then one save. */
  function AddCourse(ctx: Ctx, authorId: Guid, course: Option<Course>, supply: FreshIds): (o: Outcome<Course>)
    ensures o.result.Failure? ==> o.ctx == ctx.(trace := ctx.trace + [AddCourseCall(authorId, course)])
    ensures o.result.Success? ==>
      && o.ctx.trace == ctx.trace + [AddCourseCall(authorId, course), SaveCall(CourseRepo)]
      && Settled(o.ctx)
      && o.result.value.authorId == authorId
      && CourseRepository.AddCourse(ctx.pending, authorId, course, supply, ctx.drawn).Success?
      && o.ctx.committed == CourseRepository.AddCourse(ctx.pending, authorId, course, supply, ctx.drawn).value.store
  {
    var call := AddCourseCall(authorId, course);
    match CourseRepository.AddCourse(ctx.pending, authorId, course, supply, ctx.drawn)
    case Failure(e) => Outcome(Failure(e), ctx.(trace := ctx.trace + [call]))
    case Success(added) =>
      Outcome(Success(added.course),
              Save(ctx.(pending := added.store, drawn := added.drawn, trace := ctx.trace + [call]), CourseRepo))
  }

  function DeleteAuthor(ctx: Ctx, author: Option<Author>): (o: Outcome<()>)
    ensures o.ctx.trace == ctx.trace + [DeleteAuthorCall(author)] + (if o.result.Success? then [SaveCall(AuthorRepo)] else [])
    ensures o.result.Success? <==> AuthorRepository.DeleteAuthor(ctx.pending, author).Success?
    ensures o.result.Success? ==> o.ctx.committed == AuthorRepository.DeleteAuthor(ctx.pending, author).value && Settled(o.ctx)
    ensures o.result.Failure? ==> o.ctx.committed == ctx.committed && o.ctx.pending == ctx.pending
  {
    Mutate(ctx, DeleteAuthorCall(author), AuthorRepo, AuthorRepository.DeleteAuthor(ctx.pending, author))
  }

  function UpdateAuthor(ctx: Ctx, author: Option<Author>): (o: Outcome<()>)
    ensures o.ctx.trace == ctx.trace + [UpdateAuthorCall(author)] + (if o.result.Success? then [SaveCall(AuthorRepo)] else [])
    ensures o.result.Success? <==> AuthorRepository.UpdateAuthor(ctx.pending, author).Success?
    ensures o.result.Success? ==> o.ctx.committed == AuthorRepository.UpdateAuthor(ctx.pending, author).value && Settled(o.ctx)
    ensures o.result.Failure? ==> o.ctx.committed == ctx.committed && o.ctx.pending == ctx.pending
  {
    Mutate(ctx, UpdateAuthorCall(author), AuthorRepo, AuthorRepository.UpdateAuthor(ctx.pending, author))
  }

  function DeleteCourse(ctx: Ctx, course: Option<Course>): (o: Outcome<()>)
    ensures o.ctx.trace == ctx.trace + [DeleteCourseCall(course)] + (if o.result.Success? then [SaveCall(CourseRepo)] else [])
    ensures o.result.Success? <==> CourseRepository.DeleteCourse(ctx.pending, course).Success?
    ensures o.result.Success? ==> o.ctx.committed == CourseRepository.DeleteCourse(ctx.pending, course).value && Settled(o.ctx)
    ensures o.result.Failure? ==> o.ctx.committed == ctx.committed && o.ctx.pending == ctx.pending
  {
    Mutate(ctx, DeleteCourseCall(course), CourseRepo, CourseRepository.DeleteCourse(ctx.pending, course))
  }

  /** UpdateCourse with the repository update the callers expect. */
  function UpdateCourse(ctx: Ctx, course: Option<Course>): (o: Outcome<()>)
    ensures o.ctx.trace == ctx.trace + [UpdateCourseCall(course)] + (if o.result.Success? then [SaveCall(CourseRepo)] else [])
    ensures o.result.Success? <==> CourseRepository.UpdateCourse(ctx.pending, course).Success?
    ensures o.result.Success? ==> o.ctx.committed == CourseRepository.UpdateCourse(ctx.pending, course).value && Settled(o.ctx)
    ensures o.result.Failure? ==> o.ctx.committed == ctx.committed && o.ctx.pending == ctx.pending
  {
    Mutate(ctx, UpdateCourseCall(course), CourseRepo, CourseRepository.UpdateCourse(ctx.pending, course))
  }

  /** UpdateCourse as the program runs it: the repository call does
      nothing, and the save that follows commits nothing new. */
  function UpdateCourseAsWritten(ctx: Ctx, course: Option<Course>): (o: Outcome<()>)
    ensures o.result.Success?
    ensures o.ctx.trace == ctx.trace + [UpdateCourseCall(course), SaveCall(CourseRepo)]
  {
    Mutate(ctx, UpdateCourseCall(course), CourseRepo, Success(CourseRepository.UpdateCourseAsWritten(ctx.pending, course)))
  }

  /** Counterexample: a course whose title is edited and passed to the
      program's UpdateCourse still reads back with its old title; the
      corrected update reads back the new one. */
  lemma UpdateCourseAsWrittenLosesEdit()
    ensures var author := Author(1, Some("Ada"), Some("Lovelace"), Calendar.Date(1990, 1, 1), Some("Maths"), []);
      var before := Course(2, Some("Old title"), None, 1);
      var edited := before.(title := Some("New title"));
      var db := Store(map[1 := author], map[2 := before], []);
      && Valid(db)
      && CourseRepository.GetCourse(UpdateCourseAsWritten(Begin(db, 0), Some(edited)).ctx.committed, 2) == Success(Some(before))
      && CourseRepository.GetCourse(UpdateCourse(Begin(db, 0), Some(edited)).ctx.committed, 2) == Success(Some(edited))
  {
  }

  // ---------------------------------------------------------------------
  // Batch add

  /** The repository calls AddAuthors makes for `authors`, in order. */
  function AddCalls(authors: seq<Author>): (calls: seq<Call>)
    ensures |calls| == |authors|
  {
    if |authors| == 0 then [] else [AddAuthorCall(Some(authors[0]))] + AddCalls(authors[1..])
  }

  /** The `i`-th call adds the `i`-th author. */
  lemma {:induction false} AddCallsAt(authors: seq<Author>, i: nat)
    requires i < |authors|
    ensures AddCalls(authors)[i] == AddAuthorCall(Some(authors[i]))
    decreases i
  {
    if i > 0 {
      AddCallsAt(authors[1..], i - 1);
    }
  }

  /** The trace of a batch that stopped at its `k`-th add. */
  predicate StoppedAt(trace: seq<Call>, before: seq<Call>, authors: seq<Author>, k: nat)
    requires k < |authors|
  {
    trace == before + AddCalls(authors[..k + 1])
  }

  /** Stopping at the `k`-th of the later adds is stopping at the
      `k + 1`-th of the whole batch. */
  lemma StoppedAtCons(trace: seq<Call>, before: seq<Call>, authors: seq<Author>, k: nat)
    requires 0 < |authors| && k < |authors| - 1
    requires StoppedAt(trace, before + [AddAuthorCall(Some(authors[0]))], authors[1..], k)
    ensures StoppedAt(trace, before, authors, k + 1)
  {
    var call := AddAuthorCall(Some(authors[0]));
    var p := authors[..k + 2];
    var tail := AddCalls(authors[1..][..k + 1]);
    assert trace == (before + [call]) + tail;
    assert p[0] == authors[0];
    assert p[1..] == authors[1..][..k + 1];
    assert AddCalls(p) == [call] + tail;
    assert before + AddCalls(p) == (before + [call]) + tail;
  }

  /** The batch's adds, in input order, stopping at the first that throws. */
  function AddEach(ctx: Ctx, authors: seq<Author>, supply: FreshIds): (o: Outcome<seq<Author>>)
    ensures o.ctx.committed == ctx.committed
    ensures o.result.Success? ==> |o.result.value| == |authors|
    decreases |authors|
  {
    if |authors| == 0 then Outcome(Success([]), ctx)
    else
      var call := AddAuthorCall(Some(authors[0]));
      var r := AuthorRepository.AddAuthor(ctx.pending, Some(authors[0]), supply, ctx.drawn);
      if r.Failure? then Outcome(Failure(r.error), ctx.(trace := ctx.trace + [call]))
      else
        var next := ctx.(pending := r.value.store, drawn := r.value.drawn, trace := ctx.trace + [call]);
        var rest := AddEach(next, authors[1..], supply);
        if rest.result.Failure? then rest
        else Outcome(Success([r.value.author] + rest.result.value), rest.ctx)
  }

  /** A run of add calls holds no save. */
  lemma AddCallsNoSave(before: seq<Call>, authors: seq<Author>)
    ensures NoSaveAfter(before + AddCalls(authors), |before|)
  {
    var t := before + AddCalls(authors);
    forall i | |before| <= i < |t|
      ensures !t[i].SaveCall?
    {
      assert t[i] == AddCalls(authors)[i - |before|];
      AddCallsAt(authors, i - |before|);
    }
  }

  /** A batch that succeeds made one add call per author, in input order. */
  lemma {:induction false} AddEachSuccessTrace(ctx: Ctx, authors: seq<Author>, supply: FreshIds)
    requires AddEach(ctx, authors, supply).result.Success?
    ensures AddEach(ctx, authors, supply).ctx.trace == ctx.trace + AddCalls(authors)
    decreases |authors|
  {
    if |authors| > 0 {
      var call := AddAuthorCall(Some(authors[0]));
      var r := AuthorRepository.AddAuthor(ctx.pending, Some(authors[0]), supply, ctx.drawn);
      var next := ctx.(pending := r.value.store, drawn := r.value.drawn, trace := ctx.trace + [call]);
      AddEachSuccessTrace(next, authors[1..], supply);
      assert AddEach(ctx, authors, supply).ctx.trace == AddEach(next, authors[1..], supply).ctx.trace;
    }
  }

  /** A batch that fails made the add calls up to and including the one
      that threw. */
  lemma {:induction false} AddEachFailureTrace(ctx: Ctx, authors: seq<Author>, supply: FreshIds)
    requires AddEach(ctx, authors, supply).result.Failure?
    ensures exists k :: 0 <= k < |authors| && StoppedAt(AddEach(ctx, authors, supply).ctx.trace, ctx.trace, authors, k)
    decreases |authors|
  {
    var call := AddAuthorCall(Some(authors[0]));
    var r := AuthorRepository.AddAuthor(ctx.pending, Some(authors[0]), supply, ctx.drawn);
    var trace := AddEach(ctx, authors, supply).ctx.trace;
    if r.Failure? {
      assert trace == ctx.trace + [call];
      assert AddCalls(authors[..1]) == [call];
      assert StoppedAt(trace, ctx.trace, authors, 0);
    } else {
      var next := ctx.(pending := r.value.store, drawn := r.value.drawn, trace := ctx.trace + [call]);
      AddEachFailureTrace(next, authors[1..], supply);
      assert trace == AddEach(next, authors[1..], supply).ctx.trace;
      var k :| 0 <= k < |authors[1..]| && StoppedAt(trace, next.trace, authors[1..], k);
      StoppedAtCons(trace, ctx.trace, authors, k);
    }
  }

  /** Each author the batch returns keeps the names, date of birth,
      category and number of courses it was given. */
  lemma {:induction false} AddEachKeepsFields(ctx: Ctx, authors: seq<Author>, supply: FreshIds)
    ensures var o := AddEach(ctx, authors, supply);
      o.result.Success? ==>
        forall i :: 0 <= i < |authors| ==>
          && o.result.value[i].firstName == authors[i].firstName
          && o.result.value[i].lastName == authors[i].lastName
          && o.result.value[i].dateOfBirth == authors[i].dateOfBirth
          && o.result.value[i].mainCategory == authors[i].mainCategory
          && |o.result.value[i].courses| == |authors[i].courses|
    decreases |authors|
  {
    var o := AddEach(ctx, authors, supply);
    if |authors| > 0 && o.result.Success? {
      var r := AuthorRepository.AddAuthor(ctx.pending, Some(authors[0]), supply, ctx.drawn);
      var next := ctx.(pending := r.value.store, drawn := r.value.drawn, trace := ctx.trace + [AddAuthorCall(Some(authors[0]))]);
      AddEachKeepsFields(next, authors[1..], supply);
      var rest := AddEach(next, authors[1..], supply);
      assert o.result.value == [r.value.author] + rest.result.value;
      forall i | 0 <= i < |authors|
        ensures && o.result.value[i].firstName == authors[i].firstName
                && o.result.value[i].lastName == authors[i].lastName
                && o.result.value[i].dateOfBirth == authors[i].dateOfBirth
                && o.result.value[i].mainCategory == authors[i].mainCategory
                && |o.result.value[i].courses| == |authors[i].courses|
      {
        if i > 0 {
          assert o.result.value[i] == rest.result.value[i - 1];
          assert authors[i] == authors[1..][i - 1];
        }
      }
    }
  }

  /** AddAuthors: every add in input order, then exactly one save; if an
      add throws, no save happens and nothing is committed. An empty batch
      makes no add and one save. */
  function AddAuthors(ctx: Ctx, authors: seq<Author>, supply: FreshIds): (o: Outcome<seq<Author>>)
    ensures o.result.Success? ==>
      && o.ctx.trace == ctx.trace + AddCalls(authors) + [SaveCall(AuthorRepo)]
      && Settled(o.ctx)
      && |o.result.value| == |authors|
    ensures o.result.Failure? ==>
      && o.ctx.committed == ctx.committed
      && NoSaveAfter(o.ctx.trace, |ctx.trace|)
      && exists k :: 0 <= k < |authors| && StoppedAt(o.ctx.trace, ctx.trace, authors, k)
  {
    var o := AddEach(ctx, authors, supply);
    if o.result.Failure? then
      AddEachFailureTrace(ctx, authors, supply);
      AddEachFailureNoSave(ctx, authors, supply);
      o
    else AddEachSuccessTrace(ctx, authors, supply); Outcome(o.result, Save(o.ctx, AuthorRepo))
  }

  /** A batch that stops at a failing add has saved nothing since it
      began. */
  lemma AddEachFailureNoSave(ctx: Ctx, authors: seq<Author>, supply: FreshIds)
    requires AddEach(ctx, authors, supply).result.Failure?
    ensures NoSaveAfter(AddEach(ctx, authors, supply).ctx.trace, |ctx.trace|)
  {
    var o := AddEach(ctx, authors, supply);
    AddEachFailureTrace(ctx, authors, supply);
    var k :| 0 <= k < |authors| && StoppedAt(o.ctx.trace, ctx.trace, authors, k);
    AddCallsNoSave(ctx.trace, authors[..k + 1]);
  }

  /** An empty batch still saves once. */
  lemma EmptyBatchSavesOnce(ctx: Ctx, supply: FreshIds)
    ensures AddAuthors(ctx, [], supply).ctx.trace == ctx.trace + [SaveCall(AuthorRepo)]
  {
  }

  /** One add on a valid store with a fresh supply: only the facts the
      batch needs. */
  lemma AddOneFresh(s: Store, a: Author, supply: FreshIds, drawn: nat)
    requires Valid(s) && FreshFrom(s, supply, drawn)
    ensures var r := AuthorRepository.AddAuthor(s, Some(a), supply, drawn);
      && r.Success?
      && Valid(r.value.store)
      && FreshFrom(r.value.store, supply, r.value.drawn)
      && (forall id :: id in s.authors ==> id in r.value.store.authors && r.value.store.authors[id] == s.authors[id])
      && r.value.author.id in r.value.store.authors && r.value.author.id !in s.authors
  {
    AuthorRepository.AddAuthorFresh(s, a, supply, drawn);
  }

  /** With a valid store and a fresh id supply every add of the batch
      succeeds, the store stays valid and the supply stays fresh. */
  lemma {:induction false} AddEachFresh(ctx: Ctx, authors: seq<Author>, supply: FreshIds)
    requires Valid(ctx.pending) && FreshFrom(ctx.pending, supply, ctx.drawn)
    ensures var o := AddEach(ctx, authors, supply);
      && o.result.Success?
      && Valid(o.ctx.pending)
      && FreshFrom(o.ctx.pending, supply, o.ctx.drawn)
    decreases |authors|
  {
    if |authors| > 0 {
      var call := AddAuthorCall(Some(authors[0]));
      AddOneFresh(ctx.pending, authors[0], supply, ctx.drawn);
      var added := AuthorRepository.AddAuthor(ctx.pending, Some(authors[0]), supply, ctx.drawn).value;
      var next := ctx.(pending := added.store, drawn := added.drawn, trace := ctx.trace + [call]);
      AddEachFresh(next, authors[1..], supply);
    }
  }

  /** The state after the first add of a batch. */
  function AfterFirst(ctx: Ctx, authors: seq<Author>, supply: FreshIds): (next: Ctx)
    requires |authors| > 0
    requires AuthorRepository.AddAuthor(ctx.pending, Some(authors[0]), supply, ctx.drawn).Success?
    ensures next.trace == ctx.trace + [AddAuthorCall(Some(authors[0]))]
  {
    var added := AuthorRepository.AddAuthor(ctx.pending, Some(authors[0]), supply, ctx.drawn).value;
    ctx.(pending := added.store, drawn := added.drawn, trace := ctx.trace + [AddAuthorCall(Some(authors[0]))])
  }

  /** A batch whose first add succeeds is that author followed by the rest
      of the batch run from the state after it. */
  lemma AddEachUnfold(ctx: Ctx, authors: seq<Author>, supply: FreshIds)
    requires |authors| > 0
    requires AuthorRepository.AddAuthor(ctx.pending, Some(authors[0]), supply, ctx.drawn).Success?
    requires AddEach(AfterFirst(ctx, authors, supply), authors[1..], supply).result.Success?
    ensures var rest := AddEach(AfterFirst(ctx, authors, supply), authors[1..], supply);
      var first := AuthorRepository.AddAuthor(ctx.pending, Some(authors[0]), supply, ctx.drawn).value.author;
      && AddEach(ctx, authors, supply) == Outcome(Success([first] + rest.result.value), rest.ctx)
      && forall i :: 1 <= i < |authors| ==> AddEach(ctx, authors, supply).result.value[i] == rest.result.value[i - 1]
  {
    var o := AddEach(ctx, authors, supply);
    var rest := AddEach(AfterFirst(ctx, authors, supply), authors[1..], supply);
    var first := AuthorRepository.AddAuthor(ctx.pending, Some(authors[0]), supply, ctx.drawn).value.author;
    assert o == Outcome(Success([first] + rest.result.value), rest.ctx);
    var vs := [first] + rest.result.value;
    assert forall i :: 1 <= i < |vs| ==> vs[i] == rest.result.value[i - 1];
  }

  /** Rows already stored are untouched by a batch, and each new author is
      stored under an id that was not taken before. */
  lemma {:induction false} AddEachKeepsRows(ctx: Ctx, authors: seq<Author>, supply: FreshIds)
    requires Valid(ctx.pending) && FreshFrom(ctx.pending, supply, ctx.drawn)
    ensures var o := AddEach(ctx, authors, supply);
      && o.result.Success?
      && (forall id :: id in ctx.pending.authors ==> id in o.ctx.pending.authors && o.ctx.pending.authors[id] == ctx.pending.authors[id])
      && (forall i :: 0 <= i < |authors| ==>
            o.result.value[i].id in o.ctx.pending.authors && o.result.value[i].id !in ctx.pending.authors)
    decreases |authors|
  {
    AddEachFresh(ctx, authors, supply);
    if |authors| > 0 {
      AddOneFresh(ctx.pending, authors[0], supply, ctx.drawn);
      var next := AfterFirst(ctx, authors, supply);
      AddEachFresh(next, authors[1..], supply);
      AddEachKeepsRows(next, authors[1..], supply);
      AddEachUnfold(ctx, authors, supply);
    }
  }

  /** The authors of one batch get pairwise distinct ids. */
  lemma {:induction false} AddEachDistinct(ctx: Ctx, authors: seq<Author>, supply: FreshIds)
    requires Valid(ctx.pending) && FreshFrom(ctx.pending, supply, ctx.drawn)
    ensures var o := AddEach(ctx, authors, supply);
      && o.result.Success?
      && forall i, j :: 0 <= i < j < |authors| ==> o.result.value[i].id != o.result.value[j].id
    decreases |authors|
  {
    AddEachFresh(ctx, authors, supply);
    if |authors| > 0 {
      AddOneFresh(ctx.pending, authors[0], supply, ctx.drawn);
      var next := AfterFirst(ctx, authors, supply);
      AddEachFresh(next, authors[1..], supply);
      AddEachKeepsRows(next, authors[1..], supply);
      AddEachDistinct(next, authors[1..], supply);
      AddEachUnfold(ctx, authors, supply);
    }
  }

  /** A batch on a valid, settled store with a fresh supply succeeds and
      commits a valid store holding every new author. */
  lemma AddAuthorsFresh(ctx: Ctx, authors: seq<Author>, supply: FreshIds)
    requires Valid(ctx.pending) && FreshFrom(ctx.pending, supply, ctx.drawn)
    ensures var o := AddAuthors(ctx, authors, supply);
      && o.result.Success?
      && Valid(o.ctx.committed)
      && FreshFrom(o.ctx.committed, supply, o.ctx.drawn)
      && (forall i :: 0 <= i < |authors| ==> o.result.value[i].id in o.ctx.committed.authors)
      && (forall i, j :: 0 <= i < j < |authors| ==> o.result.value[i].id != o.result.value[j].id)
  {
    AddEachFresh(ctx, authors, supply);
    AddEachKeepsRows(ctx, authors, supply);
    AddEachDistinct(ctx, authors, supply);
  }

  // ---------------------------------------------------------------------
  // Reads: forwarded to the repositories on the committed store; they
  // return no context, so they cannot change one.

  function GetAuthor(ctx: Ctx, authorId: Guid): Result<Option<Author>> {
    AuthorRepository.GetAuthor(ctx.committed, authorId)
  }

  function AuthorExists(ctx: Ctx, authorId: Guid): Result<bool> {
    AuthorRepository.AuthorExists(ctx.committed, authorId)
  }

  function GetAuthorsByIds(ctx: Ctx, authorIds: Option<seq<Guid>>): Result<seq<Author>> {
    AuthorRepository.GetAuthorsByIds(ctx.committed, authorIds)
  }

  function GetCourse(ctx: Ctx, courseId: Guid): Result<Option<Course>> {
    CourseRepository.GetCourse(ctx.committed, courseId)
  }

  function GetCoursesForAuthor(ctx: Ctx, authorId: Guid): Result<seq<Course>> {
    CourseRepository.GetCoursesForAuthor(ctx.committed, authorId)
  }

  /** The two-argument GetCourseAsync(authorId, courseId) that the
      controllers call is declared by neither the service interface nor
      the repository interface, and the service's own definition forwards
      to a repository overload that does not exist. With no body to model
      it is a parameter, known only to return a course with the id asked
      for when it returns one. */
  type CourseOfAuthorLookup = (Store, Guid, Guid) -> Option<Course>

  ghost predicate LookupSound(lookup: CourseOfAuthorLookup) {
    forall s, authorId, courseId :: lookup(s, authorId, courseId).Some? ==> lookup(s, authorId, courseId).value.id == courseId
  }

  function GetCourseOfAuthor(ctx: Ctx, lookup: CourseOfAuthorLookup, authorId: Guid, courseId: Guid): Option<Course> {
    lookup(ctx.committed, authorId, courseId)
  }
}

=== FILE: store.dfy ===
/** The database behind the repositories: the Authors, Courses and Users
    tables as finite maps keyed by id (users as a list, since the
    credential lookup takes the first match), the integrity constraints
    the entity configurations declare, and the supply of fresh ids that
    stands for Guid.NewGuid. */
module Database {
  import opened Wrappers
  import opened Text
  import opened Guids
  import opened Entities
  import opened Ordering

  datatype Store = Store(
    authors: map<Guid, Author>,   // author rows; their course list lives in `courses`
    courses: map<Guid, Course>,
    users: seq<User>)

  /** The store's integrity: each row sits under its own primary key, no
      key is the empty id, author rows carry no inline course list, and
      every course's required foreign key names a stored author. */
  predicate Valid(s: Store) {
    && Empty !in s.authors && Empty !in s.courses
    && (forall id :: id in s.authors ==> s.authors[id].id == id && s.authors[id].courses == [])
    && (forall id :: id in s.courses ==> s.courses[id].id == id && s.courses[id].authorId in s.authors)
  }

  /** A source of new ids: `supply(i)` is the i-th value Guid.NewGuid
      returns, and `drawn` counts those already used. */
  type FreshIds = nat -> NewGuid

  /** From `drawn` on, the supply never repeats itself and never hits a
      key already in the store. */
  ghost predicate FreshFrom(s: Store, supply: FreshIds, drawn: nat) {
    && (forall i, j :: drawn <= i < j ==> supply(i) != supply(j))
    && (forall i :: drawn <= i ==> supply(i) !in s.authors && supply(i) !in s.courses)
  }

  /** Drawing more ids keeps the rest of the supply fresh. */
  lemma FreshFromLater(s: Store, supply: FreshIds, drawn: nat, later: nat)
    requires FreshFrom(s, supply, drawn) && drawn <= later
    ensures FreshFrom(s, supply, later)
  {
  }

  /** The sort key of a listing with no OrderBy: every row ties, so the
      rows come out by id. */
  function NoKey<T>(row: T): NString {
    None
  }

  /** The ids of the courses whose foreign key is `authorId`. */
  function CourseIdsOf(s: Store, authorId: Guid): (ids: set<Guid>)
    ensures ids <= s.courses.Keys
    ensures forall id :: id in s.courses ==> (id in ids <==> s.courses[id].authorId == authorId)
  {
    set id | id in s.courses && s.courses[id].authorId == authorId
  }

  /** Include(a => a.Courses): the author row with its courses attached,
      in id order. */
  function Materialize(s: Store, id: Guid): (a: Author)
    requires id in s.authors
    ensures a == s.authors[id].(courses := a.courses)
    ensures |a.courses| == |CourseIdsOf(s, id)|
    ensures forall cid :: cid in CourseIdsOf(s, id) ==> s.courses[cid] in a.courses
    ensures forall i :: 0 <= i < |a.courses| ==> exists cid :: cid in CourseIdsOf(s, id) && a.courses[i] == s.courses[cid]
  {
    s.authors[id].(courses := ListBy(s.courses, CourseIdsOf(s, id), NoKey))
  }

  /** In a valid store an author's materialized courses are exactly the
      stored courses that name it. */
  lemma MaterializedCourses(s: Store, id: Guid)
    requires Valid(s) && id in s.authors
    ensures var a := Materialize(s, id);
      && a.id == id
      && (forall i :: 0 <= i < |a.courses| ==> a.courses[i].authorId == id && a.courses[i].id in s.courses && s.courses[a.courses[i].id] == a.courses[i])
      && (forall c :: c in s.courses.Values && c.authorId == id ==> c in a.courses)
  {
    var a := Materialize(s, id);
    forall i | 0 <= i < |a.courses|
      ensures a.courses[i].authorId == id && a.courses[i].id in s.courses && s.courses[a.courses[i].id] == a.courses[i]
    {
      var cid :| cid in CourseIdsOf(s, id) && a.courses[i] == s.courses[cid];
    }
    forall c | c in s.courses.Values && c.authorId == id
      ensures c in a.courses
    {
      var cid :| cid in s.courses && s.courses[cid] == c;
      assert cid in CourseIdsOf(s, id);
    }
  }
}

=== FILE: text.dfy ===
/** Strings as the C# code sees them: a reference that may be null, its
    length in UTF-16 code units, the .NET notion of white space, an
    ordering, and String.Join / String.Split over a single separator
    character. A Dafny `char` is a Unicode scalar value; a .NET string
    stores a character above U+FFFF as two code units. */
module Text {
  import opened Wrappers

  /** A C# `string` reference: null or a sequence of characters. */
  type NString = Option<string>

  /** How many UTF-16 code units encode one character: two (a surrogate
      pair) above U+FFFF, otherwise one. */
  function CodeUnits(c: char): nat {
    if c >= '\U{10000}' then 2 else 1
  }

  /** string.Length: the number of UTF-16 code units, which is what every
      length check and column width of the program counts. */
  function Utf16Length(s: string): (n: nat)
    ensures |s| <= n <= 2 * |s|
    ensures n == |s| <==> forall i :: 0 <= i < |s| ==> s[i] < '\U{10000}'
    decreases |s|
  {
    if |s| == 0 then 0
    else
      var n := CodeUnits(s[0]) + Utf16Length(s[1..]);
      assert forall i :: 1 <= i < |s| ==> s[i] == s[1..][i - 1];
      n
  }

  /** The length of a concatenation is the sum of the lengths. */
  lemma {:induction false} Utf16LengthAppend(a: string, b: string)
    ensures Utf16Length(a + b) == Utf16Length(a) + Utf16Length(b)
    decreases |a|
  {
    if |a| == 0 {
      assert a + b == b;
    } else {
      assert (a + b)[1..] == a[1..] + b;
      Utf16LengthAppend(a[1..], b);
    }
  }

  /** A character outside the Basic Multilingual Plane counts twice: "a"
      followed by U+1F600 has length 3 although it holds two characters. */
  lemma AstralCharacterCountsTwice()
    ensures |"a\U{1F600}"| == 2 && Utf16Length("a\U{1F600}") == 3
  {
  }

  /** char.IsWhiteSpace: the Unicode separator categories plus the
      control characters U+0009..U+000D and U+0085. */
  predicate IsWhiteSpace(c: char) {
    || ('\t' <= c <= '\r')                      // U+0009..U+000D
    || c == ' ' || c == '\U{85}' || c == '\U{A0}' || c == '\U{1680}'
    || ('\U{2000}' <= c <= '\U{200A}')
    || c == '\U{2028}' || c == '\U{2029}' || c == '\U{202F}' || c == '\U{205F}' || c == '\U{3000}'
  }

  /** string.IsNullOrEmpty */
  predicate IsNullOrEmpty(s: NString) {
    s.None? || |s.value| == 0
  }

  /** string.IsNullOrWhiteSpace */
  predicate IsNullOrWhiteSpace(s: NString) {
    s.None? || forall i :: 0 <= i < |s.value| ==> IsWhiteSpace(s.value[i])
  }

  /** What string interpolation writes for a possibly-null string. */
  function Show(s: NString): string {
    s.GetOr("")
  }

  // ---------------------------------------------------------------------
  // Ordinal ordering

  /** Strict lexicographic order on characters, compared as Unicode
      scalar values. */
  predicate Less(a: string, b: string)
    decreases |a|
  {
    |b| > 0 && (|a| == 0 || a[0] < b[0] || (a[0] == b[0] && Less(a[1..], b[1..])))
  }

  lemma {:induction false} LessIrreflexive(a: string)
    ensures !Less(a, a)
    decreases |a|
  {
    if |a| > 0 {
      LessIrreflexive(a[1..]);
    }
  }

  lemma {:induction false} LessTransitive(a: string, b: string, c: string)
    requires Less(a, b) && Less(b, c)
    ensures Less(a, c)
    decreases |a|
  {
    if |a| > 0 && a[0] == b[0] && b[0] == c[0] {
      LessTransitive(a[1..], b[1..], c[1..]);
    }
  }

  lemma {:induction false} LessTotal(a: string, b: string)
    requires a != b
    ensures Less(a, b) || Less(b, a)
    decreases |a|
  {
    if |a| > 0 && |b| > 0 && a[0] == b[0] {
      assert a == [a[0]] + a[1..] && b == [b[0]] + b[1..];
      LessTotal(a[1..], b[1..]);
    }
  }

  /** Ordering of nullable strings as a database sorts them: null first. */
  predicate NLess(a: NString, b: NString) {
    match (a, b)
    case (None, Some(_)) => true
    case (Some(x), Some(y)) => Less(x, y)
    case _ => false
  }

  lemma NLessIrreflexive(a: NString)
    ensures !NLess(a, a)
  {
    if a.Some? {
      LessIrreflexive(a.value);
    }
  }

  lemma NLessTransitive(a: NString, b: NString, c: NString)
    requires NLess(a, b) && NLess(b, c)
    ensures NLess(a, c)
  {
    if a.Some? {
      LessTransitive(a.value, b.value, c.value);
    }
  }

  lemma NLessTotal(a: NString, b: NString)
    requires a != b
    ensures NLess(a, b) || NLess(b, a)
  {
    if a.Some? && b.Some? {
      LessTotal(a.value, b.value);
    }
  }

  // ---------------------------------------------------------------------
  // String.Join and String.Split over one separator

  /** String.Join(sep, parts) */
  function Join(parts: seq<string>, sep: char): string
  {
    if |parts| == 0 then ""
    else if |parts| == 1 then parts[0]
    else parts[0] + [sep] + Join(parts[1..], sep)
  }

  /** String.Split(sep): every piece between separators, empty ones kept;
      a string without the separator splits into itself. */
  function Split(s: string, sep: char): (r: seq<string>)
    ensures |r| >= 1
    decreases |s|
  {
    if |s| == 0 then [""]
    else
      var rest := Split(s[1..], sep);
      if s[0] == sep then [""] + rest else [[s[0]] + rest[0]] + rest[1..]
  }

  /** A prefix free of separators is glued onto the first piece. */
  lemma {:induction false} SplitPrefix(p: string, t: string, sep: char)
    requires sep !in p
    ensures Split(p + t, sep) == [p + Split(t, sep)[0]] + Split(t, sep)[1..]
    decreases |p|
  {
    if |p| > 0 {
      assert (p + t)[1..] == p[1..] + t;
      SplitPrefix(p[1..], t, sep);
      assert [p[0]] + (p[1..] + Split(t, sep)[0]) == p + Split(t, sep)[0];
    } else {
      var r := Split(t, sep);
      assert p + t == t && p + r[0] == r[0];
      assert r == [r[0]] + r[1..];
    }
  }

  /** Splitting a joined list gives the list back when no part holds the
      separator. The list must be non-empty: Join([]) == "" splits to [""]. */
  lemma {:induction false} SplitJoin(parts: seq<string>, sep: char)
    requires |parts| > 0
    requires forall i :: 0 <= i < |parts| ==> sep !in parts[i]
    ensures Split(Join(parts, sep), sep) == parts
    decreases |parts|
  {
    if |parts| == 1 {
      SplitPrefix(parts[0], "", sep);
      assert parts[0] + "" == parts[0];
    } else {
      var tail := [sep] + Join(parts[1..], sep);
      assert Join(parts, sep) == parts[0] + tail;
      SplitPrefix(parts[0], tail, sep);
      assert tail[1..] == Join(parts[1..], sep);
      SplitJoin(parts[1..], sep);
      assert Split(tail, sep) == [""] + parts[1..];
      assert parts[0] + "" == parts[0];
      assert parts == [parts[0]] + parts[1..];
    }
  }

  // ---------------------------------------------------------------------
  // String.IndexOf and String.LastIndexOf of one character

  /** String.IndexOf(c): the position of the first c, or -1 when there is none. */
  function IndexOf(s: string, c: char): (i: int)
    ensures -1 <= i < |s|
    ensures i == -1 <==> c !in s
    ensures i >= 0 ==> s[i] == c && forall j :: 0 <= j < i ==> s[j] != c
    decreases |s|
  {
    if |s| == 0 then -1
    else if s[0] == c then 0
    else
      var k := IndexOf(s[1..], c);
      assert s == [s[0]] + s[1..];
      assert forall j :: 1 <= j < |s| ==> s[j] == s[1..][j - 1];
      if k == -1 then -1 else k + 1
  }

  /** String.LastIndexOf(c): the position of the last c, or -1 when there is none. */
  function LastIndexOf(s: string, c: char): (i: int)
    ensures -1 <= i < |s|
    ensures i == -1 <==> c !in s
    ensures i >= 0 ==> s[i] == c && forall j :: i < j < |s| ==> s[j] != c
    decreases |s|
  {
    if |s| == 0 then -1
    else if s[|s| - 1] == c then |s| - 1
    else
      assert s == s[..|s| - 1] + [s[|s| - 1]];
      LastIndexOf(s[..|s| - 1], c)
  }
}

=== FILE: user_repository.dfy ===
/** UserRepository: the two user lookups. FirstOrDefault returns the first
    matching row in table order, so the Users table is a list here. */
module UserRepository {
  import opened Wrappers
  import opened Text
  import opened Guids
  import opened Entities
  import opened Database

  /** The first user satisfying `matches`, or none. */
  function FirstWhere(users: seq<User>, matches: User -> bool): (r: Option<User>)
    ensures r.None? <==> forall i :: 0 <= i < |users| ==> !matches(users[i])
    ensures r.Some? ==> exists i :: 0 <= i < |users| && users[i] == r.value && matches(users[i])
                                    && forall j :: 0 <= j < i ==> !matches(users[j])
  {
    if |users| == 0 then None
    else if matches(users[0]) then Some(users[0])
    else
      var r := FirstWhere(users[1..], matches);
      assert forall i :: 1 <= i < |users| ==> users[i] == users[1..][i - 1];
      if r.Some? then
        var k :| 0 <= k < |users[1..]| && users[1..][k] == r.value && matches(users[1..][k])
                 && forall j :: 0 <= j < k ==> !matches(users[1..][j]);
        assert users[k + 1] == r.value && forall j :: 0 <= j < k + 1 ==> !matches(users[j]);
        r
      else r
  }

  predicate HasCredentials(u: User, email: string, password: string) {
    u.email == Some(email) && u.password == Some(password)
  }

  /** GetUserAsync(email, password): a null or empty email is rejected
      first, then a null or empty password; otherwise the first user with
      exactly that email and password, or none. */
  function GetUserByCredentials(s: Store, email: NString, password: NString): (r: Result<Option<User>>)
    ensures IsNullOrEmpty(email) <==> r == Failure(ArgumentNull("email"))
    ensures !IsNullOrEmpty(email) && IsNullOrEmpty(password) <==> r == Failure(ArgumentNull("password"))
    ensures r.Success? && r.value.None? ==>
      forall i :: 0 <= i < |s.users| ==> !HasCredentials(s.users[i], email.value, password.value)
    ensures r.Success? && r.value.Some? ==>
      exists i :: 0 <= i < |s.users| && s.users[i] == r.value.value
                  && HasCredentials(s.users[i], email.value, password.value)
                  && forall j :: 0 <= j < i ==> !HasCredentials(s.users[j], email.value, password.value)
  {
    if IsNullOrEmpty(email) then Failure(ArgumentNull("email"))
    else if IsNullOrEmpty(password) then Failure(ArgumentNull("password"))
    else Success(FirstWhere(s.users, (u: User) => HasCredentials(u, email.value, password.value)))
  }

  /** GetUserAsync(userId): the empty id is rejected; otherwise the first
      user with that id, or none. */
  function GetUserById(s: Store, userId: Guid): (r: Result<Option<User>>)
    ensures userId == Empty <==> r == Failure(ArgumentNull("userId"))
    ensures r.Success? ==> (r.value.Some? <==> exists i :: 0 <= i < |s.users| && s.users[i].id == userId)
    ensures r.Success? && r.value.Some? ==> r.value.value.id == userId && r.value.value in s.users
  {
    if userId == Empty then Failure(ArgumentNull("userId"))
    else Success(FirstWhere(s.users, (u: User) => HasId(u, userId)))
  }

  predicate HasId(u: User, userId: Guid) {
    u.id == userId
  }

  /** A user stored ahead of another with the same credentials hides it. */
  lemma EarlierUserWins(s: Store, u: User, v: User, email: string, password: string)
    requires |s.users| == 2 && s.users[0] == u && s.users[1] == v
    requires email != "" && password != ""
    requires HasCredentials(u, email, password) && HasCredentials(v, email, password)
    ensures GetUserByCredentials(s, Some(email), Some(password)) == Success(Some(u))
  {
  }
}

=== FILE: validators.dfy ===
/** The four FluentValidation rule tables as explicit functions. Every
    rule chain runs all of its validators (the default cascade mode) and
    every rule runs, so a result lists every failing (property,
    validator) pair in declaration order; a model is valid iff that list
    is empty. */
module Validators {
  import opened Wrappers
  import opened Text
  import opened Calendar
  import opened AgeHelper
  import opened Entities
  import opened Models

  datatype Rule =
    | NotNull
    | NotEmpty
    | Length(min: nat, max: nat)
    | MaximumLength(max: nat)
    | Must
    | GreaterThanOrEqualTo(bound: int)
    | LessThanOrEqualTo(bound: int)
    | EmailAddress

  datatype ValidationFailure = ValidationFailure(property: string, rule: Rule)

  /** Whether one string validator accepts a value. NotEmpty also rejects
      white space; Length and MaximumLength count UTF-16 code units
      (string.Length) inclusively; these three and EmailAddress let null
      through. */
  predicate StringRulePasses(rule: Rule, s: NString) {
    match rule
    case NotNull => s.Some?
    case NotEmpty => !IsNullOrWhiteSpace(s)
    case Length(min, max) => s.None? || min <= Utf16Length(s.value) <= max
    case MaximumLength(max) => s.None? || Utf16Length(s.value) <= max
    case EmailAddress => s.None? || IsEmailAddress(s.value)
    case _ => true
  }

  /** EmailAddress in FluentValidation's default mode, the one compatible
      with ASP.NET Core's EmailAddressAttribute: the first '@' is neither
      the first nor the last character, and it is the last '@' too. The
      program's indexes count UTF-16 code units, but '@' is a single unit,
      so the test reads the same on characters. */
  predicate IsEmailAddress(s: string) {
    var at := IndexOf(s, '@');
    at > 0 && at != |s| - 1 && at == LastIndexOf(s, '@')
  }

  /** An e-mail address holds exactly one '@', with at least one character
      on each side of it. */
  lemma EmailAddressIff(s: string)
    ensures IsEmailAddress(s) <==>
      exists i :: 0 < i < |s| - 1 && s[i] == '@' && forall j :: 0 <= j < |s| && s[j] == '@' ==> j == i
  {
    var first, last := IndexOf(s, '@'), LastIndexOf(s, '@');
    if IsEmailAddress(s) {
      assert forall j :: 0 <= j < |s| && s[j] == '@' ==> first <= j <= last;
      assert 0 < first < |s| - 1 && s[first] == '@';
    }
    if exists i :: 0 < i < |s| - 1 && s[i] == '@' && forall j :: 0 <= j < |s| && s[j] == '@' ==> j == i {
      var i :| 0 < i < |s| - 1 && s[i] == '@' && forall j :: 0 <= j < |s| && s[j] == '@' ==> j == i;
      assert '@' in s;
      assert first == i && last == i;
    }
  }

  /** Runs a chain of string validators on one property. */
  function CheckString(property: string, s: NString, chain: seq<Rule>): (fs: seq<ValidationFailure>)
    ensures |fs| <= |chain|
    ensures forall i :: 0 <= i < |fs| ==> fs[i].property == property && fs[i].rule in chain && !StringRulePasses(fs[i].rule, s)
    ensures forall r :: r in chain && !StringRulePasses(r, s) ==> ValidationFailure(property, r) in fs
  {
    if |chain| == 0 then []
    else
      var rest := CheckString(property, s, chain[1..]);
      assert forall r :: r in chain[1..] ==> r in chain;
      if StringRulePasses(chain[0], s) then rest else [ValidationFailure(property, chain[0])] + rest
  }

  /** Runs a chain of integer comparison validators on one property. */
  function CheckInt(property: string, n: int, chain: seq<Rule>): (fs: seq<ValidationFailure>)
    ensures forall i :: 0 <= i < |fs| ==> fs[i].property == property && fs[i].rule in chain
    ensures |fs| == 0 <==> forall r :: r in chain ==> IntRulePasses(r, n)
  {
    if |chain| == 0 then []
    else
      var rest := CheckInt(property, n, chain[1..]);
      assert forall r :: r in chain[1..] ==> r in chain;
      assert chain == [chain[0]] + chain[1..];
      if IntRulePasses(chain[0], n) then rest else [ValidationFailure(property, chain[0])] + rest
  }

  predicate IntRulePasses(rule: Rule, n: int) {
    match rule
    case GreaterThanOrEqualTo(b) => n >= b
    case LessThanOrEqualTo(b) => n <= b
    case _ => true
  }

  /** The failures that name one property. */
  function FailuresOf(fs: seq<ValidationFailure>, property: string): seq<ValidationFailure> {
    if |fs| == 0 then []
    else (if fs[0].property == property then [fs[0]] else []) + FailuresOf(fs[1..], property)
  }

  lemma {:induction false} FailuresOfAppend(a: seq<ValidationFailure>, b: seq<ValidationFailure>, p: string)
    ensures FailuresOf(a + b, p) == FailuresOf(a, p) + FailuresOf(b, p)
    decreases |a|
  {
    if |a| > 0 {
      assert (a + b)[1..] == a[1..] + b;
      FailuresOfAppend(a[1..], b, p);
    } else {
      assert a + b == b;
    }
  }

  lemma {:induction false} FailuresOfSame(fs: seq<ValidationFailure>, p: string)
    requires forall i :: 0 <= i < |fs| ==> fs[i].property == p
    ensures FailuresOf(fs, p) == fs
    decreases |fs|
  {
    if |fs| > 0 {
      FailuresOfSame(fs[1..], p);
      assert fs == [fs[0]] + fs[1..];
    }
  }

  lemma {:induction false} FailuresOfOther(fs: seq<ValidationFailure>, p: string)
    requires forall i :: 0 <= i < |fs| ==> fs[i].property != p
    ensures FailuresOf(fs, p) == []
    decreases |fs|
  {
    if |fs| > 0 {
      FailuresOfOther(fs[1..], p);
    }
  }

  /** A property with failures is named by some failure of the list. */
  lemma {:induction false} FailuresOfNamed(fs: seq<ValidationFailure>, p: string)
    requires FailuresOf(fs, p) != []
    ensures exists i :: 0 <= i < |fs| && fs[i].property == p
    decreases |fs|
  {
    if fs[0].property != p {
      FailuresOfNamed(fs[1..], p);
      var i :| 0 <= i < |fs[1..]| && fs[1..][i].property == p;
      assert fs[i + 1].property == p;
    }
  }

  // ---------------------------------------------------------------------
  // Reference statements of the rules, written without the rule tables

  /** NotNull().NotEmpty().Length(min, max) */
  predicate RequiredWithLength(s: NString, min: nat, max: nat) {
    && s.Some?
    && (exists i :: 0 <= i < |s.value| && !IsWhiteSpace(s.value[i]))
    && min <= Utf16Length(s.value) <= max
  }

  /** NotNull().NotEmpty() */
  predicate Required(s: NString) {
    s.Some? && exists i :: 0 <= i < |s.value| && !IsWhiteSpace(s.value[i])
  }

  /** A chain reports nothing exactly when every one of its rules passes. */
  lemma {:induction false} CheckStringEmptyIff(property: string, s: NString, chain: seq<Rule>)
    ensures CheckString(property, s, chain) == [] <==> forall r :: r in chain ==> StringRulePasses(r, s)
    decreases |chain|
  {
    if |chain| > 0 {
      CheckStringEmptyIff(property, s, chain[1..]);
      assert chain == [chain[0]] + chain[1..];
    }
  }

  lemma RequiredWithLengthChain(property: string, s: NString, min: nat, max: nat)
    ensures CheckString(property, s, [NotNull, NotEmpty, Length(min, max)]) == [] <==> RequiredWithLength(s, min, max)
  {
    var chain := [NotNull, NotEmpty, Length(min, max)];
    CheckStringEmptyIff(property, s, chain);
    assert (forall r :: r in chain ==> StringRulePasses(r, s)) <==>
      StringRulePasses(NotNull, s) && StringRulePasses(NotEmpty, s) && StringRulePasses(Length(min, max), s);
  }

  lemma RequiredChain(property: string, s: NString)
    ensures CheckString(property, s, [NotNull, NotEmpty]) == [] <==> Required(s)
  {
    var chain := [NotNull, NotEmpty];
    CheckStringEmptyIff(property, s, chain);
    assert (forall r :: r in chain ==> StringRulePasses(r, s)) <==>
      StringRulePasses(NotNull, s) && StringRulePasses(NotEmpty, s);
  }

  // ---------------------------------------------------------------------
  // AuthorUpdateValidator

  const AuthorNameMin := 3
  const AuthorNameMax := 50

  function NameChain(): seq<Rule> {
    [NotNull, NotEmpty, Length(AuthorNameMin, AuthorNameMax)]
  }

  /** The four independent rules for a patched author; the age rule is
      AgeHelper.BeValidAge against the current year. */
  function ValidateAuthorUpdate(m: AuthorForUpdateModel, currentYear: Year): (fs: seq<ValidationFailure>)
  {
    CheckString("FirstName", m.firstName, NameChain())
    + CheckString("LastName", m.lastName, NameChain())
    + AgeFailures(m, currentYear)
    + CheckString("MainCategory", m.mainCategory, [NotNull, NotEmpty])
  }

  /** Picking one property out of three concatenated segments where only
      the middle one names it. */
  lemma FailuresOfSegment(pre: seq<ValidationFailure>, mid: seq<ValidationFailure>, post: seq<ValidationFailure>, p: string)
    requires forall i :: 0 <= i < |pre| ==> pre[i].property != p
    requires forall i :: 0 <= i < |mid| ==> mid[i].property == p
    requires forall i :: 0 <= i < |post| ==> post[i].property != p
    ensures FailuresOf(pre + mid + post, p) == mid
  {
    FailuresOfAppend(pre + mid, post, p);
    FailuresOfAppend(pre, mid, p);
    FailuresOfOther(pre, p);
    FailuresOfSame(mid, p);
    FailuresOfOther(post, p);
  }

  /** The date-of-birth rule: BeValidAge, reported as a failed Must. */
  function AgeFailures(m: AuthorForUpdateModel, currentYear: Year): (fs: seq<ValidationFailure>)
    ensures forall i :: 0 <= i < |fs| ==> fs[i].property == "DateOfBirth"
    ensures fs == [] <==> BeValidAge(m.dateOfBirth, currentYear)
  {
    if BeValidAge(m.dateOfBirth, currentYear) then [] else [ValidationFailure("DateOfBirth", Must)]
  }

  lemma FirstNameFailures(m: AuthorForUpdateModel, currentYear: Year)
    ensures FailuresOf(ValidateAuthorUpdate(m, currentYear), "FirstName") == [] <==> RequiredWithLength(m.firstName, AuthorNameMin, AuthorNameMax)
  {
    var f := CheckString("FirstName", m.firstName, NameChain());
    var l := CheckString("LastName", m.lastName, NameChain());
    var d := AgeFailures(m, currentYear);
    var c := CheckString("MainCategory", m.mainCategory, [NotNull, NotEmpty]);
    FailuresOfAppend(f + l + d, c, "FirstName");
    FailuresOfAppend(f + l, d, "FirstName");
    FailuresOfAppend(f, l, "FirstName");
    FailuresOfSame(f, "FirstName");
    FailuresOfOther(l, "FirstName");
    FailuresOfOther(d, "FirstName");
    FailuresOfOther(c, "FirstName");
    RequiredWithLengthChain("FirstName", m.firstName, AuthorNameMin, AuthorNameMax);
  }

  lemma LastNameFailures(m: AuthorForUpdateModel, currentYear: Year)
    ensures FailuresOf(ValidateAuthorUpdate(m, currentYear), "LastName") == [] <==> RequiredWithLength(m.lastName, AuthorNameMin, AuthorNameMax)
  {
    var pre := CheckString("FirstName", m.firstName, NameChain());
    var l := CheckString("LastName", m.lastName, NameChain());
    var post := AgeFailures(m, currentYear) + CheckString("MainCategory", m.mainCategory, [NotNull, NotEmpty]);
    assert ValidateAuthorUpdate(m, currentYear) == pre + l + post;
    FailuresOfSegment(pre, l, post, "LastName");
    RequiredWithLengthChain("LastName", m.lastName, AuthorNameMin, AuthorNameMax);
  }

  lemma DateOfBirthFailures(m: AuthorForUpdateModel, currentYear: Year)
    ensures FailuresOf(ValidateAuthorUpdate(m, currentYear), "DateOfBirth") == [] <==> BeValidAge(m.dateOfBirth, currentYear)
  {
    var pre := CheckString("FirstName", m.firstName, NameChain()) + CheckString("LastName", m.lastName, NameChain());
    var d := AgeFailures(m, currentYear);
    var post := CheckString("MainCategory", m.mainCategory, [NotNull, NotEmpty]);
    assert ValidateAuthorUpdate(m, currentYear) == pre + d + post;
    FailuresOfSegment(pre, d, post, "DateOfBirth");
  }

  lemma MainCategoryFailures(m: AuthorForUpdateModel, currentYear: Year)
    ensures FailuresOf(ValidateAuthorUpdate(m, currentYear), "MainCategory") == [] <==> Required(m.mainCategory)
  {
    var pre := CheckString("FirstName", m.firstName, NameChain()) + CheckString("LastName", m.lastName, NameChain())
               + AgeFailures(m, currentYear);
    var c := CheckString("MainCategory", m.mainCategory, [NotNull, NotEmpty]);
    assert ValidateAuthorUpdate(m, currentYear) == pre + c + [];
    FailuresOfSegment(pre, c, [], "MainCategory");
    RequiredChain("MainCategory", m.mainCategory);
  }

  /** Valid iff all four rules hold. */
  lemma AuthorUpdateValidIff(m: AuthorForUpdateModel, currentYear: Year)
    ensures ValidateAuthorUpdate(m, currentYear) == [] <==>
      && RequiredWithLength(m.firstName, AuthorNameMin, AuthorNameMax)
      && RequiredWithLength(m.lastName, AuthorNameMin, AuthorNameMax)
      && BeValidAge(m.dateOfBirth, currentYear)
      && Required(m.mainCategory)
  {
    RequiredWithLengthChain("FirstName", m.firstName, AuthorNameMin, AuthorNameMax);
    RequiredWithLengthChain("LastName", m.lastName, AuthorNameMin, AuthorNameMax);
    RequiredChain("MainCategory", m.mainCategory);
  }

  // ---------------------------------------------------------------------
  // AuthorValidator (over the AuthorModel view)

  const MinAuthorAge := 18
  const MaxAuthorAge := 80

  function ValidateAuthorModel(m: AuthorModel): (fs: seq<ValidationFailure>)
  {
    CheckString("Name", Some(m.name), NameChain())
    + CheckInt("Age", m.age, [GreaterThanOrEqualTo(MinAuthorAge), LessThanOrEqualTo(MaxAuthorAge)])
    + CheckString("MainCategory", m.mainCategory, [NotNull, NotEmpty])
  }

  /** Valid iff the name is present, not blank and 3..50 code units, the
      age lies in 18..80 inclusive, and the category is present. */
  lemma AuthorModelValidIff(m: AuthorModel)
    ensures ValidateAuthorModel(m) == [] <==>
      && RequiredWithLength(Some(m.name), AuthorNameMin, AuthorNameMax)
      && MinAuthorAge <= m.age <= MaxAuthorAge
      && Required(m.mainCategory)
  {
    RequiredWithLengthChain("Name", Some(m.name), AuthorNameMin, AuthorNameMax);
    RequiredChain("MainCategory", m.mainCategory);
    var ageChain := [GreaterThanOrEqualTo(MinAuthorAge), LessThanOrEqualTo(MaxAuthorAge)];
    assert ageChain[0] in ageChain && ageChain[1] in ageChain;
  }

  // ---------------------------------------------------------------------
  // CourseValidator

  const CourseTitleMin := 3
  const CourseTitleMax := 100
  const CourseDescriptionMax := 300

  function ValidateCourse(m: CourseForCreationModel): (fs: seq<ValidationFailure>)
  {
    CheckString("Title", m.title, [NotNull, NotEmpty, Length(CourseTitleMin, CourseTitleMax)])
    + CheckString("Description", m.description, [MaximumLength(CourseDescriptionMax)])
  }

  /** Valid iff the title is present, not blank and 3..100 code units and
      the description, if any, is at most 300 code units: an empty or
      absent description is accepted. */
  lemma CourseValidIff(m: CourseForCreationModel)
    ensures ValidateCourse(m) == [] <==>
      && RequiredWithLength(m.title, CourseTitleMin, CourseTitleMax)
      && (m.description.None? || Utf16Length(m.description.value) <= CourseDescriptionMax)
  {
    RequiredWithLengthChain("Title", m.title, CourseTitleMin, CourseTitleMax);
    if m.description.Some? && Utf16Length(m.description.value) > CourseDescriptionMax {
      assert MaximumLength(CourseDescriptionMax) in [MaximumLength(CourseDescriptionMax)];
    }
  }

  /** The validator admits titles the store's 50-unit column cannot
      hold. */
  lemma ValidatedTitleMayNotFitColumn()
    ensures var title := seq(60, _ => 'a');
            var m := CourseForCreationModel(Some(title), None);
            && ValidateCourse(m) == []
            && !CourseFitsColumns(Course(Guids.Empty, m.title, m.description, Guids.Empty))
  {
    var title := seq(60, _ => 'a');
    assert !IsWhiteSpace(title[0]);
    CourseValidIff(CourseForCreationModel(Some(title), None));
  }

  /** Lengths are counted in UTF-16 code units: a two-character title
      whose second character lies above U+FFFF has length 3 and passes
      Length(3, 100). */
  lemma AstralTitleMeetsMinimum()
    ensures ValidateCourse(CourseForCreationModel(Some("a\U{1F600}"), None)) == []
  {
    var title := "a\U{1F600}";
    assert !IsWhiteSpace(title[0]);
    AstralCharacterCountsTwice();
    CourseValidIff(CourseForCreationModel(Some(title), None));
  }

  // ---------------------------------------------------------------------
  // AuthenticationValidator

  const CredentialMin := 8
  const CredentialMax := 50

  function ValidateAuthentication(m: AuthenticationModel): (fs: seq<ValidationFailure>)
  {
    CheckString("Email", m.email, [NotNull, NotEmpty, Length(CredentialMin, CredentialMax), EmailAddress])
    + CheckString("Password", m.password, [NotNull, NotEmpty, Length(CredentialMin, CredentialMax)])
  }

  /** Valid iff the e-mail is present, not blank, 8..50 code units and
      holds exactly one '@' with a character on each side, and the
      password is present, not blank and 8..50 code units. */
  lemma AuthenticationValidIff(m: AuthenticationModel)
    ensures ValidateAuthentication(m) == [] <==>
      && RequiredWithLength(m.email, CredentialMin, CredentialMax)
      && (exists i :: 0 < i < |m.email.value| - 1 && m.email.value[i] == '@'
                      && forall j :: 0 <= j < |m.email.value| && m.email.value[j] == '@' ==> j == i)
      && RequiredWithLength(m.password, CredentialMin, CredentialMax)
  {
    var chain := [NotNull, NotEmpty, Length(CredentialMin, CredentialMax), EmailAddress];
    CheckStringEmptyIff("Email", m.email, chain);
    assert (forall r :: r in chain ==> StringRulePasses(r, m.email)) <==>
      StringRulePasses(NotNull, m.email) && StringRulePasses(NotEmpty, m.email)
      && StringRulePasses(Length(CredentialMin, CredentialMax), m.email) && StringRulePasses(EmailAddress, m.email);
    if m.email.Some? {
      EmailAddressIff(m.email.value);
    }
    RequiredWithLengthChain("Password", m.password, CredentialMin, CredentialMax);
  }

  /** One '@' between two characters is an address; an '@' at either
      end, a second '@' or none at all is not. */
  lemma EmailAddressExamples()
    ensures IsEmailAddress("a@b")
    ensures !IsEmailAddress("@b") && !IsEmailAddress("a@") && !IsEmailAddress("a@@b") && !IsEmailAddress("ab")
  {
    assert "a@b"[1] == '@';
    EmailAddressIff("a@b");
    assert "a@@b"[1] == '@' && "a@@b"[2] == '@';
    EmailAddressIff("a@@b");
  }

  /** Passwords of 7 or 51 code units are rejected. */
  lemma PasswordLengthBounds(m: AuthenticationModel)
    requires m.password.Some? && (Utf16Length(m.password.value) == 7 || Utf16Length(m.password.value) == 51)
    ensures ValidateAuthentication(m) != []
  {
    AuthenticationValidIff(m);
  }
}

=== FILE: wrappers.dfy ===
/** Failure-compatible wrappers shared by the whole model: a nullable
    reference or "not found" answer is an Option; a call that may throw is
    a Result whose failure names the exception. */
module Wrappers {

  datatype Option<+T> = None | Some(value: T) {

    /** The value, or the given default when absent. */
    function GetOr(default: T): T {
      match this
      case Some(v) => v
      case None => default
    }
  }

  /** Exceptions the modelled code raises, or lets the store raise. */
  datatype Error =
    | ArgumentNull(parameter: string)   // ArgumentNullException(nameof(parameter))
    | NullReference                     // dereferencing a null collection or document
    | DuplicateKey                      // primary-key conflict reported by the store
    | ForeignKeyViolation               // a course row whose author row is missing
    | MissingRow                        // an update or delete of a row the store does not hold
    | NoRouteMatch                      // a CreatedAtRoute result naming a route that is declared nowhere

  datatype Result<+T> = Success(value: T) | Failure(error: Error) {

    predicate IsFailure() {
      Failure?
    }

    function PropagateFailure<U>(): Result<U>
      requires Failure?
    {
      Failure(error)
    }

    function Extract(): T
      requires Success?
    {
      value
    }
  }
}
